=== FILE: README.md ===
# authentra core, modelled in Dafny

This project models the core of authentra, an authentication server written
in Rust, and proves properties of that model. The model covers:

- the flow executor, which walks a user through the stages of a flow
  (identification, password, deny and so on) with a cursor and a completed
  flag;
- the reference storage around the executor: lookup tables, frozen storage,
  the recording proxy and replaying dummy storage, the data cache and the
  row decoders;
- the small pure pieces the server is built from: CSRF token masking,
  identifier encoding, the per-request transaction slot, session cookies and
  JWT validation, login, logout and registration, the OAuth client check, the
  application, user and policy administration routes, error-to-status tables
  and the policy engine's URI port rules.

Each source file of the core is one Dafny module in one file, named after its
path (`server/src/executor/flow.rs` is `ExecutorFlow` in `executor_flow.dfy`).
Where the repository holds parallel versions of the same types
(`server/src/model/*`, `model/src/*`, `crates/model/src/*`), each version is
its own module. The one exception is the reference types: the server's copy
in `server/src/model/reference.rs` matches `model/src/reference.rs` except in
`ref_uid()`. So `ServerReference` holds only that function and reuses
`ModelReference` for the rest.

Database tables are maps or sequences. Password hashing (argon2), JWT
decoding, random tokens and identifiers, the rhai expression compiler, UTF-8
decoding and base64 in the policy API are function-typed parameters or plain
inputs. The clock is an input. Every `todo!()`, `unreachable!()` or panic
in the source becomes a precondition, except where the panic is a finding
(below). Locks, atomics and async code are modelled sequentially.

Shared helpers: `Wrappers` (`Option`, `Result`), `StableSort` (a stable
insertion sort by an integer key), `Json` (JSON values), `UuidType` (UUIDs as
numbers), `Base64Url` (unpadded URL-safe base64, which identifiers are
written in) and `AuthInfo` (the session's user and roles; `crate::auth` is
not part of this model).

## Model

| member | source | states |
|---|---|---|
| ExecutorFlow.GetEntry | server/src/executor/flow.rs:58-62 | the entry at the cursor; a cursor out of bounds panics, so it is a precondition |
| ExecutorFlow.LookupStage | server/src/executor/flow.rs:74-86 | the stage the entry references; a stage missing from storage panics, so it is a precondition |
| ExecutorFlow.CompleteCurrent | server/src/executor/flow.rs:64-72 | before the last entry the cursor moves on by one and `completed` is untouched; at the last entry `completed` becomes true and the cursor stays |
| ExecutorFlow.CompleteCurrentInvariant | server/src/executor/flow.rs:64-72 | the cursor stays in bounds and never moves back, and `completed` never returns to false |
| ExecutorFlow.CompleteTimesFromStart | server/src/executor/flow.rs:64-72 | from a fresh execution, n completions put the cursor at min(n, entries - 1), and the execution is completed exactly when n reaches the number of entries |
| ExecutorFlow.CompleteTimesShift | server/src/executor/flow.rs:64-72 | the same from any cursor before completion |
| ExecutorFlow.CompleteTimesCompleted | server/src/executor/flow.rs:64-72 | further completions leave a completed execution unchanged |
| ExecutorFlow.Data | server/src/executor/flow.rs:30-57 | a completed execution redirects to `next`, or shows "Missing Redirect" without it; otherwise the current stage's rendering is shown and never the internal-error page; title, pending user and error are copied unchanged |
| Executor.GetKey | server/src/executor.rs:36-43 | the key holds the session id and the flow id |
| Executor.FlowKeyIdentity | server/src/executor.rs:29-43 | two keys are equal exactly when session and flow agree |
| Executor.InvalidateFlow | server/src/executor.rs:76-78 | the key is gone and every other cached execution is unchanged |
| Executor.Start | server/src/executor.rs:101-131 | an unknown flow gives no execution and caches nothing; a known flow caches and returns an execution at cursor 0, not completed, with a fresh context for the key's session |
| Executor.GetExecution | server/src/executor.rs:84-99 | a cached execution is returned whatever `start` says; a missing key with `start` unset gives none and the cache is unchanged; otherwise it starts |
| Executor.StartThenGet | server/src/executor.rs:84-131 | after a successful start, a lookup of the same key returns the started execution without starting again |
| Executor.Validate | server/src/executor.rs:142-157 | password expiry is not applicable without a user, and otherwise holds exactly when the password is older than `max_age` seconds |
| Executor.ValidateStrictBoundary | server/src/executor.rs:150-152 | a password exactly `max_age` seconds old has not expired |
| ExecutorContext.NewContext | server/src/executor/context.rs:29-39 | a new context has no fields, no pending user, no user and no error, and records the session and start time |
| ExecutorContext.GetDynamic | server/src/executor/context.rs:82-93 | as written: an absent name reads as none; a present name is a type error unless read at the box's own type |
| ExecutorContext.GetDynamicIntended | server/src/executor/context.rs:82-93 | with the stored value's type compared: an absent name reads as none, a type mismatch is an error, a match returns the stored value |
| ExecutorContext.InsertDynamic | server/src/executor/context.rs:100-102 | the name now holds the new value, whatever was there before, and every other name is unchanged |
| ExecutorContext.GetTyped | server/src/executor/context.rs:79-81 | a typed read is the dynamic read at the key's name |
| ExecutorContext.InsertTyped | server/src/executor/context.rs:96-98 | a typed write is the dynamic write at the key's name |
| ExecutorContext.InsertThenGetAsWritten | server/src/executor/context.rs:79-102 | as written, a value inserted at an ordinary type reads back as a type error |
| ExecutorContext.InsertThenGetIntended | server/src/executor/context.rs:79-102 | with the intended comparison, an inserted value reads back at its type and is a type error at any other |
| ExecutorContext.InsertLeavesOtherNames | server/src/executor/context.rs:100-102 | an insert is invisible to reads of every other name |
| ExecutorData.AsComponent | server/src/executor/data.rs:13-50 | Deny shows "Access denied"; identification shows the stage's user fields, no sources and a password box exactly when the stage names a password stage, with an empty recovery URL; the password stage shows an empty recovery URL |
| ApiExecutor.StrFromField | server/src/api/v1/executor.rs:275-283 | a JSON string gives its text; any other value is an invalid-type error naming String as expected and the value's kind as received |
| ApiExecutor.HandlePasswordStage | server/src/api/v1/executor.rs:220-272 | no pending user and a missing password field fail before any hash check; a non-string password is the invalid-type error; with the internal backend, a pending user whose row is gone is `NoPendingUser` and a hash argon2 cannot use is the argon error; success exactly for a correct password with the internal backend, which only marks the pending user authenticated; a wrong password is "Invalid Password" and changes nothing |
| ApiExecutor.HandleIdentification | server/src/api/v1/executor.rs:159-209 | the identification stage needs a uid, answers a non-string uid with the invalid-type error, refuses when no user is found, and otherwise sets an unauthenticated pending user and, when it names a password stage, hands over to that stage's password check for the new pending user; only the pending user changes, and only a password check authenticates it |
| ApiExecutor.UnfoundUidIgnoresPasswordStage | server/src/api/v1/executor.rs:163-196 | a missing, non-string or unknown uid is a submission error that leaves the execution unchanged, whatever the password stage reference names |
| ApiExecutor.HandleStage | server/src/api/v1/executor.rs:148-218 | identification and password stages are handled by their own checks; every other stage accepts anything and changes nothing; only the pending user changes, and it becomes authenticated only through a correct password |
| ApiExecutor.HandleSubmission | server/src/api/v1/executor.rs:132-146 | a completed execution accepts anything; otherwise the current stage handles the form |
| ApiExecutor.CompleteTimesStep | server/src/executor/flow.rs:64-72 | n + 1 completions are one completion after n |
| ApiExecutor.Complete | server/src/api/v1/executor.rs:286-349 | the loop advances at most 41 times, changes only the cursor, the completed flag and the execution error, and ends where that many completions end; every advance passes a stage that needs no input; a login stage with an unauthenticated pending user records an error and stops without advancing; a login happens only for an authenticated pending user; an error is returned exactly at a reached login stage with no pending user (`NoPendingUser`), or with an authenticated one and no session cookie (`InvalidSessionCookie`) or a failing token step |
| ApiExecutor.InputStageShieldsRest | server/src/api/v1/executor.rs:294-302 | `complete` started at a stage that requires input stops there, so whatever stages follow, logout and write included, it can run |
| ApiExecutor.PostFlow | server/src/api/v1/executor.rs:76-129 | a blocking policy check re-renders and changes nothing; a submission error re-renders without advancing; any advance follows an accepted submission; the cursor never moves back and stays in bounds, and `completed` stays true |
| ModelStage.RequiresInput | model/src/stage.rs:67-78 | a stage needs the user's input exactly unless it is a login, logout or user-write stage, whatever the payload |
| ServerStage.RequiresInput | server/src/model/stage.rs:50-61 | the same rule for the server's own stage kinds |
| ModelPolicy.Simplify | model/src/policy.rs:46-54 | each policy kind maps to the simple kind of the same name |
| ModelPolicy.SimplifyIgnoresPayload | model/src/policy.rs:46-54 | two kinds simplify alike exactly when they are the same variant, whatever their maximum ages or expressions |
| ModelPolicy.ToPartial | model/src/policy.rs:56-64 | the partial policy keeps uid and slug and carries the simplified kind |
| ModelPolicy.FromBoolIsApplicableAndInjective | model/src/policy.rs:72-76 | a boolean always gives an applicable result, and distinct booleans give distinct results |
| ServerPolicy.FromBoolIsApplicableAndInjective | server/src/model/policy.rs:26-30 | the same for the server's policy result |
| ServerPolicy.Validate | server/src/model/policy.rs:32-45 | password expiry is not applicable without a user, and otherwise holds exactly when the password is strictly older than `max_age` seconds |
| ServerPolicy.ValidateMonotone | server/src/model/policy.rs:35-41 | if a password has not expired under some maximum age it has not expired under any larger one; at exactly the maximum age it has not expired |
| ModelReference.NewUid | model/src/reference.rs:64-66 | the reference's id is the uid given |
| ModelReference.NewSlug | model/src/reference.rs:67-69 | the reference's id is the slug given |
| ModelReference.Kind | model/src/reference.rs:71-76 | a uid reference is looked up by uid and a slug reference by slug |
| ModelReference.RefUid | model/src/reference.rs:111-149 | stage, prompt, policy and flow all expose their uid |
| ModelReference.RefSlug | model/src/reference.rs:111-149 | every entity but a prompt exposes its slug |
| ModelReference.ConstructorsAndKind | model/src/reference.rs:14-16 | the constructors and `kind()` agree, and two references are equal exactly when their ids are |
| ServerReference.RefUid | server/src/model/reference.rs:82-120 | every entity but a flow exposes its uid |
| ServerReference.RefUidAgreesExceptFlows | server/src/model/reference.rs:82-120 | the server version of `ref_uid()` gives the same reference as the crate version for every target except a flow |
| ModelError.FieldTypeOf | model/src/error.rs:17-28 | each JSON kind maps to the field type of the same name |
| ModelError.FieldTypeSeparatesKinds | model/src/error.rs:17-28 | two JSON values get the same field type exactly when they are of the same kind |
| CrateModelError.FieldTypeOf | crates/model/src/error.rs:18-29 | each JSON kind maps to the field type of the same name |
| CrateModelError.FieldTypeSeparatesKinds | crates/model/src/error.rs:18-29 | two JSON values get the same field type exactly when they are of the same kind |
| ModelTenant.GetFlowAsWritten | model/src/tenant.rs:33-43 | as written: the recovery designation reads the enrollment flow, and every other designation reads its own field |
| ModelTenant.GetFlow | model/src/tenant.rs:33-43 | each designation reads the flow field of the same name |
| ModelTenant.GetFlowSetFlow | model/src/tenant.rs:33-43 | setting a designation's flow is seen by that designation and by no other |
| ModelTenant.RecoveryFlowUnreachableAsWritten | model/src/tenant.rs:39 | as written, a tenant whose only flow is a recovery flow has no flow for recovery |
| ModelTenant.UidRef | model/src/tenant.rs:47-78 | a present flow id becomes a uid reference and an absent one stays absent |
| ModelTenant.FromPg | model/src/tenant.rs:47-78 | the scalar columns are copied, and every designation's flow is the uid reference of its column |
| UserService.FirstMatch | server/src/service/user.rs:49-56 | the first row satisfying the query, or none exactly when no row does |
| UserService.LookupUser | server/src/service/user.rs:41-102 | a name hit wins; otherwise an email hit; otherwise, for text that parses as a uuid, a uuid hit; each only when enabled, and each the first matching row; text that is not a uuid finds nobody once name and email missed; the result is none exactly when no enabled identifier of any user matches |
| UserService.NameBeatsEmail | server/src/service/user.rs:49-64 | with names enabled, a user whose name is the text is found, even if another user's email equals it |
| UserService.LookupUserIsFirstHit | server/src/service/user.rs:41-102 | the lookup equals the first hit over the enabled queries taken in the order name, email, uuid |
| UserService.EmailBeatsUuid | server/src/service/user.rs:65-80 | when no user has the text as name, a user with it as email is found, ahead of any uuid match |
| UserService.LookupUserUid | server/src/service/user.rs:20-39 | a user is returned exactly when one has that uid, and it carries that uid and no avatar |
| FlowStorage.Lookup | server/src/flow_storage.rs:31-37 | slug ids consult only the slug index and uid ids only the uid index |
| FlowStorage.InsertRef | server/src/flow_storage.rs:47-56 | the value is found under the id, and every other id reads as before |
| FlowStorage.Insert | server/src/flow_storage.rs:38-46 | the value is found under its uid reference when it has one and under its slug reference when it has one; every other reference reads as before |
| FlowStorage.LaterInsertWins | server/src/flow_storage.rs:38-56 | a later insert under the same reference replaces the earlier value |
| FlowStorage.NewFreezedEmpty | server/src/flow_storage.rs:514-523 | a new storage is live, has recorded no unresolved references and has empty tables |
| FlowStorage.Freeze | server/src/flow_storage.rs:524-534 | the first freeze drops the backing storage and hands out the recorded unresolved references; on a frozen storage it returns nothing and changes nothing; the tables are kept |
| FlowStorage.FreezedLookup | server/src/flow_storage.rs:537-566 | while live, a hit is cached in the local table and a miss records an unresolved reference of that kind and id; once frozen, only the local table is consulted |
| FlowStorage.FreezeTwice | server/src/flow_storage.rs:524-534 | a second freeze returns no references |
| FlowStorage.ResolvedSurvivesFreeze | server/src/flow_storage.rs:537-566 | a reference resolved by uid before the freeze resolves to the same value after it, whatever the database then holds |
| FlowStorage.FlowByUidLostAfterFreeze | server/src/flow_storage.rs:537-566 | a flow resolved by uid before the freeze is not found by that uid after it, because a flow is cached only under its slug |
| FlowStorage.DecodeStage | server/src/flow_storage.rs:229-287 | uid, slug and timeout are copied; simple kinds map to the same-named kinds; a password stage always gets the internal backend; identification needs its row and carries a password reference exactly when the column is set; consent needs its row, maps `Always` and `Once` to themselves and `Until` to its duration, 0 when there is none |
| FlowStorage.PolicyBindings | server/src/flow_storage.rs:394-404 | one policy binding per row, with the row's enabled, negate and order |
| FlowStorage.UserBindings | server/src/flow_storage.rs:406-416 | one user binding per row, with the row's enabled, negate and order |
| FlowStorage.GroupBindings | server/src/flow_storage.rs:417-429 | one group binding per row, with the row's enabled, negate and order |
| FlowStorage.LoadBindings | server/src/flow_storage.rs:393-435 | a failed query gives no bindings; otherwise the policy, user and group bindings, sorted by order, a permutation of them, and stable: bindings of equal order keep their relative order |
| StableSort.SortByKeyIsStableSort | server/src/flow_storage.rs:434 | insertion sort by key is sorted, a permutation of its input, and keeps the relative order of elements with equal keys |
| StableSort.InsertSorted | server/src/flow_storage.rs:434 | inserting into a sorted sequence keeps it sorted |
| StableSort.InsertPermutes | server/src/flow_storage.rs:434 | inserting adds exactly the one element |
| StableSort.InsertWithKey | server/src/flow_storage.rs:434 | inserting places the element after every element of equal key |
| StorageLib.NewProxyEmpty | storage/src/lib.rs:209-217 | a new proxy holds both maps, empty |
| StorageLib.InsertData | storage/src/lib.rs:219-232 | every query the data creates now leads to the data's id, that id to the data, other queries are unchanged; consistency is kept; an exported proxy panics, so it is a precondition |
| StorageLib.ExportData | storage/src/lib.rs:234-242 | hands over both maps and leaves the proxy without them, so a second export or a later insert panics |
| StorageLib.ProxyFindOne | storage/src/lib.rs:254-259 | forwards the backing answer and records a found value |
| StorageLib.ProxyFindOptional | storage/src/lib.rs:263-270 | forwards the backing answer and records a value only when one is present |
| StorageLib.ProxyFindAll | storage/src/lib.rs:260-262 | forwards the backing answer and records nothing |
| StorageLib.DummyFindOne | storage/src/lib.rs:389-414 | resolves query to id to data; either miss panics, so it is a precondition |
| StorageLib.DummyFindOptional | storage/src/lib.rs:418-421 | an unknown query panics; a known query gives the id's data, or none when the id has no data |
| StorageLib.RecordThenReplay | storage/src/lib.rs:389-414 | a value the proxy found is answered by the exported dummy for every query the value creates |
| StorageLib.ConsistentExportReplays | storage/src/lib.rs:389-401 | in a consistent proxy's export every recorded query can be replayed without panicking |
| StorageLib.CreateFreezed | storage/src/lib.rs:149-162 | each of the five entity kinds is exported exactly once into the dummy storage |
| StorageCache.Get | storage/src/storage.rs:105-135 | a filled slot answers without the getter; a pool failure fills the slot with none and returns the error; the getter's success is stored and returned; its failure stores none and returns the error; other keys are untouched |
| StorageCache.Invalidate | storage/src/storage.rs:137-139 | forgets that key's slot and nothing else |
| StorageCache.SecondGetIsCached | storage/src/storage.rs:105-135 | a second get of a key answers from the slot whatever the backend says now; after a failure it answers none |
| StorageCache.InvalidateThenGetAsksBackend | storage/src/storage.rs:105-139 | after `invalidate`, `get` returns the getter's answer again |
| StorageCache.Arced | storage/src/storage.rs:293-298 | keeps `Ok`/`Err` and `Some`/`None` as they were, and the wrapped value |
| StorageCache.ArcedRoundTrip | storage/src/storage.rs:293-298 | unwrapping the result gives back the input |
| StorageCache.ConflictsFor | storage/src/storage.rs:176-224 | every entity kind reports no conflicts |
| StorageFlow.BindingFromRow | storage/src/flow.rs:114-132 | a user binding if the user column is set, else a group binding if the group column is, else a policy binding if the policy column is, else a user binding to the nil uuid; enabled, negate and order are copied |
| StorageFlow.BindingKindFaithfulForSingleTarget | storage/src/flow.rs:114-125 | when a row names exactly one target, the binding's kind is that target's |
| StorageFlow.DecodeRows | storage/src/flow.rs:103-109 | one binding per row, in row order |
| StorageFlow.GetBindings | storage/src/flow.rs:103-112 | the decoded rows sorted by order, a permutation of them, keeping the relative order of equal orders |
| StorageFlow.FindAllIds | storage/src/flow.rs:44-55 | a uid query returns that one uid without a database read; no query returns all ids; a slug query is unfinished, so it is a precondition |
| StorageStage.IdentificationStage | storage/src/stage.rs:124-138 | the user fields of the referenced row, and a password reference exactly when the password-stage column is set |
| StorageStage.PasswordStage | storage/src/stage.rs:140-145 | the backends are always just the internal one |
| StorageStage.ConsentStage | storage/src/stage.rs:147-162 | the mode of the referenced row: Always, Once, or Until carrying its `until` column |
| StorageStage.PromptBindingsOf | storage/src/stage.rs:171-179 | one prompt binding per row, in row order |
| StorageStage.PromptStage | storage/src/stage.rs:164-182 | the stage's prompt bindings sorted by order, a permutation of them, keeping the relative order of equal orders |
| StorageStage.FromRowAsWritten | storage/src/stage.rs:103-122 | as written: uid, slug and timeout are copied, and a logout row decodes to a user-write stage |
| StorageStage.FromRow | storage/src/stage.rs:103-122 | uid, slug and timeout are copied, and each simple kind decodes to the kind of the same name |
| StorageStage.FromRowKeepsKind | storage/src/stage.rs:103-122 | with logout corrected, a decoded stage maps back to the row's kind column |
| StorageStage.LogoutDecodesAsWrite | storage/src/stage.rs:111 | as written, a logout row decodes to a user-write stage, so its kind is lost |
| InterfaceFlow.BaseUri | server/src/interface/flow.rs:20-28 | the build-time setting when present, the empty string otherwise |
| InterfaceFlow.Location | server/src/interface/flow.rs:38-41 | the base, then `/flow/` and the slug, then `?` and the raw query exactly when a query was given |
| InterfaceFlow.LocationDeterminesQuery | server/src/interface/flow.rs:38-41 | two queries that give the same location are the same query, so the query reaches the interface unchanged |
| InterfaceFlow.RedirectTo | server/src/interface/flow.rs:36-45 | 302 with the location of the flow's slug exactly when there is a flow and it resolves; 404 without a location otherwise |
| InterfaceFlow.TenantFlowRedirectAsWritten | server/src/interface/flow.rs:30-46 | as written: every designation but recovery redirects as the corrected handler does, and recovery redirects as for the enrollment flow |
| InterfaceFlow.TenantFlowRedirect | server/src/interface/flow.rs:30-46 | with the corrected `get_flow`: 302 with the flow's location exactly when the tenant has a flow for the designation and that flow resolves; 404 without a location otherwise |
| InterfaceFlow.RecoveryRedirectsToEnrollmentAsWritten | server/src/interface/flow.rs:36 | as written, a tenant with an enrollment flow and no recovery flow sends `/recovery` to the enrollment flow's page; the corrected handler answers 404 |
| InterfaceFlow.RecoveryRedirectsToRecoveryFlow | server/src/interface/flow.rs:36-42 | with the corrected lookup, `/recovery` redirects to the tenant's own recovery flow whenever it resolves |
| InterfaceFlow.ResolveTenant | server/src/interface/flow.rs:63-76 | a missing Host is rejected; the tenant whose slug is the Host wins; else the default tenant; not found exactly when neither exists |
| InterfaceFlow.RejectionStatus | server/src/interface/flow.rs:54-61 | a missing tenant is 404; a Host rejection keeps the framework's status |
| Csrf.Alphabet | server/src/api/csrf.rs:26-32 | 62 characters: the lower-case letters, the upper-case letters, the digits, in that order |
| Csrf.Index | server/src/api/csrf.rs:219-231 | the first alphabet position holding the character |
| Csrf.AlphabetIsAlnum | server/src/api/csrf.rs:26-31 | a character is in the alphabet exactly when it is an ASCII letter or digit |
| Csrf.IndexOfAlphabet | server/src/api/csrf.rs:219-231 | looking up the character at a position gives back that position |
| Csrf.OverflowingSubChars | server/src/api/csrf.rs:244-252 | `x - y` when it does not wrap, `62 - (y - x)` when it does |
| Csrf.OverflowingSubIsModular | server/src/api/csrf.rs:244-252 | on alphabet positions the wrapped subtraction is subtraction modulo 62 |
| Csrf.MaskChar | server/src/api/csrf.rs:233-240 | one output character: alphanumeric, at the sum or the difference of the two input positions modulo 62 |
| Csrf.MaskOp | server/src/api/csrf.rs:218-242 | as long as the shorter input; every character alphanumeric; each position is the sum, or the difference, of the two inputs' positions modulo 62 |
| Csrf.MaskOpRoundTrip | server/src/api/csrf.rs:218-242 | subtracting a mask undoes adding it |
| Csrf.ByteBoundary | server/src/api/csrf.rs:255-256 | when the first `n` UTF-8 bytes end on a character boundary, the prefix up to the returned index has exactly `n` bytes |
| Csrf.AsciiLengths | server/src/api/csrf.rs:255-261 | on ASCII text byte length and character count agree and every byte offset is a boundary |
| Csrf.MaskCsrf | server/src/api/csrf.rs:211-216 | the mask, then the secret masked by it |
| Csrf.MaskedIsAlnum | server/src/api/csrf.rs:211-242 | a masked token is alphanumeric throughout |
| Csrf.MaskUnmaskRoundTrip | server/src/api/csrf.rs:211-258 | unmasking a masked generated secret gives the secret back |
| Csrf.ValidateToken | server/src/api/csrf.rs:260-267 | a token of other than 64 bytes validates exactly when it equals the secret; a 64-byte token exactly when it can be unmasked and unmasks to the secret; wherever the written code does not panic the two agree |
| Csrf.SecretAndMaskedValidate | server/src/api/csrf.rs:282-293 | a generated secret validates both as itself and masked |
| Csrf.DashTokenPanicsAsWritten | server/src/api/csrf.rs:218-262 | 64 dashes pass the header's text check but cannot be unmasked, so the written validation panics; the corrected one refuses them |
| Csrf.CheckCookie | server/src/api/csrf.rs:178-193 | a missing cookie is `MissingCookie` and asks for a new cookie exactly when `add` is set; a missing or non-text header is `InvalidHeader`; otherwise success exactly when the header validates against the cookie under the corrected `ValidateToken` (the as-written panic is the csrf.rs:218-267 finding below) |
| Csrf.CheckCsrf | server/src/api/csrf.rs:121-162 | only 400 or 403; safe methods fail only on a token that does not validate and pass on the cookie request; other methods need a textual Host and a textual Origin if any; an Origin other than scheme://Host, not on the allowed list and without the wildcard is 403; an unsafe request with an acceptable or absent Origin is judged by its token exactly as a safe one |
| Csrf.SameOriginPostPasses | server/src/api/csrf.rs:121-162 | a same-origin POST carrying the generated secret in its cookie and the masked secret in its header passes, whatever hosts the layer allows |
| Csrf.MaskedHeaderPasses | server/src/api/csrf.rs:178-193 | a request with the generated secret in the cookie and the masked secret in the header passes the token check |
| IdGen.Pow256 | server/src/utils/id_gen.rs:6 | powers of 256 are positive |
| IdGen.ToBeBytes | server/src/utils/id_gen.rs:78 | `n` bytes |
| IdGen.FromBeBytes | server/src/utils/id_gen.rs:142 | below 256 to the number of bytes |
| IdGen.BeRoundTrip | server/src/utils/id_gen.rs:142 | reading back big-endian bytes gives the number |
| IdGen.BeRoundTripBytes | server/src/utils/id_gen.rs:78 | writing back a read number gives the bytes |
| IdGen.AsBytes | server/src/utils/id_gen.rs:76-81 | 136 bytes ending with the data |
| IdGen.FromBytesUnchecked | server/src/utils/id_gen.rs:138-147 | a valid id whose data is the bytes after the first eight |
| IdGen.BytesRoundTrip | server/src/utils/id_gen.rs:153-163 | reading the layout of an id gives the id |
| IdGen.BytesRoundTripFromBytes | server/src/utils/id_gen.rs:138-147 | writing the id read from 136 bytes gives the bytes |
| IdGen.FromBytes | server/src/utils/id_gen.rs:131-136 | any length other than 136 is an error carrying the length; 136 bytes are read |
| IdGen.AsString | server/src/utils/id_gen.rs:83-88 | 182 characters |
| IdGen.FromStr | server/src/utils/id_gen.rs:97-105 | fails exactly when base64 decoding fails; otherwise the id's layout is the decoded bytes |
| IdGen.StringRoundTrip | server/src/utils/id_gen.rs:172-181 | reading an id's text gives the id |
| IdGen.BeOrder | server/src/utils/id_gen.rs:78 | big-endian bytes order as the numbers do |
| IdGen.LexAppend | server/src/utils/id_gen.rs:10 | lexicographic order on concatenations compares the fronts first |
| IdGen.OrderMatchesBytes | server/src/utils/id_gen.rs:10-14 | the derived order of ids is the lexicographic order of their byte layouts |
| Base64Url.Value | server/src/utils/id_gen.rs:101 | a symbol's value maps back to the symbol |
| Base64Url.ValueOfSymbol | server/src/utils/id_gen.rs:83-105 | each of the 64 values is read back from its symbol |
| Base64Url.Encode | server/src/utils/id_gen.rs:86 | the unpadded length, four symbols per three bytes rounded up |
| Base64Url.Decode | server/src/utils/id_gen.rs:101 | a length of 1 modulo 4 is an error |
| Base64Url.DecodeRejectsForeignSymbol | server/src/utils/id_gen.rs:101 | a symbol outside the alphabet at any position makes decoding fail |
| Base64Url.FullGroupRoundTrip | server/src/utils/id_gen.rs:83-105 | a group of three bytes decodes back from its four symbols |
| Base64Url.DecodeEncodeOne | server/src/utils/id_gen.rs:83-105 | a final single byte decodes back from its two symbols |
| Base64Url.DecodeEncodeTwo | server/src/utils/id_gen.rs:83-105 | a final pair of bytes decodes back from its three symbols |
| Base64Url.DecodeEncode | server/src/utils/id_gen.rs:83-105 | every byte string decodes back from its encoding |
| Base64Url.FullGroupCanonical | server/src/utils/id_gen.rs:83-105 | four symbols are the encoding of what they decode to |
| Base64Url.CanonicalTwo | server/src/utils/id_gen.rs:101 | an accepted final pair of symbols is the encoding of its byte |
| Base64Url.CanonicalThree | server/src/utils/id_gen.rs:101 | an accepted final triple of symbols is the encoding of its two bytes |
| Base64Url.EncodeDecode | server/src/utils/id_gen.rs:83-105 | every accepted text is the encoding of what it decodes to |
| SqlTx.NewSlot | server/src/api/sql_tx.rs:237-240 | a fresh slot holding the value; the existing slots are unchanged |
| SqlTx.NewLeased | server/src/api/sql_tx.rs:241-245 | a fresh slot that is already empty, and a lease holding the value that points at it |
| SqlTx.Lease | server/src/api/sql_tx.rs:247-253 | a lease exactly when the slot holds a value; the lease takes the value and points at the slot, which becomes empty; an empty slot is left as it was |
| SqlTx.IntoInner | server/src/api/sql_tx.rs:255-257 | the slot's content, and the slot is gone; every other slot is unchanged |
| SqlTx.DropLease | server/src/api/sql_tx.rs:300-308 | the lease is dropped; a lease still holding its value writes it back into its slot if the slot is alive, and otherwise nothing changes |
| SqlTx.Steal | server/src/api/sql_tx.rs:310-316 | the lease's value, and the lease is stolen |
| SqlTx.LeaseThenDropRestores | server/src/api/sql_tx.rs:247-308 | leasing then dropping leaves the slots as they were |
| SqlTx.LeaseIsExclusive | server/src/api/sql_tx.rs:247-253 | while a lease is out, the slot gives no second one |
| SqlTx.StolenLeaseWritesNothing | server/src/api/sql_tx.rs:300-316 | dropping a stolen lease writes nothing back, so `into_inner` then finds nothing |
| SqlTx.DropAfterIntoInnerLosesValue | server/src/api/sql_tx.rs:255-308 | a lease whose slot was consumed loses its value when dropped |
| SqlTx.TxErrorStatus | server/src/api/sql_tx.rs:216-221 | every transaction error answers 500 |
| SqlTx.GetOrBegin | server/src/api/sql_tx.rs:223-232 | an already begun transaction is leased again; otherwise `begin` is asked, its failure is a database error that changes nothing, and its success is stored in a new slot and leased; a held lease makes the extraction overlap |
| SqlTx.FromRequestParts | server/src/api/sql_tx.rs:113-124 | without the extension the extraction fails with `MissingExtension`; with it the result is `get_or_begin`'s |
| SqlTx.ExtractAfterStealOverlaps | server/src/api/sql_tx.rs:223-232 | after `Tx::commit` stole the transaction, a later extraction is refused as overlapping instead of beginning another |
| SqlTx.StartIdle | server/src/api/sql_tx.rs:95-97 | the request starts with its outer slot leased to the extension and no transaction |
| SqlTx.TakeStep | server/src/api/sql_tx.rs:113-124 | each extraction, commit or drop keeps the handler invariant; the transaction is begun by the first successful `begin` and stays begun; only a commit makes it unavailable |
| SqlTx.Run | server/src/api/sql_tx.rs:98 | the handler invariant holds after any feasible sequence of steps |
| SqlTx.RunAvailable | server/src/api/sql_tx.rs:95-110 | after the handler the transaction is available exactly when some `begin` succeeded and the handler never committed |
| SqlTx.Finish | server/src/api/sql_tx.rs:98-108 | when the handler ends, the transaction slot is back in the outer slot, and holds the transaction exactly when it is available |
| SqlTx.ServiceCommitRule | server/src/api/sql_tx.rs:91-110 | an inner error passes through; after a 2xx response the middleware commits exactly when a transaction was begun and not committed by the handler; a failing commit answers 500 |
| ApiAuth.TokenValidation | server/src/api/v1/auth.rs:147-152 | HS256 only, `iss` required and equal to "authust" |
| ApiAuth.Decode | server/src/api/v1/auth.rs:147-160 | a token the library rejects keeps its error; an accepted one keeps the token's header and claims, has an allowed algorithm and an issuer from the allowed set |
| ApiAuth.ValidationAcceptsExactly | server/src/api/v1/auth.rs:147-152 | a token that parses is accepted exactly when it is HS256 and issued by "authust" |
| ApiAuth.HandleAuth | server/src/api/v1/auth.rs:154-178 | no cookie records `MissingCookie`; an undecodable one stops the request with 403; a decodable one records its data; the request is stopped exactly for an undecodable cookie |
| ApiAuth.AuthServiceCall | server/src/api/v1/auth.rs:90-99 | the inner service sees the recorded extension unless the request was stopped with 403 |
| ApiAuth.GetAuthExtensionData | server/src/api/v1/auth.rs:180-195 | no extension is 500; a missing cookie is 401; a bad one 400; a valid one gives its data |
| ApiAuth.SessionFromParts | server/src/api/v1/auth.rs:201-227 | the extension's error first, then a transaction or query failure as 500, then 401 for an unknown session id, else the session with its user |
| ApiAuth.SessionBehindMiddleware | server/src/api/v1/auth.rs:154-227 | behind the middleware: 401 without a cookie, 403 for a bad token, and the session named by the token's `sid` when it exists |
| Password.HandleResult | server/src/utils/password.rs:23-31 | a verified password is `Some`, a wrong one `None`, any other argon error stays an error |
| Password.HandleResultClassifies | server/src/utils/password.rs:23-31 | only a broken hash is an error, and a present value is the one that came in |
| ApiError.Status | server/src/api/error.rs:60-71 | 403 for forbidden and a wrong password, 500 for the pool, Postgres and other argon errors |
| ApiError.InternalIffServerError | server/src/api/error.rs:52-78 | a kind is internal exactly when its status is 500 |
| ApiError.FromKind | server/src/api/error.rs:34-49 | a trace is captured exactly for kinds answering 500 |
| ApiError.IntoResponse | server/src/api/error.rs:81-87 | the kind's status with an empty body |
| ServerError.NotFoundKind | server/src/error.rs:126-128 | the 404 status kind |
| ServerError.ForbiddenKind | server/src/error.rs:130-132 | the 403 status kind |
| ServerError.InternalKind | server/src/error.rs:134-136 | the 500 status kind |
| ServerError.ArgonResponse | server/src/error.rs:170-175 | a wrong password is 401 "Invalid password"; every other argon failure a bare 500 |
| ServerError.JwtResponse | server/src/error.rs:177-206 | 401 exactly for a token rejected as presented, 400 exactly for an immature, wrongly signed or non-base64 token, 500 without a message for the rest |
| ServerError.Response | server/src/error.rs:259-290 | each kind's status and message: infrastructure failures bare 500, statuses bare, API errors with their message, authentication errors 401 with their fixed message except the missing-claims one, rejections with the framework's text |
| ServerError.FromKind | server/src/error.rs:138-157 | the kind's response, with a trace exactly when it is a server error |
| ServerError.IntoResponse | server/src/error.rs:239-251 | the stored status, `success` false, and the message or the empty string |
| ServerError.StatusTable | server/src/error.rs:126-206 | which kinds are 500 and traced, which are 401 and not, and the three shortcuts' statuses |
| RoutesAuth.Failed | server/src/routes/auth.rs:49-51 | answers 401 "Invalid credentials" |
| RoutesAuth.HandleLogin | server/src/routes/auth.rs:58-94 | an unknown user or one without a password is refused without a write; a broken hash is an argon error without a write; otherwise a session row with the token is inserted, and the login succeeds exactly on a verified password, returning that token; a wrong password is `InvalidCredentials` |
| RoutesAuth.WrongPasswordStillInsertsSession | server/src/routes/auth.rs:74-92 | a wrong password answers `InvalidCredentials` (401) but still leaves a session row with the token |
| RoutesAuth.LoginTokenFindsSession | server/src/routes/auth.rs:74-94 | a successful login's token finds a session row of its user |
| RoutesAuth.MakeCookie | server/src/routes/auth.rs:114-122 | the token under the cookie name, HTTP-only, path `/`, not secure, no SameSite restriction |
| RoutesAuth.BrowserLogin | server/src/routes/auth.rs:104-112 | the login's writes and outcome, with the token moved into the cookie |
| RoutesAuth.Register | server/src/routes/auth.rs:124-143 | a hashing failure is an argon error; a new name is stored with its hash; a taken name is left alone and still answers success |
| RoutesAuth.RegisterThenLogin | server/src/routes/auth.rs:124-143 | a freshly registered user logs in with the password |
| RoutesAuth.DeleteSessions | server/src/routes/auth.rs:151-154 | exactly the rows with other tokens remain |
| RoutesAuth.HandleLogout | server/src/routes/auth.rs:145-159 | without a cookie nothing happens; with one, the rows with that token are gone, the users untouched, and the cookie removed |
| RoutesAuth.LogoutForgetsToken | server/src/routes/auth.rs:145-159 | after logout no session row carries the token |
| RoutesOauth.ParseResponseType | server/src/routes/oauth.rs:12-17 | exactly "code" and "token" parse, to their variants |
| RoutesOauth.ResponseTypeRoundTrip | server/src/routes/oauth.rs:12-17 | a response type parses back from its name |
| RoutesOauth.SplitOn | server/src/routes/oauth.rs:26-27 | at least one piece, none containing the separator |
| RoutesOauth.JoinSplit | server/src/routes/oauth.rs:26-27 | joining the pieces with the separator gives the text back |
| RoutesOauth.SplitJoin | server/src/routes/oauth.rs:26-27 | splitting joined separator-free pieces gives the pieces back |
| RoutesOauth.ParseScopes | server/src/routes/oauth.rs:26-27 | no scope for the empty text; otherwise space-free scopes that join back to the text |
| RoutesOauth.ScopesRoundTrip | server/src/routes/oauth.rs:26-27 | a scope list written space-separated parses back to itself |
| RoutesOauth.AuthorizeClient | server/src/routes/oauth.rs:57-74 | an unknown client id is `UnknownApplication`; an application with a secret accepts exactly that secret, and otherwise `InvalidClientSecret`; one without a secret accepts any |
| RoutesApplications.Check | server/src/routes/applications.rs:54-61 | allowed exactly for the owner, or an admin on a system application; otherwise 403 |
| RoutesApplications.AdminNeedsOwnershipOfOrdinaryApps | server/src/routes/applications.rs:54-61 | an admin who does not own an ordinary application is refused |
| RoutesApplications.InfoOf | server/src/routes/applications.rs:63-68 | the row's owner and system flag |
| RoutesApplications.TryFromRow | server/src/routes/applications.rs:71-80 | a missing row is 404 |
| RoutesApplications.CheckById | server/src/routes/applications.rs:41-52 | 404 for an unknown id; otherwise allowed exactly when the caller may manage it, and 403 if not |
| RoutesApplications.SingleRow | server/src/routes/applications.rs:94-101 | one affected row is success, none 404, more 500 |
| RoutesApplications.RowsFor | server/src/routes/applications.rs:90-93 | one row exactly when the id exists |
| RoutesApplications.Delete | server/src/routes/applications.rs:82-102 | succeeds exactly when the developer check passes and the caller may manage the existing application, which is then removed; on failure nothing changes |
| RoutesApplications.Replace | server/src/routes/applications.rs:138-174 | succeeds exactly when the admin check passes and the caller may manage the existing application; only name and redirect URIs change, and the updated row is returned |
| RoutesApplications.List | server/src/routes/applications.rs:104-130 | the developer check's error, or a listing of stored rows |
| RoutesApplications.ListedIffManageable | server/src/routes/applications.rs:104-130 | the listing holds exactly the applications the caller may manage |
| RoutesApplications.Create | server/src/routes/applications.rs:187-238 | a system application needs the admin check, others the developer check; an unknown group is 400 naming it; past both, a conflicting insert is a database error and otherwise the payload's row (name, group, kind, redirect URIs and system flag), owned by the caller, with the new client id, is stored under the new id and returned; on failure nothing changes |
| RoutesApplications.CreatorMayManage | server/src/routes/applications.rs:187-238 | the creator may manage the application afterwards |
| RoutesUser.PaginationFrom | server/src/routes/user.rs:34-48 | a missing page is 1 and a missing page size 25; given values are kept |
| RoutesUser.SaturatingSubU8 | server/src/routes/user.rs:56 | the difference, or 0 when it would be negative |
| RoutesUser.SaturatingMulI64 | server/src/routes/user.rs:56 | the product when it fits an `i64`, and always a value in `i64` range |
| RoutesUser.Limit | server/src/routes/user.rs:51-53 | the smaller of the page size and the maximum |
| RoutesUser.OffsetFits | server/src/routes/user.rs:55-57 | the product of a limit and a page factor stays far below the `i64` maximum |
| RoutesUser.Offset | server/src/routes/user.rs:55-57 | the limit times the number of earlier pages, with page 0 counting as page 1; the saturation never triggers |
| RoutesUser.PageZeroIsPageOne | server/src/routes/user.rs:55-57 | page 0 and page 1 both start at offset 0 |
| RoutesUser.PagesTile | server/src/routes/user.rs:51-57 | each page starts where the previous one ends |
| RoutesUser.Page | server/src/routes/user.rs:202-209 | at most a limit of rows, the slice of the table from the offset, and nothing past the end |
| RoutesUser.ConsecutivePages | server/src/routes/user.rs:51-57 | two consecutive pages are adjacent slices of the table: nothing skipped or repeated |
| RoutesUser.AffectedRows | server/src/routes/user.rs:130-137 | one affected row is success, none 409, more 500 |
| RoutesUser.Delete | server/src/routes/user.rs:157-191 | the admin check's error first; 403 when no other user is an active admin; otherwise the user is removed, or 409 if the id is unknown |
| RoutesUser.Updated | server/src/routes/user.rs:240 | every payload column is written and the password is kept |
| RoutesUser.Replace | server/src/routes/user.rs:226-263 | succeeds exactly when the admin check passes, the user exists, and the change does not drop the last active admin; then only that row is updated; on failure nothing changes |
| RoutesUser.DeleteKeepsAnAdmin | server/src/routes/user.rs:157-191 | a successful delete leaves an active admin |
| RoutesUser.ReplaceKeepsAnAdmin | server/src/routes/user.rs:226-263 | a successful replace leaves an active admin |
| RoutesUser.Create | server/src/routes/user.rs:116-138 | the admin check's error, then the hashing error; a taken name is 409 without a write; otherwise the new row has the name, the hash and the roles, is not a customer, and must reset its password |
| RoutesUser.GetUser | server/src/routes/user.rs:140-155 | for an admin the stored row, or 404 for an unknown id |
| RoutesUser.List | server/src/routes/user.rs:193-214 | for an admin, the requested page of the table (at most a limit of stored rows, adjacent to the next page); otherwise the ownership check's error |
| RoutesUser.Me | server/src/routes/user.rs:92-107 | the caller's name, roles and reset flag; a missing row is a database error |
| ApiPolicy.Create | server/src/api/v1/policy.rs:107-155 | returns the partial policy with the new uid, the slug and the simplified kind; the policy then reads back as created; the other rows stay |
| ApiPolicy.CreateKeepsOthers | server/src/api/v1/policy.rs:107-155 | creating keeps every link pointing at a payload row, and every other policy reads back as before |
| ApiPolicy.List | server/src/api/v1/policy.rs:26-38 | one partial policy per stored policy, in order, with uid, slug and simplified kind |
| ApiPolicy.CreateExpiration | server/src/api/v1/policy.rs:45-66 | the session's error first; a negative maximum age is 400 "max_age must be positive" without a write; otherwise the policy is created and reads back with that age |
| ApiPolicy.CollectComplete | server/src/api/v1/policy.rs:78-85 | the read completes exactly when every chunk arrives and the total stays within 2048 bytes, and yields the bytes so far followed by the chunks' bytes |
| ApiPolicy.CollectAcceptsExactly | server/src/api/v1/policy.rs:68-85 | the body is accepted exactly when every chunk arrives and they add up to at most 2048 bytes, and it is their concatenation |
| ApiPolicy.ReadBody | server/src/api/v1/policy.rs:78-85 | the loop completes exactly when every chunk arrives and the total is within 2048 bytes, yields the concatenation, and a stream error is one the stream produced |
| ApiPolicy.CreateExpression | server/src/api/v1/policy.rs:70-105 | an error from the body stream is passed on, and any error returned is one a chunk carried; 413 when every chunk arrives and they exceed 2048 bytes; 400 "Requset body must be utf8" for non-UTF-8, 500 for a base64 failure, 400 with the parser's message for a parse error; created exactly when all pass, storing the base64 text; nothing is written otherwise |
| Uri.SchemeFrom | policy-engine/src/uri.rs:30-44 | exactly http and https are accepted, each to its own variant; any other scheme is unsupported |
| Uri.SchemeRoundTrip | policy-engine/src/uri.rs:30-44 | converting a scheme to the library's and back gives it again, and an accepted library scheme is recovered |
| Uri.Create | policy-engine/src/uri.rs:47-59 | always succeeds; the scheme and host are the caller's, the text, port, path and query the parsed URI's |
| Uri.DefaultPort | policy-engine/src/uri.rs:89-98 | 80 for http and 443 for https |
| Uri.GetPort | policy-engine/src/uri.rs:89-98 | the explicit port, else the scheme's default |
| Uri.CreatedPort | policy-engine/src/uri.rs:139-147 | a created URI's port is its explicit port, else 80 for http and 443 for https |
| Uri.ExactlyOneScheme | policy-engine/src/uri.rs:112-119 | every scheme is exactly one of http and https |

## Left out

- Logging, tracing spans and telemetry: they have no observable effect on results.
- Server start-up, routing tables, configuration and the framework plumbing that wires handlers together.
- Expression evaluation in the policy engine: it runs a foreign interpreter (rhai), and the policy API takes its compiler as an input.
- Argon2 hashing and verification, JWT parsing and signature checks, and random generation of tokens, CSRF masks and identifiers: they are inputs or function-typed parameters. A JWT's expiry and not-before checks happen inside the library, so they are part of the decoding oracle.
- Locks, atomics and async execution: every step is sequential, and `try_lock` always succeeds.
- The data cache's time-based eviction: only explicit invalidation is modelled. `storage/src/cache.rs` is a copy of the cache in `storage/src/storage.rs` and is not modelled separately.
- Database failures: tables are maps or sequences that always answer, except where the source branches on a failure in a way the model needs. Those places are:
  - the data cache's pool error;
  - `begin` in the transaction slot;
  - a failed session query in `ApiAuth.SessionFromParts`, which gives 500;
  - an application insert that hits a uniqueness constraint in `RoutesApplications.Create`, which gives `PostgresError`;
  - a missing `identification_stages` or `consent_stages` row in `StorageStage`, which gives `RowNotFound`, and a missing identification row in `FlowStorage.DecodeStage`;
  - a failed binding query in `FlowStorage.LoadBindings`, which gives no bindings;
  - a missing row under `query_one` in `me`.
- RoutesApplications.ApplicationRow: leaves out the `client_secret` and `consent_mode` columns. `create` inserts them as null and `'explicit'`, and none of these routes reads them back. The row keeps name, group, owner, kind, system flag, client id and redirect URIs.
- Row decoding through `tokio_postgres::Row`: rows are records, and a non-null column read from a null value would panic, so such rows are excluded by `NonNullColumns`.
- The exact error values of the base64 engine: decoding distinguishes an invalid symbol, an invalid length and an invalid last symbol, but it is not checked against the library's wording.
- ServerError.Response, ServerError.FromKind: they require a kind other than `Oauth`, because that arm of `ErrorKind::response` is `todo!()`.
- RoutesOauth.AuthorizeClient: returns `UnknownApplication` or `InvalidClientSecret` as values. In the source, each rejection goes through `From<T> for Error` (server/src/error.rs:138-141) into `ErrorKind::response`, whose `Oauth` arm is `todo!()` (server/src/error.rs:285), so an unknown client or a wrong secret panics instead of producing a response; `ServerError.Response` keeps that arm as a precondition.
- RoutesOauth.AuthorizeClient: covers the authorization up to the client secret. The rest of `authorize_check` is unfinished (`todo!()`), and the second query for the application group is left out with it.
- RoutesOauth.ParseScopes: assumes the separator deserialiser splits at every space and reads the empty text as no scopes.
- Session extraction leaves the admin flag of the session to the role lookup of `crate::auth`, which is not part of this model. The outcomes of the admin and developer checks (`check_admin`, `check_developer`) and of the admin-session extractor of the policy API are inputs.
- RoutesAuth: the session cookie's name is a parameter, since the constant is declared outside the modelled file.
- RoutesUser.Create: the `email` and `active` columns, which the insert leaves to their defaults, are inputs. So is the new user's id.
- ModelError.FieldError: follows how the executor handlers build it, a field name with a kind: `Missing`, `Invalid` with a message, or `InvalidType`. model/src/error.rs:50-52 declares only `Invalid { field, message }`. The version the handlers compile against is not part of this model.
- RoutesUser.List: the table is read in its scan order, because the query has no `ORDER BY`.
- StorageLib: `delete` and `invalidate` on a proxy always panic, so they are not modelled as operations. `insert_data` after an export panics, which is a precondition.
- StorageFlow.FindAllIds: requires a query that is not a slug query, because that arm is `todo!()`.
- FlowStorage.DecodeStage: requires a kind other than prompt, because prompt decoding in `server/src/flow_storage.rs` is `todo!()`.
- ApiPolicy.Create: requires a kind other than password strength, because that arm is `todo!()`. The uids the database hands out are inputs, required to be fresh.
- ApiPolicy.CreateExpression: a stream error is passed on as the error value itself. UTF-8 decoding, the base64 encoder and the compiler are inputs.
- ExecutorData.AsComponent: requires a stage that can be rendered, because Prompt, UserLogin, UserLogout, UserWrite and Consent are `todo!()` there.
- ApiExecutor.HandleStage, ApiExecutor.HandleIdentification, ApiExecutor.HandlePasswordStage, ApiExecutor.PostFlow: when an identification stage has found a user and names a password stage, require that stage to exist and to be a password stage, because the source's lookup and its `unreachable!()` would panic. A missing, non-string or unknown uid is answered with its field error before that lookup, so those submissions need nothing of the password stage. They also require the password column of the one user whose row the password check reads to be non-null, because that read panics on null. The read happens only with the internal backend and a string password.
- ApiExecutor.Complete, ApiExecutor.PostFlow: require every stage the loop looks up to exist. That is every stage up to and including the first one that requires input. They also require that none of the stages the loop runs within its 41 iterations is a logout or write stage, because those arms are `todo!()`. This is stronger than the source needs only when a login in between fails and stops the loop early.
- IdGen.FromBytesUnchecked, IdGen.FromStr: require exactly 136 bytes. The source checks this only with a debug assertion; in a release build a longer input is truncated and a shorter one panics.
- Uri.Create: the parsed URI's text, port, path and query are inputs; parsing is the HTTP library's. The `MissingScheme` error is declared but never produced.
- Executor-side database wrappers (`DbClient`, `TxWrapper`) are unfinished in the source.

## Findings

| source | as written | input that shows it | evidently intended | confidence | as-written member | corrected member |
|---|---|---|---|---|---|---|
| server/src/executor/context.rs:85 | `get_dynamic` compares the type id of the `Box` reference, not of the stored value, so the comparison never matches a stored field's type | any typed field inserted and then read back at its own type gives `WrongType` | compare the stored value's type, so a field is read back at the type it was inserted with | not executed | ExecutorContext.InsertThenGetAsWritten | ExecutorContext.InsertThenGetIntended |
| model/src/tenant.rs:39 | `get_flow(Recovery)` returns the enrollment flow | a tenant with a recovery flow and no enrollment flow has no recovery flow | return `recovery_flow` | not executed | ModelTenant.RecoveryFlowUnreachableAsWritten | ModelTenant.GetFlowSetFlow |
| storage/src/stage.rs:111 | a stored logout stage decodes to a user-write stage | a stage row of kind `user_logout` | decode to the logout stage | not executed | StorageStage.LogoutDecodesAsWrite | StorageStage.FromRowKeepsKind |
| server/src/interface/flow.rs:36 | the redirect asks `get_flow`, so the tenant.rs:39 slip reaches users: `/recovery` leads to the enrollment flow | a tenant with an enrollment flow that resolves and no recovery flow, requested at `/recovery` | 404 without a recovery flow, and the recovery flow's page with one | not executed | InterfaceFlow.RecoveryRedirectsToEnrollmentAsWritten | InterfaceFlow.RecoveryRedirectsToRecoveryFlow |
| server/src/api/csrf.rs:218-267 | `validate_token` unmasks every 64-byte header, and `mask_op` panics on a non-alphanumeric character | a CSRF header of 64 dashes, which is valid header text | refuse the token instead of panicking | not executed | Csrf.DashTokenPanicsAsWritten | Csrf.SecretAndMaskedValidate |

=== FILE: api_auth.dfy ===
/**
  The session-cookie middleware and the `Session` extractor of
  server/src/api/v1/auth.rs.

  The middleware reads the "session" cookie, decodes it as a JSON Web Token
  and records the outcome as a request extension; only an undecodable cookie
  stops the request. Extractors later turn that extension into a response
  or into the session's data.

  Decoding is split in two: the token's parsing and signature check under
  the server key are an oracle; the validation settings the code chooses
  (HS256 only, a required `iss` claim whose value is "authust", as in
  section 4.1.1 of RFC 7519) are modelled.
 */
module ApiAuth {
  import opened Wrappers
  import opened UuidType
  import SqlTx
  import ServerError

  const SessionCookieName: string := "session"
  const Issuer: string := "authust"

  const Ok200: nat := 200
  const BadRequest: nat := 400
  const Unauthorized: nat := 401
  const Forbidden: nat := 403
  const InternalServerError: nat := 500

  /** A response: status code and body text (empty for a bare status). */
  datatype Response = Response(status: nat, body: string)

  datatype Algorithm = HS256 | HS384 | HS512 | RS256 | ES256 | EdDSA

  datatype Header = Header(alg: Algorithm)

  /** The claims as they appear in a token; the issuer may be missing. */
  datatype RawClaims = RawClaims(sid: string, iss: Option<string>, sub: Option<Uuid>, authenticated: bool)

  /** A token whose encoding and signature the oracle accepted. */
  datatype RawToken = RawToken(header: Header, claims: RawClaims)

  /** `Claims`. */
  datatype Claims = Claims(sid: string, iss: string, sub: Option<Uuid>, authenticated: bool)

  /** `AuthExtensionData`. */
  datatype AuthExtensionData = AuthExtensionData(header: Header, claims: Claims)

  type JwtError = ServerError.JwtErrorKind

  /** The validation settings of the JWT library that the code sets. */
  datatype Validation = Validation(algorithms: seq<Algorithm>, requiredClaims: set<string>, issuers: set<string>)

  /** `VALIDATION`. */
  function TokenValidation(): (r: Validation)
    ensures r.algorithms == [HS256]
    ensures r.requiredClaims == {"iss"}
    ensures r.issuers == {Issuer}
  {
    Validation([HS256], {"iss"}, {Issuer})
  }

  /**
    Decoding under a validation: after the oracle, the header's algorithm
    must be allowed, the required `iss` must be present and must be one of
    the allowed issuers.
   */
  function Decode(value: string, verify: string -> Result<RawToken, JwtError>, v: Validation): (r: Result<AuthExtensionData, JwtError>)
    ensures verify(value).Err? ==> r == Err(verify(value).error)
    ensures r.Ok? ==>
      && verify(value).Ok?
      && r.value.header == verify(value).value.header
      && r.value.claims.sid == verify(value).value.claims.sid
      && r.value.claims.sub == verify(value).value.claims.sub
      && r.value.claims.authenticated == verify(value).value.claims.authenticated
      && r.value.header.alg in v.algorithms
      && Some(r.value.claims.iss) == verify(value).value.claims.iss
      && (v.issuers != {} ==> r.value.claims.iss in v.issuers)
  {
    match verify(value)
    case Err(e) => Err(e)
    case Ok(t) =>
      if t.header.alg !in v.algorithms then Err(ServerError.InvalidAlgorithm)
      else if "iss" in v.requiredClaims && t.claims.iss.None? then Err(ServerError.MissingRequiredClaim("iss"))
      else if t.claims.iss.None? then Err(ServerError.InvalidIssuer)
      else if v.issuers != {} && t.claims.iss.value !in v.issuers then Err(ServerError.InvalidIssuer)
      else
        var c := t.claims;
        Ok(AuthExtensionData(t.header, Claims(c.sid, c.iss.value, c.sub, c.authenticated)))
  }

  /** Under the server's settings, a token the oracle accepts is valid exactly when it is HS256 and issued by "authust". */
  lemma ValidationAcceptsExactly(value: string, verify: string -> Result<RawToken, JwtError>)
    requires verify(value).Ok?
    ensures var t := verify(value).value;
      Decode(value, verify, TokenValidation()).Ok? <==> t.header.alg == HS256 && t.claims.iss == Some(Issuer)
  {
  }

  /** `AuthExtension`. */
  datatype AuthExtension = Valid(data: AuthExtensionData) | MissingCookie | InvalidCookieFormat

  /** `handle_auth`: the extension it records, and the response that stops the request, if any. */
  datatype AuthOutcome = AuthOutcome(extension: AuthExtension, stop: Option<Response>)

  function HandleAuth(cookie: Option<string>, verify: string -> Result<RawToken, JwtError>): (r: AuthOutcome)
    ensures cookie.None? ==> r == AuthOutcome(MissingCookie, None)
    ensures cookie.Some? && Decode(cookie.value, verify, TokenValidation()).Err? ==>
      r == AuthOutcome(InvalidCookieFormat, Some(Response(Forbidden, "Session cookie validation error")))
    ensures cookie.Some? && Decode(cookie.value, verify, TokenValidation()).Ok? ==>
      r == AuthOutcome(Valid(Decode(cookie.value, verify, TokenValidation()).value), None)
    // only a present, undecodable cookie stops the request
    ensures r.stop.Some? <==> r.extension == InvalidCookieFormat
  {
    match cookie
    case None => AuthOutcome(MissingCookie, None)
    case Some(value) =>
      match Decode(value, verify, TokenValidation())
      case Err(_) => AuthOutcome(InvalidCookieFormat, Some(Response(Forbidden, "Session cookie validation error")))
      case Ok(data) => AuthOutcome(Valid(data), None)
  }

  /** `AuthService::call`: the inner service sees the recorded extension unless the cookie stopped the request. */
  function AuthServiceCall(cookie: Option<string>, verify: string -> Result<RawToken, JwtError>, inner: AuthExtension -> Response): (r: Response)
    ensures HandleAuth(cookie, verify).stop.None? ==> r == inner(HandleAuth(cookie, verify).extension)
    ensures HandleAuth(cookie, verify).stop.Some? ==> r.status == Forbidden
  {
    var outcome := HandleAuth(cookie, verify);
    match outcome.stop
    case Some(resp) => resp
    case None => inner(outcome.extension)
  }

  /** `get_auth_extension_data`. */
  function GetAuthExtensionData(ext: Option<AuthExtension>): (r: Result<AuthExtensionData, Response>)
    ensures ext.None? ==> r == Err(Response(InternalServerError, ""))
    ensures ext == Some(MissingCookie) ==> r == Err(Response(Unauthorized, "Missing session cookie"))
    ensures ext == Some(InvalidCookieFormat) ==> r == Err(Response(BadRequest, "Session cookie format"))
    ensures r.Ok? <==> ext.Some? && ext.value.Valid?
    ensures r.Ok? ==> r.value == ext.value.data
  {
    match ext
    case None => Err(Response(InternalServerError, ""))
    case Some(Valid(data)) => Ok(data)
    case Some(MissingCookie) => Err(Response(Unauthorized, "Missing session cookie"))
    case Some(InvalidCookieFormat) => Err(Response(BadRequest, "Session cookie format"))
  }

  /** The session the extractor builds from the session row. */
  datatype Session = Session(sessionId: string, userId: Option<Uuid>)

  /**
    `FromRequestParts for Session`. The request's transaction extraction and
    the session query are inputs: `tx` is the transaction extractor's result
    and `query` the rows of `sessions` (uid to nullable user id) or the
    database's failure.
   */
  function SessionFromParts<E, Q>(ext: Option<AuthExtension>, tx: Result<(), SqlTx.TxError<E>>, query: Result<map<string, Option<Uuid>>, Q>): (r: Result<Session, Response>)
    ensures GetAuthExtensionData(ext).Err? ==> r == Err(GetAuthExtensionData(ext).error)
    ensures GetAuthExtensionData(ext).Ok? && tx.Err? ==> r == Err(Response(InternalServerError, ""))
    ensures GetAuthExtensionData(ext).Ok? && tx.Ok? && query.Err? ==> r == Err(Response(InternalServerError, ""))
    ensures GetAuthExtensionData(ext).Ok? && tx.Ok? && query.Ok? ==>
      var sid := GetAuthExtensionData(ext).value.claims.sid;
      && (sid !in query.value ==> r == Err(Response(Unauthorized, "")))
      && (sid in query.value ==> r == Ok(Session(sid, query.value[sid])))
  {
    match GetAuthExtensionData(ext)
    case Err(resp) => Err(resp)
    case Ok(data) =>
      if tx.Err? then Err(Response(SqlTx.TxErrorStatus(tx.error), ""))
      else match query
        case Err(_) => Err(Response(InternalServerError, ""))
        case Ok(sessions) =>
          var sid := data.claims.sid;
          if sid in sessions then Ok(Session(sid, sessions[sid])) else Err(Response(Unauthorized, ""))
  }

  /**
    End to end: a handler that needs a `Session` behind the middleware
    answers 401 without a cookie, 403 for an undecodable cookie, and gets
    the session whose id is the token's `sid` claim when that session exists.
   */
  lemma SessionBehindMiddleware<E, Q>(cookie: Option<string>, verify: string -> Result<RawToken, JwtError>, sessions: map<string, Option<Uuid>>)
    ensures var outcome := HandleAuth(cookie, verify);
      var s := SessionFromParts<E, Q>(Some(outcome.extension), Ok(()), Ok(sessions));
      && (cookie.None? ==> outcome.stop.None? && s.Err? && s.error.status == Unauthorized)
      && (cookie.Some? && verify(cookie.value).Err? ==> outcome.stop.Some? && outcome.stop.value.status == Forbidden)
      && (cookie.Some? && verify(cookie.value).Ok? ==>
            var t := verify(cookie.value).value;
            && (outcome.stop.None? <==> t.header.alg == HS256 && t.claims.iss == Some(Issuer))
            && (outcome.stop.None? && t.claims.sid in sessions ==> s == Ok(Session(t.claims.sid, sessions[t.claims.sid])))
            && (outcome.stop.None? && t.claims.sid !in sessions ==> s.Err? && s.error.status == Unauthorized))
  {
    if cookie.Some? && verify(cookie.value).Ok? {
      ValidationAcceptsExactly(cookie.value, verify);
    }
  }
}

=== FILE: api_error.dfy ===
/**
  The API error type of server/src/api/error.rs: an error kind, its HTTP
  status, whether it is internal, and the span trace captured for internal
  errors only. The trace itself is represented by whether one was captured.
 */
module ApiError {
  import opened Password

  const ForbiddenStatus: nat := 403
  const InternalServerError: nat := 500

  /** `ErrorKind`; the pool and Postgres errors carry nothing the mapping looks at. */
  datatype ErrorKind = Forbidden | PoolError | PostgresError | Argon(err: ArgonError)

  /** `argon_is_internal`: every argon error except a wrong password. */
  predicate ArgonIsInternal(err: ArgonError) {
    err != ArgonError.Password
  }

  /** `ErrorKind::status`. */
  function Status(k: ErrorKind): (r: nat)
    ensures k == Forbidden ==> r == ForbiddenStatus
    ensures k.PoolError? || k.PostgresError? ==> r == InternalServerError
    ensures k.Argon? ==> r == (if k.err == ArgonError.Password then ForbiddenStatus else InternalServerError)
    ensures r == ForbiddenStatus || r == InternalServerError
  {
    match k
    case PoolError | PostgresError => InternalServerError
    case Forbidden => ForbiddenStatus
    case Argon(err) => if ArgonIsInternal(err) then InternalServerError else ForbiddenStatus
  }

  /** `ErrorKind::is_internal`. */
  predicate IsInternal(k: ErrorKind) {
    match k
    case PoolError | PostgresError => true
    case Forbidden => false
    case Argon(err) => ArgonIsInternal(err)
  }

  /** The two tables agree: a kind is internal exactly when its status is 500. */
  lemma InternalIffServerError(k: ErrorKind)
    ensures IsInternal(k) <==> Status(k) == InternalServerError
  {
  }

  datatype Error = Error(kind: ErrorKind, traced: bool)

  /** `From<T> for Error`: a trace is captured exactly for internal kinds. */
  function FromKind(k: ErrorKind): (r: Error)
    ensures r.kind == k
    ensures r.traced <==> Status(k) == InternalServerError
  {
    Error(k, IsInternal(k))
  }

  datatype Response = Response(status: nat, body: string)

  /** `IntoResponse for Error`: the kind's status with an empty body. */
  function IntoResponse(e: Error): (r: Response)
    ensures r.status == Status(e.kind) && r.body == ""
    ensures FromKind(e.kind) == e ==> (e.traced <==> r.status == InternalServerError)
  {
    Response(Status(e.kind), "")
  }
}

=== FILE: api_executor.dfy ===
/**
  The flow executor's HTTP handlers (server/src/api/v1/executor.rs): handling a
  form submission for the current stage, advancing the execution, and running
  the server-side stages that follow without user input.

  The database is the `users` table; argon2 password verification and UUID
  parsing are parameters, and so is everything the login stage does with the
  session cookie and token (its outcome is an input).
 */
module ApiExecutor {
  import opened Wrappers
  import opened UuidType
  import Json
  import ModelStage
  import ModelReference
  import ModelData
  import ModelError
  import ModelFlow
  import ExecutorContext
  import ExecutorData
  import ExecutorFlow
  import UserService

  datatype ApiError =
    | Submission(error: ModelError.SubmissionError)
    | NotFound
    | InvalidSessionCookie
    /** A stored password hash that cannot be parsed, or an argon2 failure other than a mismatch. */
    | Argon
    /** Token decoding, cookie signing or the session update failed. */
    | LoginFailure
    | CommitFailure

  /** What argon2 says about a password against a stored hash. */
  datatype VerifyOutcome = Verified | Mismatch | HashError

  /** The world a submission is handled in. */
  datatype Env = Env(
    users: seq<UserService.UserRow>,
    stages: ExecutorData.StageTable,
    verify: (string, string) -> VerifyOutcome,
    parseUuid: string -> Option<Uuid>)

  /** The execution after a handler, and the handler's result. */
  datatype Step = Step(exec: ExecutorFlow.FlowExecution, result: Result<(), ApiError>)

  const AuthenticationFailedMessage: string := "Authentication of pending user failed"

  /** `str_from_field`: a JSON string, or an invalid-type error naming the kind that was sent. */
  function StrFromField(name: string, v: Json.Value): (r: Result<string, ModelError.SubmissionError>)
    ensures r.Ok? <==> v.String?
    ensures r.Ok? ==> r.value == v.s
    ensures r.Err? ==> r.error == ModelError.Field(ModelError.FieldError(name,
      ModelError.InvalidType(ModelError.FieldType.String, ModelError.FieldTypeOf(v))))
  {
    match v
    case String(s) => Ok(s)
    case _ => Err(ModelError.Field(ModelError.FieldError(name,
      ModelError.InvalidType(ModelError.FieldType.String, ModelError.FieldTypeOf(v)))))
  }

  function FieldErr(field: string, kind: ModelError.FieldErrorKind): ApiError
  {
    Submission(ModelError.Field(ModelError.FieldError(field, kind)))
  }

  predicate Authenticated(e: ExecutorFlow.FlowExecution)
  {
    e.context.pending.Some? && e.context.pending.value.authenticated
  }

  /** The stored password row of a user, as the password stage selects it. */
  function PasswordRow(users: seq<UserService.UserRow>, uid: Uuid): Option<UserService.UserRow>
  {
    UserService.FirstMatch(users, UserService.ByUid(uid))
  }

  /** Reading the password column of the user `uid` does not panic: the row, if any, holds a password. */
  predicate PasswordReadable(users: seq<UserService.UserRow>, uid: Uuid)
  {
    PasswordRow(users, uid).Some? ==> PasswordRow(users, uid).value.password.Some?
  }

  /**
    The password stage reads the password column of user `uid` only when the
    internal backend is enabled and a string password was submitted; then
    that read must not panic.
   */
  predicate PasswordReadSafe(form: Json.Value, backends: seq<ModelStage.PasswordBackend>, env: Env, uid: Uuid)
  {
    ModelStage.Internal in backends && Json.Get(form, "password").Some? && Json.Get(form, "password").value.String? ==>
      PasswordReadable(env.users, uid)
  }

  /** The form carries the password stored for user `uid`, as argon2 judges it. */
  predicate CorrectPassword(form: Json.Value, env: Env, uid: Uuid)
  {
    && Json.Get(form, "password").Some? && Json.Get(form, "password").value.String?
    && PasswordRow(env.users, uid).Some? && PasswordRow(env.users, uid).value.password.Some?
    && env.verify(PasswordRow(env.users, uid).value.password.value, Json.Get(form, "password").value.s) == Verified
  }

  /**
    A string password was submitted for the pending user, and either there is
    no internal backend or argon2 rejects it against the stored hash.
   */
  predicate WrongPassword(form: Json.Value, e: ExecutorFlow.FlowExecution, backends: seq<ModelStage.PasswordBackend>, env: Env)
  {
    && e.context.pending.Some?
    && Json.Get(form, "password").Some? && Json.Get(form, "password").value.String?
    && var row := PasswordRow(env.users, e.context.pending.value.uid);
    && (ModelStage.Internal !in backends
        || (row.Some? && row.value.password.Some?
            && env.verify(row.value.password.value, Json.Get(form, "password").value.s) == Mismatch))
  }

  /** `e` with its pending user marked authenticated. */
  function MarkAuthenticated(e: ExecutorFlow.FlowExecution): ExecutorFlow.FlowExecution
    requires e.context.pending.Some?
  {
    e.(context := e.context.(pending := Some(e.context.pending.value.(authenticated := true))))
  }

  /**
    `handle_password_stage`: checks the submitted password of the pending user
    against the internal backend. Only a verified password changes the
    execution, and then only the pending user's `authenticated` flag.
   */
  function HandlePasswordStage(form: Json.Value, e: ExecutorFlow.FlowExecution, backends: seq<ModelStage.PasswordBackend>, env: Env): (r: Step)
    requires e.context.pending.Some? ==> PasswordReadSafe(form, backends, env, e.context.pending.value.uid)
    ensures e.context.pending.None? ==> r == Step(e, Err(Submission(ModelError.NoPendingUser)))
    ensures e.context.pending.Some? && Json.Get(form, "password").None? ==>
      r == Step(e, Err(FieldErr("password", ModelError.Missing)))
    ensures r.result.Ok? <==>
      e.context.pending.Some? && ModelStage.Internal in backends && CorrectPassword(form, env, e.context.pending.value.uid)
    ensures r.result.Ok? ==> r.exec == MarkAuthenticated(e)
    ensures r.result.Err? ==> r.exec == e
    ensures WrongPassword(form, e, backends, env) ==>
      r.result == Err(FieldErr("password", ModelError.Invalid("Invalid Password")))
    ensures e.context.pending.Some? && Json.Get(form, "password").Some? && !Json.Get(form, "password").value.String? ==>
      r == Step(e, Err(Submission(StrFromField("password", Json.Get(form, "password").value).error)))
    // the pending user's row has gone by the time the password is checked
    ensures e.context.pending.Some? && Json.Get(form, "password").Some? && Json.Get(form, "password").value.String?
            && ModelStage.Internal in backends && PasswordRow(env.users, e.context.pending.value.uid).None? ==>
      r == Step(e, Err(Submission(ModelError.NoPendingUser)))
    // the stored hash does not parse, or argon2 fails other than by a mismatch
    ensures e.context.pending.Some? && Json.Get(form, "password").Some? && Json.Get(form, "password").value.String?
            && ModelStage.Internal in backends && PasswordRow(env.users, e.context.pending.value.uid).Some?
            && PasswordRow(env.users, e.context.pending.value.uid).value.password.Some?
            && env.verify(PasswordRow(env.users, e.context.pending.value.uid).value.password.value, Json.Get(form, "password").value.s) == HashError ==>
      r == Step(e, Err(Argon))
  {
    match e.context.pending
    case None => Step(e, Err(Submission(ModelError.NoPendingUser)))
    case Some(pending) =>
      match Json.Get(form, "password")
      case None => Step(e, Err(FieldErr("password", ModelError.Missing)))
      case Some(field) =>
        match StrFromField("password", field)
        case Err(err) => Step(e, Err(Submission(err)))
        case Ok(password) =>
          var invalid := Step(e, Err(FieldErr("password", ModelError.Invalid("Invalid Password"))));
          if ModelStage.Internal in backends then
            match PasswordRow(env.users, pending.uid)
            case None => Step(e, Err(Submission(ModelError.NoPendingUser)))
            case Some(row) =>
              match env.verify(row.password.value, password)
              case Verified => Step(MarkAuthenticated(e), Ok(()))
              case Mismatch => invalid
              case HashError => Step(e, Err(Argon))
          else invalid
  }

  /** The user an identification stage finds for the submitted `uid`, when that field is a string. */
  function IdentifiedUser(form: Json.Value, userFields: seq<ModelStage.UserField>, env: Env): Option<UserService.PartialUser>
  {
    if Json.Get(form, "uid").Some? && Json.Get(form, "uid").value.String? then
      UserService.LookupUser(env.users, Json.Get(form, "uid").value.s,
        ModelStage.Name in userFields, ModelStage.Email in userFields, ModelStage.Uuid in userFields, env.parseUuid)
    else None
  }

  /**
    What an identification stage needs so as not to panic. The password
    stage is looked up only once a user was found, so only then must it
    exist, be a password stage, and read a non-null password column.
   */
  predicate CanIdentify(form: Json.Value, password: Option<ModelReference.ReferenceId>, userFields: seq<ModelStage.UserField>, env: Env)
  {
    password.Some? && IdentifiedUser(form, userFields, env).Some? ==>
      && password.value in env.stages
      && env.stages[password.value].kind.Password?
      && PasswordReadSafe(form, env.stages[password.value].kind.backends, env, IdentifiedUser(form, userFields, env).value.uid)
  }

  /**
    What handling a stage needs so as not to panic: a password stage named by
    an identification stage exists and is a password stage, and the password
    column read for the user being authenticated is not null.
   */
  predicate CanHandle(stage: ModelStage.Stage, form: Json.Value, e: ExecutorFlow.FlowExecution, env: Env)
  {
    match stage.kind
    case Identification(password, userFields) => CanIdentify(form, password, userFields, env)
    case Password(backends) =>
      e.context.pending.Some? ==> PasswordReadSafe(form, backends, env, e.context.pending.value.uid)
    case _ => true
  }

  /** The pending user an identification sets for a found user: not yet authenticated. */
  function PendingFor(u: UserService.PartialUser): ModelData.PendingUser
  {
    ModelData.PendingUser(u.uid, u.name, None, false, u.isAdmin)
  }

  /**
    The identification arm of `handle_stage`: looks the user up by the
    enabled fields and makes them the pending user, then checks the password
    if the stage names a password stage.
   */
  function HandleIdentification(form: Json.Value, e: ExecutorFlow.FlowExecution, password: Option<ModelReference.ReferenceId>, userFields: seq<ModelStage.UserField>, env: Env): (r: Step)
    requires CanIdentify(form, password, userFields, env)
    ensures Json.Get(form, "uid").None? ==> r == Step(e, Err(FieldErr("uid", ModelError.Missing)))
    ensures Json.Get(form, "uid").Some? && !Json.Get(form, "uid").value.String? ==>
      r == Step(e, Err(Submission(StrFromField("uid", Json.Get(form, "uid").value).error)))
    ensures Json.Get(form, "uid").Some? && Json.Get(form, "uid").value.String? ==>
      var found := IdentifiedUser(form, userFields, env);
      && (found.None? ==> r == Step(e, Err(FieldErr("uid", ModelError.Invalid("Failed to authenticate")))))
      && (found.Some? && password.None? ==>
            r == Step(e.(context := e.context.(pending := Some(PendingFor(found.value)))), Ok(())))
      && (found.Some? && password.Some? ==>
            r == HandlePasswordStage(form, e.(context := e.context.(pending := Some(PendingFor(found.value)))),
                                     env.stages[password.value].kind.backends, env))
    ensures r.exec.flow == e.flow && r.exec.cursor == e.cursor && r.exec.completed == e.completed
    ensures r.exec.context == e.context.(pending := r.exec.context.pending)
    ensures Authenticated(r.exec) ==>
      (Authenticated(e) && r.exec == e) || CorrectPassword(form, env, r.exec.context.pending.value.uid)
  {
    match Json.Get(form, "uid")
    case None => Step(e, Err(FieldErr("uid", ModelError.Missing)))
    case Some(field) =>
      match StrFromField("uid", field)
      case Err(err) => Step(e, Err(Submission(err)))
      case Ok(text) =>
        match IdentifiedUser(form, userFields, env)
        case None => Step(e, Err(FieldErr("uid", ModelError.Invalid("Failed to authenticate"))))
        case Some(user) =>
          var e' := e.(context := e.context.(pending := Some(PendingFor(user))));
          match password
          case None => Step(e', Ok(()))
          case Some(ref) => HandlePasswordStage(form, e', env.stages[ref].kind.backends, env)
  }

  /**
    A uid that is missing, not a string or finds no user is refused with a
    field error before the password stage is looked up, so that reference
    may dangle or name a stage of another kind.
   */
  lemma UnfoundUidIgnoresPasswordStage(form: Json.Value, e: ExecutorFlow.FlowExecution, password: Option<ModelReference.ReferenceId>, userFields: seq<ModelStage.UserField>, env: Env)
    requires IdentifiedUser(form, userFields, env).None?
    ensures CanIdentify(form, password, userFields, env)
    ensures HandleIdentification(form, e, password, userFields, env).result.Err?
    ensures HandleIdentification(form, e, password, userFields, env).result.error.Submission?
    ensures HandleIdentification(form, e, password, userFields, env).exec == e
  {
  }

  /**
    `handle_stage`: identification and password stages check the submission
    as above; every other stage accepts it unchanged.
   */
  function HandleStage(form: Json.Value, e: ExecutorFlow.FlowExecution, stage: ModelStage.Stage, env: Env): (r: Step)
    requires CanHandle(stage, form, e, env)
    ensures !stage.kind.Identification? && !stage.kind.Password? ==> r == Step(e, Ok(()))
    ensures stage.kind.Identification? ==> r == HandleIdentification(form, e, stage.kind.password, stage.kind.userFields, env)
    ensures stage.kind.Password? ==> r == HandlePasswordStage(form, e, stage.kind.backends, env)
    ensures r.exec.flow == e.flow && r.exec.cursor == e.cursor && r.exec.completed == e.completed
    ensures r.exec.context == e.context.(pending := r.exec.context.pending)
    ensures Authenticated(r.exec) ==>
      (Authenticated(e) && r.exec == e) || CorrectPassword(form, env, r.exec.context.pending.value.uid)
  {
    match stage.kind
    case Identification(password, userFields) => HandleIdentification(form, e, password, userFields, env)
    case Password(backends) => HandlePasswordStage(form, e, backends, env)
    case _ => Step(e, Ok(()))
  }

  /** The current stage of an execution, which `handle_submission` and `complete` resolve. */
  predicate StageAt(e: ExecutorFlow.FlowExecution, env: Env, i: int)
  {
    0 <= i < |e.flow.entries| && e.flow.entries[i].stage in env.stages
  }

  function CurrentStage(e: ExecutorFlow.FlowExecution, env: Env): ModelStage.Stage
    requires StageAt(e, env, e.cursor)
  {
    ExecutorFlow.LookupStage(env.stages, ExecutorFlow.GetEntry(e))
  }

  /** `handle_submission`: a completed execution accepts anything; otherwise the current stage handles the form. */
  function HandleSubmission(form: Json.Value, e: ExecutorFlow.FlowExecution, env: Env): (r: Step)
    requires !e.completed ==> StageAt(e, env, e.cursor) && CanHandle(CurrentStage(e, env), form, e, env)
    ensures e.completed ==> r == Step(e, Ok(()))
    ensures !e.completed ==> r == HandleStage(form, e, CurrentStage(e, env), env)
  {
    if e.completed then Step(e, Ok(()))
    else HandleStage(form, e, CurrentStage(e, env), env)
  }

  /** The execution differs from `e0` at most in cursor, completion and the recorded execution error. */
  predicate OnlyProgressAndError(e0: ExecutorFlow.FlowExecution, e: ExecutorFlow.FlowExecution)
  {
    e.flow == e0.flow && e.context == e0.context.(error := e.context.error)
  }

  /** `complete` started at `e` gets as far as entry `i`: every entry before it resolves and needs no input. */
  predicate Reached(e: ExecutorFlow.FlowExecution, env: Env, i: int)
  {
    && e.cursor <= i < |e.flow.entries|
    && forall j :: e.cursor <= j < i ==>
         e.flow.entries[j].stage in env.stages && !ModelStage.RequiresInput(env.stages[e.flow.entries[j].stage].kind)
  }

  /**
    Every stage `complete` can look up resolves, and none that it can run
    within its 41 iterations is an unimplemented logout or write stage. The
    loop stops at the first stage that requires input, so nothing after that
    stage is constrained.
   */
  predicate CompletableFrom(e: ExecutorFlow.FlowExecution, env: Env)
  {
    !e.completed ==>
      forall i :: e.cursor <= i < |e.flow.entries| && Reached(e, env, i) ==>
        && e.flow.entries[i].stage in env.stages
        && (i - e.cursor <= 40 ==>
              !env.stages[e.flow.entries[i].stage].kind.UserLogout? && !env.stages[e.flow.entries[i].stage].kind.UserWrite?)
  }

  /**
    A stage that requires input shields the rest of the flow: whatever
    follows it, even a logout or write stage, `complete` started there does
    not reach it.
   */
  lemma InputStageShieldsRest(e: ExecutorFlow.FlowExecution, env: Env)
    requires e.cursor < |e.flow.entries| && e.flow.entries[e.cursor].stage in env.stages
    requires ModelStage.RequiresInput(env.stages[e.flow.entries[e.cursor].stage].kind)
    ensures CompletableFrom(e, env)
  {
  }

  lemma {:induction false} CompleteTimesStep(e: ExecutorFlow.FlowExecution, n: nat)
    ensures ExecutorFlow.CompleteTimes(e, n + 1) == ExecutorFlow.CompleteCurrent(ExecutorFlow.CompleteTimes(e, n))
    decreases n
  {
    if n > 0 {
      CompleteTimesStep(ExecutorFlow.CompleteCurrent(e), n - 1);
    }
  }

  /** `complete_current` reads only the flow, the cursor and the completed flag. */
  predicate SamePosition(a: ExecutorFlow.FlowExecution, b: ExecutorFlow.FlowExecution)
  {
    a.flow == b.flow && a.cursor == b.cursor && a.completed == b.completed
  }

  /**
    `complete`: runs the stages that need no input (only login is
    implemented), advancing after each. It stops when the execution is
    completed, at a stage that requires input, after more than 40 iterations,
    or when the pending user of a login stage is not authenticated, which is
    recorded as the execution's error. `loggedIn` is the user written into the
    session by the last login.
   */
  method Complete(e0: ExecutorFlow.FlowExecution, env: Env, sessionCookie: Option<string>, tokenFailure: bool) returns (e: ExecutorFlow.FlowExecution, result: Result<(), ApiError>, advances: nat, loggedIn: Option<Uuid>)
    requires e0.cursor < |e0.flow.entries|
    requires CompletableFrom(e0, env)
    ensures advances <= 41
    ensures OnlyProgressAndError(e0, e)
    ensures SamePosition(e, ExecutorFlow.CompleteTimes(e0, advances))
    ensures e0.cursor <= e.cursor < |e.flow.entries|
    ensures e0.completed ==> e.completed && advances == 0
    ensures !e.completed ==> e.cursor == e0.cursor + advances && Reached(e0, env, e.cursor) && StageAt(e, env, e.cursor)
    ensures result.Ok? && advances < 41 ==>
      || e.completed
      || ModelStage.RequiresInput(CurrentStage(e, env).kind)
      || (CurrentStage(e, env).kind.UserLogin? && !Authenticated(e)
          && e.context.error == Some(ExecutorContext.ExecutionError(Some(e.flow.entries[e.cursor].stage), AuthenticationFailedMessage)))
    ensures e.context.error != e0.context.error ==>
      && result.Ok? && !Authenticated(e) && !e.completed
      && e.context.error == Some(ExecutorContext.ExecutionError(Some(e.flow.entries[e.cursor].stage), AuthenticationFailedMessage))
      && CurrentStage(e, env).kind.UserLogin?
    ensures loggedIn.Some? ==> Authenticated(e0) && loggedIn.value == e0.context.pending.value.uid
    // an error comes only from a login stage, which is then the current one
    ensures result.Err? ==>
      && !e.completed && advances <= 40 && CurrentStage(e, env).kind.UserLogin?
      && ((e.context.pending.None? && result == Err(Submission(ModelError.NoPendingUser)))
          || (Authenticated(e) && sessionCookie.None? && result == Err(InvalidSessionCookie))
          || (Authenticated(e) && sessionCookie.Some? && tokenFailure && result == Err(LoginFailure)))
    // and each of those causes, at a login stage the loop reaches, is that error
    ensures !e.completed && advances <= 40 && CurrentStage(e, env).kind.UserLogin? ==>
      && (e.context.pending.None? ==> result == Err(Submission(ModelError.NoPendingUser)))
      && (Authenticated(e) && sessionCookie.None? ==> result == Err(InvalidSessionCookie))
      && (Authenticated(e) && sessionCookie.Some? && tokenFailure ==> result == Err(LoginFailure))
      && !(Authenticated(e) && sessionCookie.Some? && !tokenFailure)
  {
    e := e0;
    result := Ok(());
    advances := 0;
    loggedIn := None;
    var iterations := 0;
    while true
      invariant 0 <= advances == iterations <= 41
      invariant e0.cursor <= e.cursor < |e.flow.entries|
      invariant OnlyProgressAndError(e0, e) && e.context.error == e0.context.error
      invariant SamePosition(e, ExecutorFlow.CompleteTimes(e0, advances))
      invariant e0.completed ==> e.completed && advances == 0
      invariant loggedIn.Some? ==> Authenticated(e0) && loggedIn.value == e0.context.pending.value.uid
      invariant !e.completed ==> e.cursor == e0.cursor + advances && Reached(e0, env, e.cursor)
      decreases 42 - iterations
    {
      if e.completed {
        break;
      }
      var entry := ExecutorFlow.GetEntry(e);
      var stage := ExecutorFlow.LookupStage(env.stages, entry);
      if ModelStage.RequiresInput(stage.kind) {
        break;
      }
      if iterations > 40 {
        break;
      }
      iterations := iterations + 1;
      match stage.kind {
        case UserLogin =>
          if e.context.pending.None? {
            result := Err(Submission(ModelError.NoPendingUser));
            return;
          }
          var user := e.context.pending.value;
          if !user.authenticated {
            e := e.(context := e.context.(error := Some(ExecutorContext.ExecutionError(Some(entry.stage), AuthenticationFailedMessage))));
            break;
          }
          if sessionCookie.None? {
            result := Err(InvalidSessionCookie);
            return;
          }
          if tokenFailure {
            result := Err(LoginFailure);
            return;
          }
          loggedIn := Some(user.uid);
      }
      CompleteTimesStep(e0, advances);
      e := ExecutorFlow.CompleteCurrent(e);
      advances := advances + 1;
    }
  }

  /** What `post_flow` answers. */
  datatype PostOutcome =
    /** The current page again, with the submission's error if any. */
    | Rendered(fieldError: Option<ModelError.SubmissionError>)
    /** A redirect back to the flow after the submission was accepted. */
    | Redirected
    | Failed(error: ApiError)

  /**
    `post_flow` for an execution already running under the session's key. A
    policy check that blocks renders the page unchanged; a submission error
    renders the page with that error and does not advance; any other error
    fails the request; an accepted submission advances to the next entry,
    runs `complete`, and commits.
   */
  method PostFlow(e0: ExecutorFlow.FlowExecution, form: Json.Value, env: Env, checkBlocks: bool, sessionCookie: Option<string>, tokenFailure: bool, commitOk: bool) returns (e: ExecutorFlow.FlowExecution, outcome: PostOutcome)
    requires e0.cursor < |e0.flow.entries|
    requires !e0.completed ==> StageAt(e0, env, e0.cursor) && CanHandle(CurrentStage(e0, env), form, e0, env)
    requires CompletableFrom(ExecutorFlow.CompleteCurrent(e0), env)
    ensures e.flow == e0.flow && e.cursor >= e0.cursor && e.cursor < |e.flow.entries|
    ensures e0.completed ==> e.completed
    ensures checkBlocks ==> e == e0 && outcome == Rendered(None)
    ensures outcome.Rendered? ==> e.cursor == e0.cursor && e.completed == e0.completed
    ensures (e.cursor != e0.cursor || e.completed != e0.completed) ==>
      !checkBlocks && HandleSubmission(form, e0, env).result.Ok?
    ensures !checkBlocks && HandleSubmission(form, e0, env).result.Err? && HandleSubmission(form, e0, env).result.error.Submission? ==>
      outcome == Rendered(Some(HandleSubmission(form, e0, env).result.error.error))
    ensures Authenticated(e) ==>
      (Authenticated(e0) && e.context.pending == e0.context.pending) || CorrectPassword(form, env, e.context.pending.value.uid)
  {
    if checkBlocks {
      return e0, Rendered(None);
    }
    var step := HandleSubmission(form, e0, env);
    e := step.exec;
    if step.result.Err? {
      if step.result.error.Submission? {
        return e, Rendered(Some(step.result.error.error));
      }
      return e, Failed(step.result.error);
    }
    var before := e;
    e := ExecutorFlow.CompleteCurrent(e);
    var result, advances, loggedIn;
    e, result, advances, loggedIn := Complete(e, env, sessionCookie, tokenFailure);
    if result.Err? {
      return e, Failed(result.error);
    }
    if !commitOk {
      return e, Failed(CommitFailure);
    }
    outcome := Redirected;
  }
}

=== FILE: api_policy.dfy ===
/**
  The policy administration endpoints of server/src/api/v1/policy.rs:
  listing, creating a password-expiry policy and creating an expression
  policy from a streamed request body.

  The three policy tables are maps keyed by their serial uids; the uids the
  database hands out are inputs, required to be fresh. The admin session
  check, UTF-8 decoding, the base64 encoding and the expression compiler are
  inputs. Database failures are not modelled.
 */
module ApiPolicy {
  import opened Wrappers
  import opened ModelPolicy

  type Byte = x: int | 0 <= x < 0x100
  type I32 = x: int | -0x8000_0000 <= x < 0x8000_0000

  const MaxExpressionLen: nat := 2048

  const BadRequest: nat := 400
  const PayloadTooLarge: nat := 413
  const InternalServerError: nat := 500

  /** A `policies` row with its links into the two payload tables. */
  datatype PolicyRow = PolicyRow(slug: string, kind: PolicyKindSimple, passwordExpiration: Option<int>, expression: Option<int>)

  datatype Db = Db(policies: map<int, PolicyRow>, expirations: map<int, I32>, expressions: map<int, string>)

  /** The foreign keys hold: every link names an existing payload row. */
  predicate Valid(db: Db) {
    forall u | u in db.policies ::
      && (db.policies[u].passwordExpiration.Some? ==> db.policies[u].passwordExpiration.value in db.expirations)
      && (db.policies[u].expression.Some? ==> db.policies[u].expression.value in db.expressions)
  }

  /** Reading a policy back: the row joined with the payload its kind calls for. */
  function Load(db: Db, uid: int): Option<Policy> {
    if uid !in db.policies then None
    else
      var row := db.policies[uid];
      match row.kind
      case SimplePasswordStrength => Some(Policy(uid, row.slug, PasswordStrength))
      case SimplePasswordExpiry =>
        if row.passwordExpiration.Some? && row.passwordExpiration.value in db.expirations
        then Some(Policy(uid, row.slug, PasswordExpiry(db.expirations[row.passwordExpiration.value])))
        else None
      case SimpleExpression =>
        if row.expression.Some? && row.expression.value in db.expressions
        then Some(Policy(uid, row.slug, Expression(db.expressions[row.expression.value])))
        else None
  }

  /** A kind `create` can store: its maximum age fits an `i32`; password strength is unfinished and panics. */
  predicate Storable(kind: PolicyKind) {
    && !kind.PasswordStrength?
    && (kind.PasswordExpiry? ==> -0x8000_0000 <= kind.maxAge < 0x8000_0000)
  }

  /**
    `create`: inserts the policy row, then the payload row, then links the
    two; returns the partial policy with the new uid.
   */
  function Create(db: Db, slug: string, kind: PolicyKind, uid: int, subUid: int): (r: (Db, PartialPolicy))
    requires Storable(kind)
    requires uid !in db.policies
    requires kind.PasswordExpiry? ==> subUid !in db.expirations
    requires kind.Expression? ==> subUid !in db.expressions
    ensures r.1 == ToPartial(Policy(uid, slug, kind))
    ensures Load(r.0, uid) == Some(Policy(uid, slug, kind))
    ensures r.0.policies.Keys == db.policies.Keys + {uid}
    ensures forall u | u in db.policies :: r.0.policies[u] == db.policies[u]
  {
    match kind
    case PasswordExpiry(maxAge) =>
      var row := PolicyRow(slug, SimplePasswordExpiry, Some(subUid), None);
      (db.(policies := db.policies[uid := row], expirations := db.expirations[subUid := maxAge]), PartialPolicy(uid, slug, SimplePasswordExpiry))
    case Expression(source) =>
      var row := PolicyRow(slug, SimpleExpression, None, Some(subUid));
      (db.(policies := db.policies[uid := row], expressions := db.expressions[subUid := source]), PartialPolicy(uid, slug, SimpleExpression))
  }

  /** Creating keeps the foreign keys, and every other policy reads back as before. */
  lemma CreateKeepsOthers(db: Db, slug: string, kind: PolicyKind, uid: int, subUid: int)
    requires Valid(db) && Storable(kind)
    requires uid !in db.policies
    requires kind.PasswordExpiry? ==> subUid !in db.expirations
    requires kind.Expression? ==> subUid !in db.expressions
    ensures var db' := Create(db, slug, kind, uid, subUid).0;
      && Valid(db')
      && forall u | u != uid :: Load(db', u) == Load(db, u)
  {
    var db' := Create(db, slug, kind, uid, subUid).0;
    forall u | u != uid ensures Load(db', u) == Load(db, u) {
      if u in db.policies {
        var row := db.policies[u];
        if row.passwordExpiration.Some? {
          assert row.passwordExpiration.value in db.expirations;
        }
        if row.expression.Some? {
          assert row.expression.value in db.expressions;
        }
      }
    }
  }

  /** `list`: every stored policy as a partial policy, in storage order. */
  function List(policies: seq<Policy>): (r: seq<PartialPolicy>)
    ensures |r| == |policies|
    ensures forall i | 0 <= i < |r| ::
      r[i].uid == policies[i].uid && r[i].slug == policies[i].slug && r[i].kind == Simplify(policies[i].kind)
  {
    seq(|policies|, i requires 0 <= i < |policies| => ToPartial(policies[i]))
  }

  /** A handler's reply: a plain status with text, or the created policy as JSON. */
  datatype Reply = Plain(status: nat, body: string) | Created(policy: PartialPolicy)

  /** `create_expiration`: a negative maximum age is refused before anything is written. */
  function CreateExpiration<E>(db: Db, admin: Result<(), E>, slug: string, maxAge: I32, uid: int, subUid: int): (r: (Db, Result<Reply, E>))
    requires uid !in db.policies && subUid !in db.expirations
    ensures admin.Err? ==> r == (db, Err(admin.error))
    ensures admin.Ok? && maxAge < 0 ==> r == (db, Ok(Plain(BadRequest, "max_age must be positive")))
    ensures r.1.Ok? && r.1.value.Created? <==> admin.Ok? && maxAge >= 0
    ensures admin.Ok? && maxAge >= 0 ==>
      && r.1.value.policy == PartialPolicy(uid, slug, SimplePasswordExpiry)
      && Load(r.0, uid) == Some(Policy(uid, slug, PasswordExpiry(maxAge)))
  {
    if admin.Err? then (db, Err(admin.error))
    else if maxAge < 0 then (db, Ok(Plain(BadRequest, "max_age must be positive")))
    else
      var c := Create(db, slug, PasswordExpiry(maxAge), uid, subUid);
      (c.0, Ok(Created(c.1)))
  }

  /** How reading the body stream ends. */
  datatype Body<E> = Complete(bytes: seq<Byte>) | ChunkError(error: E) | TooLarge

  /** The read loop as a recursion over the remaining chunks: `acc` holds the bytes read so far. */
  function Collect<E>(chunks: seq<Result<seq<Byte>, E>>, acc: seq<Byte>): Body<E>
    decreases |chunks|
  {
    if chunks == [] then Complete(acc)
    else match chunks[0]
      case Err(e) => ChunkError(e)
      case Ok(c) => if |acc| + |c| > MaxExpressionLen then TooLarge else Collect(chunks[1..], acc + c)
  }

  predicate AllOk<E>(chunks: seq<Result<seq<Byte>, E>>) {
    forall i | 0 <= i < |chunks| :: chunks[i].Ok?
  }

  function Total<E>(chunks: seq<Result<seq<Byte>, E>>): nat
    requires AllOk(chunks)
  {
    if chunks == [] then 0 else |chunks[0].value| + Total(chunks[1..])
  }

  function Flatten<E>(chunks: seq<Result<seq<Byte>, E>>): seq<Byte>
    requires AllOk(chunks)
  {
    if chunks == [] then [] else chunks[0].value + Flatten(chunks[1..])
  }

  lemma {:induction false} CollectComplete<E>(chunks: seq<Result<seq<Byte>, E>>, acc: seq<Byte>)
    requires |acc| <= MaxExpressionLen
    ensures Collect(chunks, acc).Complete? <==> AllOk(chunks) && |acc| + Total(chunks) <= MaxExpressionLen
    ensures Collect(chunks, acc).Complete? ==> Collect(chunks, acc).bytes == acc + Flatten(chunks)
    decreases |chunks|
  {
    if chunks != [] {
      var rest := chunks[1..];
      assert AllOk(chunks) <==> chunks[0].Ok? && AllOk(rest) by {
        if chunks[0].Ok? && AllOk(rest) {
          forall i | 0 <= i < |chunks| ensures chunks[i].Ok? {
            if i > 0 { assert chunks[i] == rest[i - 1]; }
          }
        }
      }
      if chunks[0].Err? {
        assert !AllOk(chunks);
      } else {
        var c := chunks[0].value;
        if AllOk(chunks) {
          assert Total(chunks) == |c| + Total(rest);
        }
        if |acc| + |c| <= MaxExpressionLen {
          CollectComplete(rest, acc + c);
        }
        if AllOk(chunks) {
          assert acc + c + Flatten(rest) == acc + (c + Flatten(rest));
        }
      }
    }
  }

  /** The body is accepted exactly when every chunk arrives and they add up to at most 2048 bytes; it is their concatenation. */
  lemma CollectAcceptsExactly<E>(chunks: seq<Result<seq<Byte>, E>>)
    ensures Collect(chunks, []).Complete? <==> AllOk(chunks) && Total(chunks) <= MaxExpressionLen
    ensures Collect(chunks, []).Complete? ==> Collect(chunks, []).bytes == Flatten(chunks)
  {
    CollectComplete(chunks, []);
    if Collect(chunks, []).Complete? {
      assert [] + Flatten(chunks) == Flatten(chunks);
    }
  }

  /** The read loop of `create_expression`. */
  method ReadBody<E>(chunks: seq<Result<seq<Byte>, E>>) returns (r: Body<E>)
    ensures r.Complete? <==> AllOk(chunks) && Total(chunks) <= MaxExpressionLen
    ensures r.Complete? ==> r.bytes == Flatten(chunks) && |r.bytes| <= MaxExpressionLen
    ensures r.ChunkError? ==> exists i | 0 <= i < |chunks| :: chunks[i] == Err(r.error)
  {
    CollectAcceptsExactly(chunks);
    var bytes: seq<Byte> := [];
    var i := 0;
    while i < |chunks|
      invariant 0 <= i <= |chunks|
      invariant |bytes| <= MaxExpressionLen
      invariant Collect(chunks[i..], bytes) == Collect(chunks, [])
    {
      assert chunks[i..][1..] == chunks[i + 1..];
      match chunks[i]
      case Err(e) =>
        return ChunkError(e);
      case Ok(c) =>
        if |bytes| + |c| > MaxExpressionLen {
          return TooLarge;
        }
        bytes := bytes + c;
      i := i + 1;
    }
    r := Complete(bytes);
  }

  datatype CompileError = InvalidBase64 | Parse(message: string)

  /**
    `create_expression`: the body, once collected, must be UTF-8 and must
    compile once base64-encoded; the stored expression is the encoded text.
   */
  method CreateExpression<E>(db: Db, admin: Result<(), E>, slug: string, chunks: seq<Result<seq<Byte>, E>>, utf8: seq<Byte> -> Option<string>, encode: string -> string, compile: string -> Result<(), CompileError>, uid: int, subUid: int) returns (db': Db, r: Result<Reply, E>)
    requires uid !in db.policies && subUid !in db.expressions
    ensures admin.Err? ==> db' == db && r == Err(admin.error)
    ensures admin.Ok? && !(AllOk(chunks) && Total(chunks) <= MaxExpressionLen) ==>
      db' == db && (r.Err? || r == Ok(Plain(PayloadTooLarge, "Request body too large")))
    ensures admin.Ok? && AllOk(chunks) && Total(chunks) > MaxExpressionLen ==>
      r == Ok(Plain(PayloadTooLarge, "Request body too large"))
    ensures admin.Ok? && r.Err? ==> exists i | 0 <= i < |chunks| :: chunks[i] == Err(r.error)
    ensures r.Ok? && r.value.Created? <==>
      && admin.Ok? && AllOk(chunks) && Total(chunks) <= MaxExpressionLen
      && utf8(Flatten(chunks)).Some?
      && compile(encode(utf8(Flatten(chunks)).value)).Ok?
    ensures r.Ok? && r.value.Created? ==>
      && r.value.policy == PartialPolicy(uid, slug, SimpleExpression)
      && Load(db', uid) == Some(Policy(uid, slug, Expression(encode(utf8(Flatten(chunks)).value))))
    ensures !(r.Ok? && r.value.Created?) ==> db' == db
    ensures admin.Ok? && AllOk(chunks) && Total(chunks) <= MaxExpressionLen && utf8(Flatten(chunks)).None? ==>
      r == Ok(Plain(BadRequest, "Requset body must be utf8"))
    ensures admin.Ok? && AllOk(chunks) && Total(chunks) <= MaxExpressionLen && utf8(Flatten(chunks)).Some? ==>
      var c := compile(encode(utf8(Flatten(chunks)).value));
      && (c == Err(InvalidBase64) ==> r == Ok(Plain(InternalServerError, "")))
      && (c.Err? && c.error.Parse? ==> r == Ok(Plain(BadRequest, c.error.message)))
  {
    db' := db;
    if admin.Err? {
      return db, Err(admin.error);
    }
    var body := ReadBody(chunks);
    match body
    case ChunkError(e) =>
      r := Err(e);
    case TooLarge =>
      r := Ok(Plain(PayloadTooLarge, "Request body too large"));
    case Complete(bytes) =>
      var text := utf8(bytes);
      if text.None? {
        return db, Ok(Plain(BadRequest, "Requset body must be utf8"));
      }
      var expression := encode(text.value);
      match compile(expression)
      case Err(InvalidBase64) =>
        r := Ok(Plain(InternalServerError, ""));
      case Err(Parse(message)) =>
        r := Ok(Plain(BadRequest, message));
      case Ok(_) =>
        var c := Create(db, slug, Expression(expression), uid, subUid);
        db', r := c.0, Ok(Created(c.1));
  }
}

=== FILE: auth_info.dfy ===
/**
  The authenticated caller as the route handlers see it: the user and the
  roles carried by the session. The session type and its role checks live
  in the authentication module, which is not part of this model; handlers
  here receive the outcome of `check_admin`/`check_developer` as an input.
 */
module AuthInfo {
  import opened UuidType

  /** `UserRole`: the roles the handlers test for, and any other role by name. */
  datatype UserRole = Admin | Developer | OtherRole(name: string)

  /** `SessionInfo`. */
  datatype SessionInfo = SessionInfo(user: Uuid, roles: set<UserRole>)

  /** `SessionInfo::has_role`. */
  predicate HasRole(s: SessionInfo, role: UserRole) {
    role in s.roles
  }
}

=== FILE: base64url.dfy ===
/**
  The URL- and filename-safe base 64 alphabet of section 5 of RFC 4648,
  without padding, as the `BASE64_URL_SAFE_NO_PAD` engine uses it.

  Three bytes become four symbols; a final one or two bytes become two or
  three symbols. Decoding rejects symbols outside the alphabet, a final
  group of a single symbol, and a final symbol whose unused low bits are not
  zero, so every accepted string is the encoding of what it decodes to.
 */
module Base64Url {
  import opened Wrappers

  type Byte = x: int | 0 <= x < 256
  type Sextet = x: int | 0 <= x < 64

  /** The symbol for value `i`: `A`-`Z`, `a`-`z`, `0`-`9`, `-`, `_`. */
  function Symbol(i: Sextet): char
  {
    if i < 26 then (('A' as int) + i) as char
    else if i < 52 then (('a' as int) + (i - 26)) as char
    else if i < 62 then (('0' as int) + (i - 52)) as char
    else if i == 62 then '-'
    else '_'
  }

  /** The value of a symbol, if it is in the alphabet. */
  function Value(c: char): (r: Option<Sextet>)
    ensures r.Some? ==> Symbol(r.value) == c
  {
    if 'A' <= c <= 'Z' then Some((c as int) - ('A' as int))
    else if 'a' <= c <= 'z' then Some(26 + (c as int) - ('a' as int))
    else if '0' <= c <= '9' then Some(52 + (c as int) - ('0' as int))
    else if c == '-' then Some(62)
    else if c == '_' then Some(63)
    else None
  }

  lemma ValueOfSymbol(i: Sextet)
    ensures Value(Symbol(i)) == Some(i)
  {
  }

  datatype DecodeError = InvalidByte | InvalidLength | InvalidLastSymbol

  function EncodeFull(b0: Byte, b1: Byte, b2: Byte): seq<char>
  {
    [Symbol(b0 / 4), Symbol((b0 % 4) * 16 + b1 / 16), Symbol((b1 % 16) * 4 + b2 / 64), Symbol(b2 % 64)]
  }

  /** Encoding: four symbols per three bytes, two or three for a final one or two bytes. */
  function Encode(b: seq<Byte>): (s: seq<char>)
    ensures |s| == (4 * |b| + 2) / 3
  {
    if |b| >= 3 then EncodeFull(b[0], b[1], b[2]) + Encode(b[3..])
    else if |b| == 2 then [Symbol(b[0] / 4), Symbol((b[0] % 4) * 16 + b[1] / 16), Symbol((b[1] % 16) * 4)]
    else if |b| == 1 then [Symbol(b[0] / 4), Symbol((b[0] % 4) * 16)]
    else []
  }

  function DecodeFull(c0: Sextet, c1: Sextet, c2: Sextet, c3: Sextet): seq<Byte>
  {
    [c0 * 4 + c1 / 16, (c1 % 16) * 16 + c2 / 4, (c2 % 4) * 64 + c3]
  }

  function Prepend(prefix: seq<Byte>, rest: Result<seq<Byte>, DecodeError>): Result<seq<Byte>, DecodeError>
  {
    if rest.Ok? then Ok(prefix + rest.value) else rest
  }

  /** Decoding, symbol group by symbol group. */
  function Decode(s: seq<char>): (r: Result<seq<Byte>, DecodeError>)
    ensures |s| % 4 == 1 ==> r.Err?
  {
    if |s| == 0 then Ok([])
    else if |s| == 1 then (if Value(s[0]).None? then Err(InvalidByte) else Err(InvalidLength))
    else if Value(s[0]).None? || Value(s[1]).None? || (|s| > 2 && Value(s[2]).None?) || (|s| > 3 && Value(s[3]).None?) then Err(InvalidByte)
    else
      var c0 := Value(s[0]).value;
      var c1 := Value(s[1]).value;
      if |s| == 2 then
        if c1 % 16 != 0 then Err(InvalidLastSymbol) else Ok([c0 * 4 + c1 / 16])
      else
        var c2 := Value(s[2]).value;
        if |s| == 3 then
          if c2 % 4 != 0 then Err(InvalidLastSymbol) else Ok([c0 * 4 + c1 / 16, (c1 % 16) * 16 + c2 / 4])
        else
          Prepend(DecodeFull(c0, c1, c2, Value(s[3]).value), Decode(s[4..]))
  }

  /** A symbol outside the alphabet anywhere in the text makes decoding fail. */
  lemma {:induction false} DecodeRejectsForeignSymbol(s: seq<char>, i: nat)
    requires i < |s| && Value(s[i]).None?
    ensures Decode(s).Err?
    decreases |s|
  {
    if i >= 4 {
      assert s[4..][i - 4] == s[i];
      DecodeRejectsForeignSymbol(s[4..], i - 4);
    }
  }

  /** Unfolding one leading group of four valid symbols. */
  lemma DecodeGroup(s: seq<char>)
    requires |s| >= 4
    requires Value(s[0]).Some? && Value(s[1]).Some? && Value(s[2]).Some? && Value(s[3]).Some?
    ensures Decode(s) == Prepend(DecodeFull(Value(s[0]).value, Value(s[1]).value, Value(s[2]).value, Value(s[3]).value), Decode(s[4..]))
  {
  }

  lemma DivMod4(x: int, q: int, r: int)
    requires 0 <= r < 4 && x == q * 4 + r
    ensures x / 4 == q && x % 4 == r
  {
  }

  lemma DivMod16(x: int, q: int, r: int)
    requires 0 <= r < 16 && x == q * 16 + r
    ensures x / 16 == q && x % 16 == r
  {
  }

  lemma DivMod64(x: int, q: int, r: int)
    requires 0 <= r < 64 && x == q * 64 + r
    ensures x / 64 == q && x % 64 == r
  {
  }

  /** The second symbol of a group: two low bits of one byte above four high bits of the next. */
  lemma SplitSecond(hi: int, lo: int)
    requires 0 <= hi < 4 && 0 <= lo < 16
    ensures (hi * 16 + lo) / 16 == hi && (hi * 16 + lo) % 16 == lo
  {
    DivMod16(hi * 16 + lo, hi, lo);
  }

  lemma FullGroupRoundTrip(b0: Byte, b1: Byte, b2: Byte)
    ensures var e := EncodeFull(b0, b1, b2);
      && Value(e[0]).Some? && Value(e[1]).Some? && Value(e[2]).Some? && Value(e[3]).Some?
      && DecodeFull(Value(e[0]).value, Value(e[1]).value, Value(e[2]).value, Value(e[3]).value) == [b0, b1, b2]
  {
    ValueOfSymbol(b0 / 4);
    ValueOfSymbol((b0 % 4) * 16 + b1 / 16);
    ValueOfSymbol((b1 % 16) * 4 + b2 / 64);
    ValueOfSymbol(b2 % 64);
    SplitSecond(b0 % 4, b1 / 16);
    DivMod4((b1 % 16) * 4 + b2 / 64, b1 % 16, b2 / 64);
  }

  /** A final pair of bytes comes back from its three symbols. */
  lemma DecodeEncodeTwo(b0: Byte, b1: Byte)
    ensures Decode(Encode([b0, b1])) == Ok([b0, b1])
  {
    var s := Encode([b0, b1]);
    assert s == [Symbol(b0 / 4), Symbol((b0 % 4) * 16 + b1 / 16), Symbol((b1 % 16) * 4)];
    ValueOfSymbol(b0 / 4);
    ValueOfSymbol((b0 % 4) * 16 + b1 / 16);
    ValueOfSymbol((b1 % 16) * 4);
    SplitSecond(b0 % 4, b1 / 16);
    DivMod4((b1 % 16) * 4, b1 % 16, 0);
    assert [b0 / 4 * 4 + b0 % 4, (b1 / 16) * 16 + b1 % 16] == [b0, b1];
  }

  /** A final byte comes back from its two symbols. */
  lemma DecodeEncodeOne(b0: Byte)
    ensures Decode(Encode([b0])) == Ok([b0])
  {
    var s := Encode([b0]);
    assert s == [Symbol(b0 / 4), Symbol((b0 % 4) * 16)];
    ValueOfSymbol(b0 / 4);
    ValueOfSymbol((b0 % 4) * 16);
    SplitSecond(b0 % 4, 0);
    assert [b0 / 4 * 4 + b0 % 4] == [b0];
  }

  /** Encoding a leading group of three bytes. */
  lemma EncodeGroup(b: seq<Byte>)
    requires |b| >= 3
    ensures Encode(b) == EncodeFull(b[0], b[1], b[2]) + Encode(b[3..])
  {
  }

  lemma SplitGroup(b: seq<Byte>)
    requires |b| >= 3
    ensures b == [b[0], b[1], b[2]] + b[3..]
  {
  }

  /** A leading full group decodes back to its three bytes, followed by whatever the rest decodes to. */
  lemma DecodeEncodeGroup(b: seq<Byte>)
    requires |b| >= 3 && Decode(Encode(b[3..])) == Ok(b[3..])
    ensures Decode(Encode(b)) == Ok(b)
  {
    var e := EncodeFull(b[0], b[1], b[2]);
    var t := Encode(b[3..]);
    var s := e + t;
    assert Encode(b) == s by {
      EncodeGroup(b);
    }
    assert Value(s[0]).Some? && Value(s[1]).Some? && Value(s[2]).Some? && Value(s[3]).Some?
      && DecodeFull(Value(s[0]).value, Value(s[1]).value, Value(s[2]).value, Value(s[3]).value) == [b[0], b[1], b[2]] by {
      FullGroupRoundTrip(b[0], b[1], b[2]);
      assert s[0] == e[0] && s[1] == e[1] && s[2] == e[2] && s[3] == e[3];
    }
    assert s[4..] == t;
    DecodeGroup(s);
    SplitGroup(b);
  }

  /** Decoding undoes encoding. */
  lemma {:induction false} DecodeEncode(b: seq<Byte>)
    ensures Decode(Encode(b)) == Ok(b)
  {
    if |b| >= 3 {
      DecodeEncode(b[3..]);
      DecodeEncodeGroup(b);
    } else if |b| == 2 {
      DecodeEncodeTwo(b[0], b[1]);
      assert b == [b[0], b[1]];
    } else if |b| == 1 {
      DecodeEncodeOne(b[0]);
      assert b == [b[0]];
    }
  }

  lemma FullGroupCanonical(c0: Sextet, c1: Sextet, c2: Sextet, c3: Sextet)
    ensures var d := DecodeFull(c0, c1, c2, c3);
      EncodeFull(d[0], d[1], d[2]) == [Symbol(c0), Symbol(c1), Symbol(c2), Symbol(c3)]
  {
    var d0, d1, d2 := c0 * 4 + c1 / 16, (c1 % 16) * 16 + c2 / 4, (c2 % 4) * 64 + c3;
    DivMod4(d0, c0, c1 / 16);
    DivMod16(d1, c1 % 16, c2 / 4);
    DivMod64(d2, c2 % 4, c3);
    DivMod16(c1, c1 / 16, c1 % 16);
    DivMod4(c2, c2 / 4, c2 % 4);
    assert (d0 % 4) * 16 + d1 / 16 == c1;
    assert (d1 % 16) * 4 + d2 / 64 == c2;
  }

  lemma CanonicalTwo(s: seq<char>)
    requires |s| == 2 && Decode(s).Ok?
    ensures Encode(Decode(s).value) == s
  {
    var c0: int, c1: int := Value(s[0]).value, Value(s[1]).value;
    var d: Byte := c0 * 4 + c1 / 16;
    DivMod4(d, c0, c1 / 16);
    DivMod16(c1, c1 / 16, 0);
    assert Encode([d]) == [Symbol(c0), Symbol(c1)];
  }

  lemma CanonicalThree(s: seq<char>)
    requires |s| == 3 && Decode(s).Ok?
    ensures Encode(Decode(s).value) == s
  {
    var c0: Sextet, c1: Sextet, c2: Sextet := Value(s[0]).value, Value(s[1]).value, Value(s[2]).value;
    assert c2 % 4 == 0;
    var d0: Byte, d1: Byte := c0 * 4 + c1 / 16, (c1 % 16) * 16 + c2 / 4;
    assert Decode(s).value == [d0, d1];
    DivMod4(d0, c0, c1 / 16);
    DivMod16(d1, c1 % 16, c2 / 4);
    DivMod16(c1, c1 / 16, c1 % 16);
    DivMod4(c2, c2 / 4, 0);
    assert (d0 % 4) * 16 + d1 / 16 == c1;
    assert (d1 % 16) * 4 == c2;
    assert s == [Symbol(c0), Symbol(c1), Symbol(c2)];
  }

  /** A leading group of four accepted symbols is the encoding of its three bytes. */
  lemma EncodeDecodeGroup(s: seq<char>)
    requires |s| >= 4 && Decode(s).Ok?
    requires Decode(s[4..]).Ok? && Encode(Decode(s[4..]).value) == s[4..]
    ensures Encode(Decode(s).value) == s
  {
    var c0, c1, c2, c3 := Value(s[0]).value, Value(s[1]).value, Value(s[2]).value, Value(s[3]).value;
    var rest := Decode(s[4..]).value;
    var d := DecodeFull(c0, c1, c2, c3);
    DecodeGroup(s);
    assert Decode(s).value == d + rest;
    assert Encode(d + rest) == EncodeFull(d[0], d[1], d[2]) + Encode(rest) by {
      EncodeGroup(d + rest);
      assert (d + rest)[3..] == rest;
    }
    assert EncodeFull(d[0], d[1], d[2]) == [s[0], s[1], s[2], s[3]] by {
      FullGroupCanonical(c0, c1, c2, c3);
    }
    assert s == [s[0], s[1], s[2], s[3]] + s[4..];
  }

  /** Every string decoding succeeds on is the encoding of the result: decoding accepts only canonical encodings. */
  lemma {:induction false} EncodeDecode(s: seq<char>)
    requires Decode(s).Ok?
    ensures Encode(Decode(s).value) == s
  {
    if |s| == 2 {
      CanonicalTwo(s);
    } else if |s| == 3 {
      CanonicalThree(s);
    } else if |s| >= 4 {
      assert Decode(s[4..]).Ok? by {
        DecodeGroup(s);
      }
      EncodeDecode(s[4..]);
      EncodeDecodeGroup(s);
    }
  }
}

=== FILE: crate_model_error.dfy ===
/**
  `FieldType`: the JSON kind of a submitted form value, as named in field errors
  (crates/model/src/error.rs, the crate copy of model/src/error.rs).
 */
module CrateModelError {
  import Json

  datatype FieldType = Null | Boolean | String | Number | Object | Array

  /** `From<&Value> for FieldType`: one field type per JSON kind. */
  function FieldTypeOf(v: Json.Value): (t: FieldType)
    ensures t == Null <==> v.Null?
    ensures t == Boolean <==> v.Bool?
    ensures t == Number <==> v.Number?
    ensures t == String <==> v.String?
    ensures t == Array <==> v.Array?
    ensures t == Object <==> v.Object?
  {
    match v
    case Null => Null
    case Bool(_) => Boolean
    case Number(_) => Number
    case String(_) => String
    case Array(_) => Array
    case Object(_) => Object
  }

  /** Two JSON values are of the same kind: same constructor, any payload. */
  predicate SameKind(a: Json.Value, b: Json.Value)
  {
    (a.Null? && b.Null?) || (a.Bool? && b.Bool?) || (a.Number? && b.Number?)
    || (a.String? && b.String?) || (a.Array? && b.Array?) || (a.Object? && b.Object?)
  }

  /** The classification separates exactly the JSON kinds: equal field types iff equal kinds. */
  lemma FieldTypeSeparatesKinds(a: Json.Value, b: Json.Value)
    ensures FieldTypeOf(a) == FieldTypeOf(b) <==> SameKind(a, b)
  {
  }
}

=== FILE: csrf.dfy ===
/**
  Cross-site request forgery protection (server/src/api/csrf.rs).

  The secret is 32 characters drawn from a 62-character alphabet and lives in
  the `csrf-token` cookie. A client may echo it in the CSRF header either
  plainly or masked: a fresh 32-character mask followed by the secret shifted
  position by position by the mask, modulo 62. Rust string lengths count
  UTF-8 bytes, so lengths of request strings are taken with `Utf8Len`.
 */
module Csrf {
  import opened Wrappers

  const CookieName: string := "csrf-token"
  const SecretLength: nat := 32
  const TokenLength: nat := SecretLength * 2
  const Range: nat := 62
  const UsizeModulus: nat := 0x1_0000_0000_0000_0000
  const UsizeMax: nat := UsizeModulus - 1

  /** The alphabet's character at position `i`: lower case, upper case, then digits. */
  function AlphaAt(i: nat): char
  {
    if i < 26 then (('a' as int) + i) as char
    else if i < 52 then (('A' as int) + (i - 26)) as char
    else if i < Range then (('0' as int) + (i - 52)) as char
    else '0'
  }

  /** `ALPHANUMERIC_CHARS`. */
  function Alphabet(): (r: seq<char>)
    ensures |r| == Range && forall i :: 0 <= i < Range ==> r[i] == AlphaAt(i)
  {
    seq(Range, i requires 0 <= i => AlphaAt(i))
  }

  predicate IsAlnum(c: char)
  {
    ('a' <= c <= 'z') || ('A' <= c <= 'Z') || ('0' <= c <= '9')
  }

  /** The alphabet position of an alphanumeric character (the `position(...)` lookup). */
  function Index(c: char): (i: nat)
    requires IsAlnum(c)
    ensures i < Range && Alphabet()[i] == c
    ensures forall j :: 0 <= j < i ==> Alphabet()[j] != c
  {
    if 'a' <= c <= 'z' then (c as int) - ('a' as int)
    else if 'A' <= c <= 'Z' then 26 + (c as int) - ('A' as int)
    else 52 + (c as int) - ('0' as int)
  }

  /** A character is found in the alphabet exactly when it is alphanumeric. */
  lemma AlphabetIsAlnum(c: char)
    ensures c in Alphabet() <==> IsAlnum(c)
  {
    if c in Alphabet() {
      var i :| 0 <= i < Range && Alphabet()[i] == c;
      assert AlphaAt(i) == c;
    }
    if IsAlnum(c) {
      assert Alphabet()[Index(c)] == c;
    }
  }

  lemma IndexOfAlphabet(i: nat)
    requires i < Range
    ensures IsAlnum(Alphabet()[i]) && Index(Alphabet()[i]) == i
  {
  }

  /**
    `overflowing_sub_chars`: `x - y` on `usize`; when it wraps, the wrapped
    value is folded back into the alphabet's range. The final subtraction
    must not underflow, which holds for alphabet positions.
   */
  function OverflowingSubChars(x: nat, y: nat): (r: int)
    requires x < UsizeModulus && y < UsizeModulus
    requires x < y ==> y - x <= Range
    ensures x >= y ==> r == x - y
    ensures x < y ==> r == Range - (y - x)
  {
    var value := (x - y) % UsizeModulus;
    if x < y then
      var folded := UsizeMax - value;
      Range - 1 - folded
    else value
  }

  /** For alphabet positions the subtraction is `(x - y) mod 62`. */
  lemma OverflowingSubIsModular(x: nat, y: nat)
    requires x < Range && y < Range
    ensures OverflowingSubChars(x, y) == (x - y) % Range
  {
  }

  function Min(a: int, b: int): int { if a < b then a else b }

  /**
    `mask_op` evaluates lazily: `zip` takes the next character of `chars`
    first and stops when either side ends, so positions of `chars` up to
    `|mask|` and of `mask` below `|chars|` are looked up, and each lookup
    panics on a character outside the alphabet.
   */
  predicate MaskOpDefined(mask: seq<char>, chars: seq<char>)
  {
    && (forall i :: 0 <= i < |chars| && i <= |mask| ==> IsAlnum(chars[i]))
    && (forall i :: 0 <= i < |mask| && i < |chars| ==> IsAlnum(mask[i]))
  }

  /** One position of `mask_op`: the character at the sum (or difference) of the two alphabet positions modulo 62. */
  function MaskChar(c: char, m: char, add: bool): (r: char)
    requires IsAlnum(c) && IsAlnum(m)
    ensures IsAlnum(r)
    ensures add ==> Index(r) == (Index(c) + Index(m)) % Range
    ensures !add ==> Index(r) == (Index(c) - Index(m)) % Range
  {
    var x := Index(c);
    var y := Index(m);
    if add then
      IndexOfAlphabet((x + y) % Range);
      Alphabet()[(x + y) % Range]
    else
      OverflowingSubIsModular(x, y);
      IndexOfAlphabet((x - y) % Range);
      Alphabet()[OverflowingSubChars(x, y)]
  }

  /** `mask_op`: position-wise addition (or subtraction) of alphabet positions modulo 62. */
  function MaskOp(mask: seq<char>, chars: seq<char>, add: bool): (r: seq<char>)
    requires MaskOpDefined(mask, chars)
    ensures |r| == Min(|mask|, |chars|)
    ensures forall i :: 0 <= i < |r| ==> IsAlnum(r[i])
    ensures add ==> forall i :: 0 <= i < |r| ==> Index(r[i]) == (Index(chars[i]) + Index(mask[i])) % Range
    ensures !add ==> forall i :: 0 <= i < |r| ==> Index(r[i]) == (Index(chars[i]) - Index(mask[i])) % Range
  {
    var n := Min(|mask|, |chars|);
    seq(n, i requires 0 <= i < n => MaskChar(chars[i], mask[i], add))
  }

  predicate AllAlnum(s: seq<char>)
  {
    forall i :: 0 <= i < |s| ==> IsAlnum(s[i])
  }

  /** Alphanumeric characters are told apart by their alphabet positions. */
  lemma IndexInjective(a: char, b: char)
    requires IsAlnum(a) && IsAlnum(b) && Index(a) == Index(b)
    ensures a == b
  {
  }

  /** At one position, subtracting the mask character undoes adding it. */
  lemma MaskCharRoundTrip(c: char, m: char)
    requires IsAlnum(c) && IsAlnum(m)
    ensures MaskChar(MaskChar(c, m, true), m, false) == c
  {
    var x, y := Index(c), Index(m);
    var masked := MaskChar(c, m, true);
    var back := MaskChar(masked, m, false);
    var sum := (x + y) % Range;
    assert Index(masked) == sum;
    assert Index(back) == (sum - y) % Range;
    assert (sum - y) % Range == x by {
      ModularCancel(x, y);
    }
    IndexInjective(back, c);
  }

  /** Subtracting the mask undoes adding it. */
  lemma {:induction false} MaskOpRoundTrip(mask: seq<char>, s: seq<char>)
    requires |mask| == |s| && AllAlnum(mask) && AllAlnum(s)
    ensures MaskOpDefined(mask, MaskOp(mask, s, true))
    ensures MaskOp(mask, MaskOp(mask, s, true), false) == s
  {
    var masked := MaskOp(mask, s, true);
    var back := MaskOp(mask, masked, false);
    forall i | 0 <= i < |s|
      ensures back[i] == s[i]
    {
      assert masked[i] == MaskChar(s[i], mask[i], true);
      assert back[i] == MaskChar(masked[i], mask[i], false);
      MaskCharRoundTrip(s[i], mask[i]);
    }
  }

  lemma ModularCancel(x: nat, y: nat)
    requires x < Range && y < Range
    ensures ((x + y) % Range - y) % Range == x
  {
    if x + y < Range {
      assert (x + y) % Range == x + y;
    } else {
      assert (x + y) % Range == x + y - Range;
      assert x - Range + Range == x;
    }
  }

  // ------------------------------------------------------------ byte lengths

  function CharUtf8Len(c: char): nat
  {
    if (c as int) < 0x80 then 1 else if (c as int) < 0x800 then 2 else if (c as int) < 0x10000 then 3 else 4
  }

  /** The length of `s` in UTF-8 bytes, which is what `str::len` returns. */
  function Utf8Len(s: seq<char>): nat
  {
    if |s| == 0 then 0 else CharUtf8Len(s[0]) + Utf8Len(s[1..])
  }

  predicate IsAscii(s: seq<char>)
  {
    forall i :: 0 <= i < |s| ==> (s[i] as int) < 0x80
  }

  /** The character index at which the first `n` bytes end, if `n` lies on a character boundary within `s`. */
  function ByteBoundary(s: seq<char>, n: nat): (r: Option<nat>)
    ensures r.Some? ==> r.value <= |s| && Utf8Len(s[..r.value]) == n
  {
    if n == 0 then
      assert s[..0] == [];
      Some(0)
    else if |s| == 0 || CharUtf8Len(s[0]) > n then None
    else
      match ByteBoundary(s[1..], n - CharUtf8Len(s[0]))
      case None => None
      case Some(k) =>
        assert s[..k + 1][1..] == s[1..][..k];
        Some(k + 1)
  }

  lemma {:induction false} AsciiLengths(s: seq<char>, n: nat)
    requires IsAscii(s) && n <= |s|
    ensures Utf8Len(s) == |s|
    ensures ByteBoundary(s, n) == Some(n)
  {
    if |s| > 0 {
      assert IsAscii(s[1..]) by {
        forall i | 0 <= i < |s[1..]| ensures (s[1..][i] as int) < 0x80 { assert s[1..][i] == s[i + 1]; }
      }
      AsciiLengths(s[1..], if n == 0 then 0 else n - 1);
    }
  }

  lemma AlnumIsAscii(s: seq<char>)
    requires AllAlnum(s)
    ensures IsAscii(s)
  {
  }

  // ------------------------------------------------------------ tokens

  /** The fresh mask must be a generated one: 32 alphanumeric characters. */
  predicate IsGenerated(s: seq<char>)
  {
    |s| == SecretLength && AllAlnum(s)
  }

  /** `mask_csrf`: the mask followed by the masked secret. */
  function MaskCsrf(mask: seq<char>, secret: seq<char>): (r: seq<char>)
    requires IsGenerated(mask) && MaskOpDefined(mask, secret)
    ensures |r| == SecretLength + Min(SecretLength, |secret|)
    ensures r[..SecretLength] == mask
    ensures r[SecretLength..] == MaskOp(mask, secret, true)
  {
    mask + MaskOp(mask, secret, true)
  }

  /** `unmask_csrf` can run: byte 32 is a character boundary and `mask_op` finds every character it looks up. */
  predicate UnmaskDefined(token: seq<char>)
  {
    var k := ByteBoundary(token, SecretLength);
    k.Some? && MaskOpDefined(token[..k.value], token[k.value..])
  }

  /** `unmask_csrf`: the secret recovered by subtracting the leading 32 bytes from the rest. */
  function UnmaskCsrf(token: seq<char>): (r: seq<char>)
    requires UnmaskDefined(token)
  {
    var k := ByteBoundary(token, SecretLength).value;
    MaskOp(token[..k], token[k..], false)
  }

  /** A masked token is alphanumeric throughout. */
  lemma MaskedIsAlnum(mask: seq<char>, secret: seq<char>)
    requires IsGenerated(mask) && MaskOpDefined(mask, secret)
    ensures AllAlnum(MaskCsrf(mask, secret))
  {
    var token := MaskCsrf(mask, secret);
    forall i | 0 <= i < |token| ensures IsAlnum(token[i]) {
      if i >= SecretLength { assert token[i] == token[SecretLength..][i - SecretLength]; }
    }
  }

  /** Masking then unmasking gives back a generated secret. */
  lemma MaskUnmaskRoundTrip(mask: seq<char>, secret: seq<char>)
    requires IsGenerated(mask) && IsGenerated(secret)
    ensures UnmaskDefined(MaskCsrf(mask, secret)) && UnmaskCsrf(MaskCsrf(mask, secret)) == secret
  {
    var token := MaskCsrf(mask, secret);
    MaskOpRoundTrip(mask, secret);
    MaskedIsAlnum(mask, secret);
    AlnumIsAscii(token);
    AsciiLengths(token, SecretLength);
  }

  /** `validate_token` as written: a 64-byte token is unmasked (panicking if it cannot be), any other is compared directly. */
  function ValidateTokenAsWritten(token: seq<char>, secret: seq<char>): (r: bool)
    requires Utf8Len(token) == TokenLength ==> UnmaskDefined(token)
  {
    if Utf8Len(token) == TokenLength then UnmaskCsrf(token) == secret else token == secret
  }

  /** `validate_token` with a 64-byte token that cannot be unmasked failing validation instead of panicking. */
  function ValidateToken(token: seq<char>, secret: seq<char>): (r: bool)
    ensures Utf8Len(token) != TokenLength ==> (r <==> token == secret)
    ensures Utf8Len(token) == TokenLength ==> (r <==> UnmaskDefined(token) && UnmaskCsrf(token) == secret)
    ensures Utf8Len(token) == TokenLength ==> UnmaskDefined(token) ==> r == ValidateTokenAsWritten(token, secret)
  {
    if Utf8Len(token) == TokenLength then UnmaskDefined(token) && UnmaskCsrf(token) == secret
    else token == secret
  }

  /** A generated secret validates both plainly and masked. */
  lemma SecretAndMaskedValidate(mask: seq<char>, secret: seq<char>)
    requires IsGenerated(mask) && IsGenerated(secret)
    ensures ValidateToken(secret, secret)
    ensures ValidateToken(MaskCsrf(mask, secret), secret)
  {
    AsciiLengths(secret, 0);
    MaskUnmaskRoundTrip(mask, secret);
    var token := MaskCsrf(mask, secret);
    MaskedIsAlnum(mask, secret);
    AlnumIsAscii(token);
    AsciiLengths(token, 0);
  }

  /** A 64-byte header of visible ASCII, such as 64 dashes, makes the written `validate_token` panic. */
  lemma DashTokenPanicsAsWritten()
    ensures var token := seq(TokenLength, i => '-');
      && VisibleAscii(token)
      && Utf8Len(token) == TokenLength
      && !UnmaskDefined(token)
      && !ValidateToken(token, "")
  {
    var token := seq(TokenLength, i => '-');
    AsciiLengths(token, SecretLength);
    assert token[..SecretLength][0] == '-';
    assert token[SecretLength..][0] == '-';
  }

  // ------------------------------------------------------------ the layer

  /** What `HeaderValue::to_str` accepts: visible ASCII and tabs. */
  predicate VisibleAscii(s: seq<char>)
  {
    forall i :: 0 <= i < |s| ==> s[i] == '\t' || (32 <= (s[i] as int) < 127)
  }

  datatype CookieError = MissingCookie | InvalidHeader | ValidationError

  /** The result of `check_cookie` and whether it asked for a fresh cookie to be set. */
  datatype CookieCheck = CookieCheck(result: Result<(), CookieError>, addCookie: bool)

  /**
    `check_cookie`: no cookie means `MissingCookie` (and a new cookie when
    `add`); a missing or non-text header is `InvalidHeader`; otherwise the
    header token is validated against the cookie's secret.
   */
  function CheckCookie(cookie: Option<seq<char>>, header: Option<seq<char>>, add: bool): (r: CookieCheck)
    ensures r.addCookie <==> cookie.None? && add
    ensures cookie.None? ==> r.result == Err(MissingCookie)
    ensures cookie.Some? && (header.None? || !VisibleAscii(header.value)) ==> r.result == Err(InvalidHeader)
    ensures cookie.Some? && header.Some? && VisibleAscii(header.value) ==>
      (r.result.Ok? <==> ValidateToken(header.value, cookie.value)) &&
      (r.result.Err? ==> r.result.error == ValidationError)
  {
    match cookie
    case None => CookieCheck(Err(MissingCookie), add)
    case Some(secret) =>
      if header.None? || !VisibleAscii(header.value) then CookieCheck(Err(InvalidHeader), false)
      else if ValidateToken(header.value, secret) then CookieCheck(Ok(()), false)
      else CookieCheck(Err(ValidationError), false)
  }

  datatype Method = Get | Head | Options | Trace | Post | Put | Patch | Delete | Connect | Other(name: string)

  predicate IsSafe(m: Method)
  {
    m.Get? || m.Head? || m.Options? || m.Trace?
  }

  datatype Request = Request(
    verb: Method,
    secure: bool,
    host: Option<seq<char>>,
    origin: Option<seq<char>>,
    cookie: Option<seq<char>>,
    csrfHeader: Option<seq<char>>)

  datatype Layer = Layer(allowedHosts: seq<string>)
  {
    /** `allowed_hosts_wildcard`: the allowed list contains `*`. */
    predicate Wildcard()
    {
      "*" in allowedHosts
    }
  }

  const BadRequest: int := 400
  const Forbidden: int := 403

  datatype Verdict = Verdict(result: Result<(), int>, addCookie: bool)

  function SchemeHost(secure: bool, host: string): string
  {
    (if secure then "https" else "http") + "://" + host
  }

  /**
    `check_csrf`. Safe methods only fail on a token that does not validate.
    Other methods need a textual Host; an Origin must be textual and is
    accepted when it equals scheme://Host, when any host is allowed, or when
    scheme://Host itself is on the allowed list. Then the token is checked
    as for safe methods.
   */
  function CheckCsrf(layer: Layer, req: Request): (r: Verdict)
    ensures r.result.Err? ==> r.result.error == BadRequest || r.result.error == Forbidden
    ensures IsSafe(req.verb) ==>
      var c := CheckCookie(req.cookie, req.csrfHeader, true);
      && (r.result.Ok? <==> c.result != Err(ValidationError))
      && r.addCookie == c.addCookie
    ensures !IsSafe(req.verb) && (req.host.None? || !VisibleAscii(req.host.value)) ==> r == Verdict(Err(BadRequest), false)
    ensures !IsSafe(req.verb) && req.host.Some? && VisibleAscii(req.host.value) && req.origin.Some? && !VisibleAscii(req.origin.value) ==>
      r == Verdict(Err(BadRequest), false)
    // an unsafe request whose Origin, if any, is acceptable is judged by its token alone
    ensures !IsSafe(req.verb) && req.host.Some? && VisibleAscii(req.host.value) ==>
      var h := SchemeHost(req.secure, req.host.value);
      var c := CheckCookie(req.cookie, req.csrfHeader, true);
      (req.origin.None? || (VisibleAscii(req.origin.value) && (h == req.origin.value || layer.Wildcard() || h in layer.allowedHosts))) ==>
        r == Verdict(if c.result == Err(ValidationError) then Err(Forbidden) else Ok(()), c.addCookie)
    ensures !IsSafe(req.verb) && req.host.Some? && VisibleAscii(req.host.value) && req.origin.Some? && VisibleAscii(req.origin.value) ==>
      var h := SchemeHost(req.secure, req.host.value);
      (h != req.origin.value && !layer.Wildcard() && h !in layer.allowedHosts ==> r == Verdict(Err(Forbidden), false))
    ensures r.result.Ok? && !IsSafe(req.verb) && req.origin.Some? ==>
      var h := SchemeHost(req.secure, req.host.value);
      h == req.origin.value || layer.Wildcard() || h in layer.allowedHosts
    ensures r.result.Ok? ==> CheckCookie(req.cookie, req.csrfHeader, true).result != Err(ValidationError)
  {
    if IsSafe(req.verb) then
      var c := CheckCookie(req.cookie, req.csrfHeader, true);
      Verdict(if c.result == Err(ValidationError) then Err(Forbidden) else Ok(()), c.addCookie)
    else if req.host.None? || !VisibleAscii(req.host.value) then Verdict(Err(BadRequest), false)
    else if req.origin.Some? && !VisibleAscii(req.origin.value) then Verdict(Err(BadRequest), false)
    else if req.origin.Some? && !(SchemeHost(req.secure, req.host.value) == req.origin.value || layer.Wildcard() || SchemeHost(req.secure, req.host.value) in layer.allowedHosts) then
      Verdict(Err(Forbidden), false)
    else
      var c := CheckCookie(req.cookie, req.csrfHeader, true);
      Verdict(if c.result == Err(ValidationError) then Err(Forbidden) else Ok(()), c.addCookie)
  }

  /** A request carrying the generated secret in its cookie and the masked secret in the header always passes the token check. */
  lemma MaskedHeaderPasses(mask: seq<char>, secret: seq<char>)
    requires IsGenerated(mask) && IsGenerated(secret)
    ensures CheckCookie(Some(secret), Some(MaskCsrf(mask, secret)), true).result.Ok?
  {
    SecretAndMaskedValidate(mask, secret);
    var token := MaskCsrf(mask, secret);
    MaskedIsAlnum(mask, secret);
    assert VisibleAscii(token);
  }

  /** The scheme and Host a browser sends as Origin are visible text whenever the Host is. */
  lemma SchemeHostVisible(secure: bool, host: string)
    requires VisibleAscii(host)
    ensures VisibleAscii(SchemeHost(secure, host))
  {
    var h := SchemeHost(secure, host);
    var prefix := (if secure then "https" else "http") + "://";
    assert h == prefix + host;
    forall i | 0 <= i < |h| ensures h[i] == '\t' || (32 <= (h[i] as int) < 127) {
      if i >= |prefix| {
        assert h[i] == host[i - |prefix|];
      }
    }
  }

  /**
    A same-origin POST that carries the generated secret in its cookie and
    the masked secret in its header is let through, whatever hosts the
    layer allows.
   */
  lemma SameOriginPostPasses(layer: Layer, secure: bool, host: string, mask: seq<char>, secret: seq<char>)
    requires VisibleAscii(host) && IsGenerated(mask) && IsGenerated(secret)
    ensures CheckCsrf(layer, Request(Post, secure, Some(host), Some(SchemeHost(secure, host)), Some(secret), Some(MaskCsrf(mask, secret))))
      == Verdict(Ok(()), false)
  {
    SchemeHostVisible(secure, host);
    MaskedHeaderPasses(mask, secret);
  }
}

=== FILE: error.dfy ===
/**
  The application error of server/src/error.rs: every error kind maps to a
  response (status and optional message); a span trace is captured exactly
  when that status is a server error; the response body is a JSON object
  `{success: false, message}`.

  The trace is represented by whether one was captured. The framework's
  JSON and query rejections carry their own status and body text, which
  are inputs here.
 */
module ServerError {
  import opened Wrappers
  import opened Password

  const BadRequest: nat := 400
  const Unauthorized: nat := 401
  const ForbiddenStatus: nat := 403
  const NotFound: nat := 404
  const InternalServerError: nat := 500

  /** `StatusCode::is_server_error`. */
  predicate IsServerError(status: nat) {
    500 <= status < 600
  }

  /** `ApiError`: a status with its message. */
  datatype ApiErrorData = ApiErrorData(status: nat, message: string)

  /** `AuthError` (declared with the authentication helpers). */
  datatype AuthError = MissingCookie | InvalidSession | MissingHeader | InvalidHeader | InvalidCredentials | ClaimsMissingInInfo

  /** `OAuthError` (declared in server/src/routes/oauth.rs). */
  datatype OAuthError = UnknownApplication | InvalidClientSecret

  /**
    The JWT library's error kinds that the mapping names; `Unlisted` stands
    for every kind that falls through to the catch-all arm.
   */
  datatype JwtErrorKind =
    | InvalidToken
    | InvalidSignature
    | InvalidEcdsaKey
    | InvalidRsaKey(reason: string)
    | RsaFailedSigning
    | InvalidAlgorithmName
    | MissingAlgorithm
    | InvalidKeyFormat
    | MissingRequiredClaim(claim: string)
    | ExpiredSignature
    | InvalidIssuer
    | InvalidAudience
    | InvalidSubject
    | ImmatureSignature
    | InvalidAlgorithm
    | Base64
    | Json
    | Utf8
    | Crypto
    | Unlisted(name: string)

  /** An extractor rejection: the status and body text the framework chose. */
  datatype Rejection = Rejection(status: nat, bodyText: string)

  /** `ErrorKind`; the pool, Postgres and join errors carry nothing the mapping looks at. */
  datatype ErrorKind =
    | Status(code: nat)
    | Api(api: ApiErrorData)
    | PoolError
    | PostgresError
    | Auth(auth: AuthError)
    | Jwt(jwt: JwtErrorKind)
    | Argon(argon: ArgonError)
    | HeaderNotAscii(headerName: string)
    | TokioJoin
    | Oauth(oauth: OAuthError)
    | JsonRejected(json: Rejection)
    | QueryRejected(query: Rejection)

  /** `ResponseError`. */
  datatype ResponseError = ResponseError(status: nat, message: Option<string>)

  /** `ErrorKind::not_found`, `forbidden` and `internal`. */
  function NotFoundKind(): (r: ErrorKind)
    ensures r == Status(NotFound)
  {
    Status(NotFound)
  }

  function ForbiddenKind(): (r: ErrorKind)
    ensures r == Status(ForbiddenStatus)
  {
    Status(ForbiddenStatus)
  }

  function InternalKind(): (r: ErrorKind)
    ensures r == Status(InternalServerError)
  {
    Status(InternalServerError)
  }

  /** `argon_error`: a wrong password is 401 with a message; every other argon failure is a bare 500. */
  function ArgonResponse(err: ArgonError): (r: ResponseError)
    ensures err == ArgonError.Password <==> r.status == Unauthorized
    ensures err == ArgonError.Password ==> r.message == Some("Invalid password")
    ensures err != ArgonError.Password ==> r == ResponseError(InternalServerError, None)
  {
    match err
    case Password => ResponseError(Unauthorized, Some("Invalid password"))
    case Other(_) => ResponseError(InternalServerError, None)
  }

  /** The token was rejected as presented: malformed, forged, expired or for someone else. */
  predicate JwtIsUnauthorized(k: JwtErrorKind) {
    k.InvalidToken? || k.InvalidSignature? || k.ExpiredSignature? || k.InvalidIssuer? || k.InvalidAudience? || k.InvalidSubject?
  }

  /** The token is unusable as sent: not yet valid, signed with another algorithm, or not base64. */
  predicate JwtIsBadRequest(k: JwtErrorKind) {
    k.ImmatureSignature? || k.InvalidAlgorithm? || k.Base64?
  }

  /** `jwt_response`. */
  function JwtResponse(k: JwtErrorKind): (r: ResponseError)
    ensures r.status == Unauthorized <==> JwtIsUnauthorized(k)
    ensures r.status == BadRequest <==> JwtIsBadRequest(k)
    ensures r.status == InternalServerError <==> !JwtIsUnauthorized(k) && !JwtIsBadRequest(k)
    ensures r.status == InternalServerError ==> r.message.None?
    ensures r.status != InternalServerError ==> r.message.Some?
  {
    match k
    case InvalidToken => ResponseError(Unauthorized, Some("JWT: Malformed"))
    case InvalidSignature => ResponseError(Unauthorized, Some("JWT: Invalid signature"))
    case InvalidEcdsaKey | InvalidRsaKey(_) | RsaFailedSigning | InvalidAlgorithmName | MissingAlgorithm | InvalidKeyFormat =>
      ResponseError(InternalServerError, None)
    case MissingRequiredClaim(_) => ResponseError(InternalServerError, None)
    case ExpiredSignature => ResponseError(Unauthorized, Some("JWT: Expired"))
    case InvalidIssuer => ResponseError(Unauthorized, Some("JWT: Invalid issuer"))
    case InvalidAudience => ResponseError(Unauthorized, Some("JWT: Invalid audience"))
    case InvalidSubject => ResponseError(Unauthorized, Some("JWT: Invalid subject"))
    case ImmatureSignature => ResponseError(BadRequest, Some("JWT: Immature signature"))
    case InvalidAlgorithm => ResponseError(BadRequest, Some("JWT: Invalid algorithm"))
    case Base64 => ResponseError(BadRequest, Some("JWT: Invalid"))
    case Json | Utf8 | Crypto => ResponseError(InternalServerError, None)
    case Unlisted(_) => ResponseError(InternalServerError, None)
  }

  /** The fixed message of each authentication error answered with 401. */
  function AuthMessage(a: AuthError): (r: string)
    requires a != ClaimsMissingInInfo
  {
    match a
    case MissingCookie => "Authentication cookie missing"
    case InvalidSession => "Invalid session"
    case MissingHeader => "Authorization header missing"
    case InvalidHeader => "Authorization header is invalid"
    case InvalidCredentials => "Invalid credentials"
  }

  /** `ErrorKind::response`; the OAuth arm is unfinished and panics. */
  function Response(k: ErrorKind): (r: ResponseError)
    requires !k.Oauth?
    ensures k.PoolError? || k.PostgresError? || k.TokioJoin? ==> r == ResponseError(InternalServerError, None)
    ensures k.Status? ==> r == ResponseError(k.code, None)
    ensures k.Api? ==> r == ResponseError(k.api.status, Some(k.api.message))
    ensures k.Argon? ==> r == ArgonResponse(k.argon)
    ensures k.Jwt? ==> r == JwtResponse(k.jwt)
    ensures k.HeaderNotAscii? ==>
      && r.status == BadRequest
      && r.message == Some("Header '" + k.headerName + "' contains non-ascii chars")
    ensures k.Auth? ==>
      && (k.auth == ClaimsMissingInInfo ==> r == ResponseError(InternalServerError, None))
      && (k.auth != ClaimsMissingInInfo ==> r == ResponseError(Unauthorized, Some(AuthMessage(k.auth))))
    ensures k.JsonRejected? ==> r == ResponseError(k.json.status, Some(k.json.bodyText))
    ensures k.QueryRejected? ==> r == ResponseError(k.query.status, Some(k.query.bodyText))
  {
    match k
    case PoolError | PostgresError | TokioJoin => ResponseError(InternalServerError, None)
    case Status(s) => ResponseError(s, None)
    case Jwt(e) => JwtResponse(e)
    case Argon(e) => ArgonResponse(e)
    case HeaderNotAscii(name) => ResponseError(BadRequest, Some("Header '" + name + "' contains non-ascii chars"))
    case Auth(a) =>
      if a == ClaimsMissingInInfo then ResponseError(InternalServerError, None)
      else ResponseError(Unauthorized, Some(AuthMessage(a)))
    case Api(e) => ResponseError(e.status, Some(e.message))
    case JsonRejected(rej) => ResponseError(rej.status, Some(rej.bodyText))
    case QueryRejected(rej) => ResponseError(rej.status, Some(rej.bodyText))
  }

  /** `Error`: the kind, its response, and whether a trace was captured. */
  datatype Error = Error(kind: ErrorKind, responseError: ResponseError, traced: bool)

  /** `From<T> for Error`. */
  function FromKind(k: ErrorKind): (r: Error)
    requires !k.Oauth?
    ensures r.kind == k && r.responseError == Response(k)
    ensures r.traced <==> IsServerError(r.responseError.status)
  {
    var resp := Response(k);
    Error(k, resp, IsServerError(resp.status))
  }

  /** The response sent to the client. */
  datatype HttpResponse = HttpResponse(status: nat, success: bool, message: string)

  /** `IntoResponse for Error`: the stored response, with an empty message when there is none. */
  function IntoResponse(e: Error): (r: HttpResponse)
    ensures r.status == e.responseError.status
    ensures !r.success
    ensures r.message == e.responseError.message.UnwrapOr("")
  {
    HttpResponse(e.responseError.status, false, e.responseError.message.UnwrapOr(""))
  }

  /**
    The status table: infrastructure failures and broken hashes are 500 and
    traced; credentials problems are 401 and not traced; the two fixed
    shortcuts give the statuses their names say.
   */
  lemma StatusTable(k: ErrorKind)
    requires !k.Oauth?
    ensures k.PoolError? || k.PostgresError? || k.TokioJoin? ==> IntoResponse(FromKind(k)).status == InternalServerError && FromKind(k).traced
    ensures k.Argon? ==> (FromKind(k).traced <==> k.argon != ArgonError.Password)
    ensures k.Auth? ==> (FromKind(k).traced <==> k.auth == ClaimsMissingInInfo)
    ensures k.Jwt? ==> (FromKind(k).traced <==> !JwtIsUnauthorized(k.jwt) && !JwtIsBadRequest(k.jwt))
    ensures k == NotFoundKind() ==> IntoResponse(FromKind(k)) == HttpResponse(NotFound, false, "") && !FromKind(k).traced
    ensures k == ForbiddenKind() ==> IntoResponse(FromKind(k)) == HttpResponse(ForbiddenStatus, false, "") && !FromKind(k).traced
    ensures k == InternalKind() ==> IntoResponse(FromKind(k)) == HttpResponse(InternalServerError, false, "") && FromKind(k).traced
  {
  }
}

=== FILE: executor.dfy ===
/**
  The flow executor (server/src/executor.rs): a cache of running executions
  keyed by session and flow, started on demand from stored flows, and the
  evaluation of the crate's policy kinds against an execution context.
  Idle and lifetime expiry of cache entries is not modelled.
 */
module Executor {
  import opened Wrappers
  import ModelFlow
  import ModelPolicy
  import ExecutorContext
  import ExecutorFlow

  /** The key of an execution: the session id and the flow id, and nothing else. */
  datatype FlowKey = FlowKey(session: string, flow: int)

  datatype FlowExecutor = FlowExecutor(executions: map<FlowKey, ExecutorFlow.FlowExecution>)

  /** A failure of the flow storage. */
  datatype StorageError = StorageError

  /** A reading of the flow storage: the flow with a given id, if it exists. */
  type FlowSource = int -> Result<Option<ModelFlow.Flow>, StorageError>

  /** The executor after a call, and what the call returned. */
  datatype Lookup = Lookup(executor: FlowExecutor, result: Result<Option<ExecutorFlow.FlowExecution>, StorageError>)

  /** `get_key` / `FlowKey::new`. */
  function GetKey(sessionId: string, flow: int): (k: FlowKey)
    ensures k.session == sessionId && k.flow == flow
  {
    FlowKey(sessionId, flow)
  }

  /** Two keys are the same execution exactly when session and flow agree. */
  lemma FlowKeyIdentity(s: string, f: int, s': string, f': int)
    ensures GetKey(s, f) == GetKey(s', f') <==> s == s' && f == f'
  {
  }

  /** `invalidate_flow`: removes exactly that key. */
  function InvalidateFlow(x: FlowExecutor, key: FlowKey): (r: FlowExecutor)
    ensures key !in r.executions
    ensures forall k :: k != key ==> (k in r.executions <==> k in x.executions)
    ensures forall k :: k != key && k in x.executions ==> r.executions[k] == x.executions[k]
  {
    FlowExecutor(x.executions - {key})
  }

  /** A new execution of `flow` for the session of `key`, at the first entry and not completed. */
  function NewExecution(key: FlowKey, flow: ModelFlow.Flow, now: int): ExecutorFlow.FlowExecution
  {
    ExecutorFlow.FlowExecution(flow, ExecutorContext.NewContext(key.session, now), 0, false)
  }

  /** `start`: load the flow and cache a fresh execution of it; an unknown flow caches nothing. */
  function Start(x: FlowExecutor, key: FlowKey, flows: FlowSource, now: int): (r: Lookup)
    ensures flows(key.flow).Err? ==> r.result.Err? && r.executor == x
    ensures flows(key.flow) == Ok(None) ==> r == Lookup(x, Ok(None))
    ensures flows(key.flow).Ok? && flows(key.flow).value.Some? ==>
      && r.result.Ok? && r.result.value.Some?
      && var e := r.result.value.value;
      && e.flow == flows(key.flow).value.value
      && e.cursor == 0 && !e.completed
      && e.context.sessionId == key.session && e.context.startTime == now
      && e.context.pending.None? && e.context.error.None?
      && r.executor.executions == x.executions[key := e]
  {
    match flows(key.flow)
    case Err(err) => Lookup(x, Err(err))
    case Ok(None) => Lookup(x, Ok(None))
    case Ok(Some(flow)) =>
      var e := NewExecution(key, flow, now);
      Lookup(FlowExecutor(x.executions[key := e]), Ok(Some(e)))
  }

  /**
    `get_execution`: a cached execution is returned whatever `start` says;
    otherwise one is started only when `start` is set.
   */
  function GetExecution(x: FlowExecutor, key: FlowKey, start: bool, flows: FlowSource, now: int): (r: Lookup)
    ensures key in x.executions ==> r == Lookup(x, Ok(Some(x.executions[key])))
    ensures key !in x.executions && !start ==> r == Lookup(x, Ok(None))
    ensures key !in x.executions && start ==> r == Start(x, key, flows, now)
  {
    if key in x.executions then Lookup(x, Ok(Some(x.executions[key])))
    else if start then Start(x, key, flows, now)
    else Lookup(x, Ok(None))
  }

  /** After a successful start, the same key finds the started execution without starting again. */
  lemma StartThenGet(x: FlowExecutor, key: FlowKey, flows: FlowSource, flows': FlowSource, now: int, now': int, start: bool)
    requires Start(x, key, flows, now).result.Ok? && Start(x, key, flows, now).result.value.Some?
    ensures var r := Start(x, key, flows, now);
      GetExecution(r.executor, key, start, flows', now') == Lookup(r.executor, r.result)
  {
  }

  /**
    `Validate for PolicyKind` (the crate's policy kinds): password expiry
    compares the age of the user's password with `max_age` seconds; the other
    kinds are `todo!()`.
   */
  function Validate(k: ModelPolicy.PolicyKind, ctx: ExecutorContext.ExecutionContext): (r: ModelPolicy.PolicyResult)
    requires k.PasswordExpiry?
    ensures r.NotApplicable? <==> ctx.user.None?
    ensures r.Value? ==> (r.b <==> ctx.startTime - ctx.user.value.passwordChangeDate > k.maxAge * ExecutorContext.NanosPerSecond)
  {
    match ctx.user
    case None => ModelPolicy.NotApplicable
    case Some(user) => ModelPolicy.FromBool(ctx.startTime - user.passwordChangeDate > k.maxAge * ExecutorContext.NanosPerSecond)
  }

  /** Expiry is strict: a password exactly `max_age` seconds old has not expired. */
  lemma ValidateStrictBoundary(ctx: ExecutorContext.ExecutionContext, m: int)
    requires ctx.user.Some?
    requires ctx.startTime - ctx.user.value.passwordChangeDate == m * ExecutorContext.NanosPerSecond
    ensures Validate(ModelPolicy.PasswordExpiry(m), ctx) == ModelPolicy.Value(false)
  {
  }
}

=== FILE: executor_context.dfy ===
/**
  The per-execution context of the flow executor (server/src/executor/context.rs):
  who is being authenticated, when the execution started, and a field storage
  of type-erased values keyed by name.

  Instants are integers counting nanoseconds, the resolution of the `time`
  crate's durations. The stage storage the context owns is not part of this
  record; stage lookups are passed to the executor separately.
 */
module ExecutorContext {
  import opened Wrappers
  import opened UuidType
  import ModelReference
  import ModelData

  const NanosPerSecond: int := 1_000_000_000

  /** Rust `TypeId`s, as far as the field storage needs them. */
  datatype TypeId =
    | TypeOf(name: string)
    /** The type id of `Box<dyn Any + Send + Sync>` itself. */
    | BoxedAny

  /** A boxed value: the type it was inserted with and an opaque handle for its contents. */
  datatype AnyValue = AnyValue(typeId: TypeId, handle: int)

  datatype FieldStorage = FieldStorage(fields: map<string, AnyValue>)

  datatype FieldStorageError = WrongType

  /** `FieldKey<T>`: a name together with the type `T` it is read and written at. */
  datatype FieldKey = FieldKey(name: string, valueType: TypeId)

  datatype PolicyUser = PolicyUser(uid: Uuid, name: string, passwordChangeDate: int)

  datatype ExecutionError = ExecutionError(stage: Option<ModelReference.ReferenceId>, message: string)

  datatype ExecutionContext = ExecutionContext(
    sessionId: string,
    startTime: int,
    fields: FieldStorage,
    pending: Option<ModelData.PendingUser>,
    user: Option<PolicyUser>,
    error: Option<ExecutionError>)

  /** `ExecutionContext::new`, with the clock reading `now` passed in. */
  function NewContext(sessionId: string, now: int): (c: ExecutionContext)
    ensures c.sessionId == sessionId && c.startTime == now
    ensures c.fields.fields == map[]
    ensures c.pending.None? && c.user.None? && c.error.None?
  {
    ExecutionContext(sessionId, now, FieldStorage(map[]), None, None, None)
  }

  /** The downcast in `get_dynamic` succeeds; it panics otherwise. */
  predicate DowncastSucceeds(s: FieldStorage, name: string, t: TypeId)
  {
    name in s.fields && t == BoxedAny ==> s.fields[name].typeId == BoxedAny
  }

  /**
    `get_dynamic`, as written: the type id compared with `T`'s is the one of
    the `Box` holding the value, not of the value inside it. Only a read at
    type `Box<dyn Any + Send + Sync>` passes the comparison, and its downcast
    then needs a boxed box inside.
   */
  function GetDynamic(s: FieldStorage, name: string, t: TypeId): (r: Result<Option<int>, FieldStorageError>)
    requires DowncastSucceeds(s, name, t)
    ensures r == Ok(None) <==> name !in s.fields
    ensures r.Err? <==> name in s.fields && t != BoxedAny
    ensures r.Ok? && r.value.Some? ==> name in s.fields && r.value.value == s.fields[name].handle
  {
    if name in s.fields then
      if BoxedAny != t then Err(WrongType) else Ok(Some(s.fields[name].handle))
    else Ok(None)
  }

  /** `get_dynamic` as evidently intended: the stored value's own type id is compared. */
  function GetDynamicIntended(s: FieldStorage, name: string, t: TypeId): (r: Result<Option<int>, FieldStorageError>)
    ensures r == Ok(None) <==> name !in s.fields
    ensures r.Err? <==> name in s.fields && s.fields[name].typeId != t
    ensures r.Ok? && r.value.Some? ==> name in s.fields && r.value.value == s.fields[name].handle
  {
    if name in s.fields then
      if s.fields[name].typeId != t then Err(WrongType) else Ok(Some(s.fields[name].handle))
    else Ok(None)
  }

  /** `insert_dynamic`: stores the value under `name`, replacing what was there, whatever its type. */
  function InsertDynamic(s: FieldStorage, name: string, t: TypeId, handle: int): (r: FieldStorage)
    ensures name in r.fields && r.fields[name] == AnyValue(t, handle)
    ensures forall n :: n != name ==> (n in r.fields <==> n in s.fields)
    ensures forall n :: n != name && n in s.fields ==> r.fields[n] == s.fields[n]
  {
    FieldStorage(s.fields[name := AnyValue(t, handle)])
  }

  /** `get_typed`: a read at the key's name and type. */
  function GetTyped(s: FieldStorage, key: FieldKey): (r: Result<Option<int>, FieldStorageError>)
    requires DowncastSucceeds(s, key.name, key.valueType)
    ensures r == GetDynamic(s, key.name, key.valueType)
  {
    GetDynamic(s, key.name, key.valueType)
  }

  /** `insert_typed`: a write at the key's name and type. */
  function InsertTyped(s: FieldStorage, key: FieldKey, handle: int): (r: FieldStorage)
    ensures r == InsertDynamic(s, key.name, key.valueType, handle)
  {
    InsertDynamic(s, key.name, key.valueType, handle)
  }

  /**
    As written, a value inserted at any ordinary type `T` cannot be read back
    at `T`: the read reports `WrongType`.
   */
  lemma InsertThenGetAsWritten(s: FieldStorage, key: FieldKey, handle: int)
    requires key.valueType != BoxedAny
    ensures GetTyped(InsertTyped(s, key, handle), key) == Err(WrongType)
  {
  }

  /** With the intended comparison, a typed insert is read back at its type, and only there. */
  lemma InsertThenGetIntended(s: FieldStorage, key: FieldKey, other: TypeId, handle: int)
    ensures GetDynamicIntended(InsertTyped(s, key, handle), key.name, key.valueType) == Ok(Some(handle))
    ensures other != key.valueType ==>
      GetDynamicIntended(InsertTyped(s, key, handle), key.name, other) == Err(WrongType)
  {
  }

  /** Inserting under one name is invisible to reads of every other name. */
  lemma InsertLeavesOtherNames(s: FieldStorage, name: string, other: string, t: TypeId, u: TypeId, handle: int)
    requires other != name
    ensures GetDynamicIntended(InsertDynamic(s, name, t, handle), other, u) == GetDynamicIntended(s, other, u)
  {
  }
}

=== FILE: executor_data.dfy ===
/**
  Rendering a stage as the component the client shows (server/src/executor/data.rs).
  Prompt, login, logout, write and consent stages have no rendering yet
  (`todo!()`), so they are excluded by the precondition.
 */
module ExecutorData {
  import opened Wrappers
  import ModelReference
  import ModelStage
  import ModelData

  /** The stages an execution can resolve, by reference. A missing stage makes the lookup panic. */
  type StageTable = map<ModelReference.ReferenceId, ModelStage.Stage>

  /** The stage kinds that have a rendering. */
  predicate Renderable(k: ModelStage.StageKind)
  {
    k.Deny? || k.Identification? || k.Password?
  }

  /** `AsComponent for Stage`. An identification stage looks its password stage up first, which panics if it is missing. */
  function AsComponent(stage: ModelStage.Stage, stages: StageTable): (r: Option<ModelData.FlowComponent>)
    requires Renderable(stage.kind)
    requires stage.kind.Identification? && stage.kind.password.Some? ==> stage.kind.password.value in stages
    ensures r.Some?
    ensures stage.kind.Deny? ==> r.value == ModelData.AccessDenied("Access denied")
    ensures stage.kind.Identification? ==>
      && r.value.Identification?
      && r.value.userFields == stage.kind.userFields
      && r.value.sources == ModelData.Sources([], false)
      && (r.value.password.Some? <==> stage.kind.password.Some?)
      && (r.value.password.Some? ==> r.value.password.value.recoveryUrl == "")
    ensures stage.kind.Password? ==> r.value == ModelData.Password(ModelData.PasswordComponentData(""))
  {
    match stage.kind
    case Deny => Some(ModelData.AccessDenied("Access denied"))
    case Identification(password, userFields) =>
      Some(ModelData.Identification(
        userFields,
        ModelData.Sources([], false),
        if password.Some? then Some(ModelData.PasswordComponentData("")) else None))
    case Password(_) => Some(ModelData.Password(ModelData.PasswordComponentData("")))
  }
}

=== FILE: executor_flow.dfy ===
/**
  A running flow execution (server/src/executor/flow.rs): a cursor into the
  flow's entries, a `completed` flag, and the execution context. Each
  operation is a pure transition from one execution state to the next.
 */
module ExecutorFlow {
  import opened Wrappers
  import ModelFlow
  import ModelStage
  import ModelData
  import ModelError
  import ExecutorContext
  import ExecutorData

  datatype FlowExecution = FlowExecution(
    flow: ModelFlow.Flow,
    context: ExecutorContext.ExecutionContext,
    cursor: nat,
    completed: bool)

  const InternalComponentError: string := "Internal error while constructing component"

  /** The cursor points at an entry; an execution of a flow without entries sits at 0. */
  predicate ValidCursor(e: FlowExecution)
  {
    e.cursor < |e.flow.entries| || (|e.flow.entries| == 0 && e.cursor == 0)
  }

  /** `get_entry`: the entry at the cursor; it panics when the cursor is out of bounds. */
  function GetEntry(e: FlowExecution): (r: ModelFlow.FlowEntry)
    requires e.cursor < |e.flow.entries|
    ensures r in e.flow.entries && r == e.flow.entries[e.cursor]
  {
    e.flow.entries[e.cursor]
  }

  /** `lookup_stage`: it panics when the stage is not in storage. */
  function LookupStage(stages: ExecutorData.StageTable, entry: ModelFlow.FlowEntry): (s: ModelStage.Stage)
    requires entry.stage in stages
    ensures s == stages[entry.stage]
  {
    stages[entry.stage]
  }

  /** `complete_current`: step to the next entry, or mark the execution completed at the last one. */
  function CompleteCurrent(e: FlowExecution): (r: FlowExecution)
    ensures r.flow == e.flow && r.context == e.context
    ensures e.cursor + 1 < |e.flow.entries| ==> r.cursor == e.cursor + 1 && r.completed == e.completed
    ensures e.cursor + 1 >= |e.flow.entries| ==> r.cursor == e.cursor && r.completed
  {
    var next := e.cursor + 1;
    if next < |e.flow.entries| then e.(cursor := next) else e.(completed := true)
  }

  /** The cursor stays in bounds and never moves back, and `completed` never returns to false. */
  lemma CompleteCurrentInvariant(e: FlowExecution)
    requires ValidCursor(e)
    ensures ValidCursor(CompleteCurrent(e))
    ensures CompleteCurrent(e).cursor >= e.cursor
    ensures e.completed ==> CompleteCurrent(e).completed
  {
  }

  /** `n` successive calls of `complete_current`. */
  function CompleteTimes(e: FlowExecution, n: nat): (r: FlowExecution)
    decreases n
  {
    if n == 0 then e else CompleteTimes(CompleteCurrent(e), n - 1)
  }

  /**
    From a fresh execution of a flow with entries, `n` completions put the
    cursor at entry min(n, |entries| - 1), and the execution is completed
    exactly when `n` reaches the number of entries.
   */
  lemma {:induction false} CompleteTimesFromStart(e: FlowExecution, n: nat)
    requires |e.flow.entries| > 0
    requires e.cursor == 0 && !e.completed
    ensures CompleteTimes(e, n).cursor == if n < |e.flow.entries| then n else |e.flow.entries| - 1
    ensures CompleteTimes(e, n).completed <==> n >= |e.flow.entries|
    ensures CompleteTimes(e, n).flow == e.flow && CompleteTimes(e, n).context == e.context
  {
    CompleteTimesShift(e, n);
  }

  /** Generalisation of `CompleteTimesFromStart` to any starting cursor before completion. */
  lemma {:induction false} CompleteTimesShift(e: FlowExecution, n: nat)
    requires e.cursor < |e.flow.entries| && !e.completed
    ensures CompleteTimes(e, n).cursor == if e.cursor + n < |e.flow.entries| then e.cursor + n else |e.flow.entries| - 1
    ensures CompleteTimes(e, n).completed <==> e.cursor + n >= |e.flow.entries|
    ensures CompleteTimes(e, n).flow == e.flow && CompleteTimes(e, n).context == e.context
    decreases n
  {
    if n > 0 {
      var e' := CompleteCurrent(e);
      if e.cursor + 1 < |e.flow.entries| {
        CompleteTimesShift(e', n - 1);
      } else {
        CompleteTimesCompleted(e', n - 1);
      }
    }
  }

  /** A completed execution stays where it is. */
  lemma {:induction false} CompleteTimesCompleted(e: FlowExecution, n: nat)
    requires e.completed && e.cursor + 1 >= |e.flow.entries|
    ensures CompleteTimes(e, n) == e
    decreases n
  {
    if n > 0 {
      CompleteTimesCompleted(CompleteCurrent(e), n - 1);
    }
  }

  /** What `data` needs so as not to panic: an entry at the cursor, its stage in storage, and a renderable stage unless completed. */
  predicate CanRender(e: FlowExecution, stages: ExecutorData.StageTable)
  {
    && e.cursor < |e.flow.entries|
    && e.flow.entries[e.cursor].stage in stages
    && var stage := stages[e.flow.entries[e.cursor].stage];
    && (!e.completed ==> ExecutorData.Renderable(stage.kind))
    && (!e.completed && stage.kind.Identification? && stage.kind.password.Some? ==> stage.kind.password.value in stages)
  }

  /**
    `data`: the page for the current state. A completed execution redirects to
    the `next` query parameter; otherwise the current stage is rendered. The
    entry and its stage are resolved first in both cases.
   */
  function Data(e: FlowExecution, error: Option<ModelError.SubmissionError>, next: Option<string>, stages: ExecutorData.StageTable): (r: ModelData.FlowData)
    requires CanRender(e, stages)
    ensures r.flow.title == e.flow.title
    ensures r.pendingUser == e.context.pending
    ensures r.fieldError == error
    ensures e.completed && next.Some? ==> r.component == ModelData.Redirect(next.value)
    ensures e.completed && next.None? ==> r.component == ModelData.Error("Missing Redirect")
    ensures !e.completed ==> r.component != ModelData.AccessDenied(InternalComponentError)
    ensures !e.completed ==> Some(r.component) == ExecutorData.AsComponent(stages[e.flow.entries[e.cursor].stage], stages)
  {
    var entry := GetEntry(e);
    var stage := LookupStage(stages, entry);
    var component :=
      if e.completed then
        match next
        case Some(to) => ModelData.Redirect(to)
        case None => ModelData.Error("Missing Redirect")
      else
        match ExecutorData.AsComponent(stage, stages)
        case Some(v) => v
        case None => ModelData.AccessDenied(InternalComponentError);
    ModelData.FlowData(ModelData.FlowInfo(e.flow.title), component, e.context.pending, error)
  }
}

=== FILE: flow_storage.dfy ===
/**
  The server's reference storage (server/src/flow_storage.rs): a lookup table
  indexed both by slug and by uid, the freezable storage an execution records
  its references in, the decoding of stage rows, and the ordering of flow
  bindings.

  The backing `FlowStorage` never fills its own tables, so every lookup through
  it is a database query; it is modelled as the function `db`.
 */
module FlowStorage {
  import opened Wrappers
  import opened UuidType
  import ModelReference
  import ServerReference
  import ServerStage
  import ServerFlow
  import StableSort

  // ---------------------------------------------------------------- LookupTable

  datatype LookupTable<T> = LookupTable(slugs: map<string, T>, ids: map<int, T>)

  function EmptyTable<T>(): LookupTable<T>
  {
    LookupTable(map[], map[])
  }

  /** `LookupTable::lookup`: slug ids consult only the slug index, uid ids only the uid index. */
  function Lookup<T>(t: LookupTable<T>, id: ModelReference.ReferenceId): (r: Option<T>)
    ensures id.Slug? ==> (r.Some? <==> id.slug in t.slugs) && (r.Some? ==> r.value == t.slugs[id.slug])
    ensures id.Uid? ==> (r.Some? <==> id.uid in t.ids) && (r.Some? ==> r.value == t.ids[id.uid])
  {
    match id
    case Slug(s) => if s in t.slugs then Some(t.slugs[s]) else None
    case Uid(n) => if n in t.ids then Some(t.ids[n]) else None
  }

  /** `insert_ref`: registers `v` under `id` in the index of its kind. */
  function InsertRef<T>(t: LookupTable<T>, id: ModelReference.ReferenceId, v: T): (r: LookupTable<T>)
    ensures Lookup(r, id) == Some(v)
    ensures forall other :: other != id ==> Lookup(r, other) == Lookup(t, other)
  {
    match id
    case Slug(s) => t.(slugs := t.slugs[s := v])
    case Uid(n) => t.(ids := t.ids[n := v])
  }

  /**
    `LookupTable::insert`: registers `v` under the references it exposes,
    its uid reference if it has one and its slug reference if it has one.
   */
  function Insert<T>(t: LookupTable<T>, v: T, refUid: Option<ModelReference.ReferenceId>, refSlug: Option<ModelReference.ReferenceId>): (r: LookupTable<T>)
    ensures refUid.Some? ==> Lookup(r, refUid.value) == Some(v)
    ensures refSlug.Some? ==> Lookup(r, refSlug.value) == Some(v)
    ensures forall id :: refUid != Some(id) && refSlug != Some(id) ==> Lookup(r, id) == Lookup(t, id)
  {
    var t' := if refUid.Some? then InsertRef(t, refUid.value, v) else t;
    if refSlug.Some? then InsertRef(t', refSlug.value, v) else t'
  }

  /** A later insert under the same reference replaces the earlier value. */
  lemma LaterInsertWins<T>(t: LookupTable<T>, id: ModelReference.ReferenceId, v: T, w: T)
    ensures Lookup(InsertRef(InsertRef(t, id, v), id, w), id) == Some(w)
  {
  }

  // ------------------------------------------------------------- FreezedStorage

  datatype UnresolvedReferenceKind = StageRef | PolicyRef | PromptRef | FlowRef

  datatype UnresolvedReference = UnresolvedReference(kind: UnresolvedReferenceKind, id: ModelReference.ReferenceId)

  /** A stored entity: the keys `Referencable` reads, and its contents. */
  datatype Stored<T> = Stored(uid: int, slug: string, value: T)

  function TargetOf(kind: UnresolvedReferenceKind): ModelReference.Target
  {
    match kind
    case StageRef => ModelReference.StageTarget
    case PolicyRef => ModelReference.PolicyTarget
    case PromptRef => ModelReference.PromptTarget
    case FlowRef => ModelReference.FlowTarget
  }

  function RefUidOf<T>(kind: UnresolvedReferenceKind, s: Stored<T>): Option<ModelReference.ReferenceId>
  {
    var r := ServerReference.RefUid(TargetOf(kind), s.uid);
    if r.Some? then Some(r.value.id) else None
  }

  function RefSlugOf<T>(kind: UnresolvedReferenceKind, s: Stored<T>): Option<ModelReference.ReferenceId>
  {
    var r := ModelReference.RefSlug(TargetOf(kind), s.slug);
    if r.Some? then Some(r.value.id) else None
  }

  /** The database behind the storage: the entity of a kind a reference selects. */
  type Database<T> = (UnresolvedReferenceKind, ModelReference.ReferenceId) -> Option<Stored<T>>

  /**
    `FreezedStorage`: `live` while it still has its backing storage. `errors`
    collects the references that could not be resolved while live.
   */
  datatype FreezedStorage<T> = FreezedStorage(
    live: bool,
    errors: Option<seq<UnresolvedReference>>,
    stages: LookupTable<Stored<T>>,
    policies: LookupTable<Stored<T>>,
    prompts: LookupTable<Stored<T>>,
    flows: LookupTable<Stored<T>>)
  {
    function Table(kind: UnresolvedReferenceKind): LookupTable<Stored<T>>
    {
      match kind
      case StageRef => stages
      case PolicyRef => policies
      case PromptRef => prompts
      case FlowRef => flows
    }
  }

  /** `s` with the table of one kind replaced; every other table and the flags stay. */
  function WithTable<T>(s: FreezedStorage<T>, kind: UnresolvedReferenceKind, t: LookupTable<Stored<T>>): (r: FreezedStorage<T>)
    ensures r.Table(kind) == t
    ensures forall k :: k != kind ==> r.Table(k) == s.Table(k)
    ensures r.live == s.live && r.errors == s.errors
  {
    match kind
    case StageRef => s.(stages := t)
    case PolicyRef => s.(policies := t)
    case PromptRef => s.(prompts := t)
    case FlowRef => s.(flows := t)
  }

  /** `FreezedStorage::new`: live, with no recorded errors and empty tables. */
  function NewFreezed<T>(): FreezedStorage<T>
  {
    FreezedStorage(true, Some([]), EmptyTable(), EmptyTable(), EmptyTable(), EmptyTable())
  }

  lemma NewFreezedEmpty<T>()
    ensures NewFreezed<T>().live && NewFreezed<T>().errors == Some([])
    ensures forall k :: NewFreezed<T>().Table(k) == EmptyTable()
  {
  }

  /** A live storage still owns its error list (`freeze` expects it). */
  predicate Valid<T>(s: FreezedStorage<T>)
  {
    s.live ==> s.errors.Some?
  }

  datatype Frozen<T> = Frozen(storage: FreezedStorage<T>, unresolved: seq<UnresolvedReference>)

  /** `freeze`: drops the backing storage and hands out the recorded unresolved references, once. */
  function Freeze<T>(s: FreezedStorage<T>): (r: Frozen<T>)
    requires Valid(s)
    ensures !r.storage.live && Valid(r.storage)
    ensures forall k :: r.storage.Table(k) == s.Table(k)
    ensures s.live ==> r.unresolved == s.errors.value && r.storage.errors.None?
    ensures !s.live ==> r == Frozen(s, [])
  {
    if !s.live then Frozen(s, [])
    else Frozen(s.(live := false, errors := None), s.errors.value)
  }

  datatype Resolved<T> = Resolved(storage: FreezedStorage<T>, value: Option<Stored<T>>)

  /**
    `lookup_reference` on a `FreezedStorage`. While live it asks the
    database; a hit is recorded in the local table of its kind, a miss is
    recorded as unresolved. Once frozen, only the local table is consulted.
   */
  function FreezedLookup<T>(s: FreezedStorage<T>, kind: UnresolvedReferenceKind, id: ModelReference.ReferenceId, db: Database<T>): (r: Resolved<T>)
    ensures Valid(s) ==> Valid(r.storage)
    ensures s.live ==> r.value == db(kind, id) && r.storage.live
    ensures s.live && r.value.Some? ==>
      && r.storage.errors == s.errors
      && r.storage.Table(kind) == Insert(s.Table(kind), r.value.value, RefUidOf(kind, r.value.value), RefSlugOf(kind, r.value.value))
      && forall k :: k != kind ==> r.storage.Table(k) == s.Table(k)
    ensures s.live && r.value.None? ==>
      && (forall k :: r.storage.Table(k) == s.Table(k))
      && r.storage.errors == (if s.errors.Some? then Some(s.errors.value + [UnresolvedReference(kind, id)]) else None)
    ensures !s.live ==> r == Resolved(s, Lookup(s.Table(kind), id))
  {
    if s.live then
      match db(kind, id)
      case Some(v) =>
        Resolved(WithTable(s, kind, Insert(s.Table(kind), v, RefUidOf(kind, v), RefSlugOf(kind, v))), Some(v))
      case None =>
        var errors := if s.errors.Some? then Some(s.errors.value + [UnresolvedReference(kind, id)]) else None;
        Resolved(s.(errors := errors), None)
    else Resolved(s, Lookup(s.Table(kind), id))
  }

  /** After `freeze`, a second `freeze` returns nothing. */
  lemma FreezeTwice<T>(s: FreezedStorage<T>)
    requires Valid(s)
    ensures Freeze(Freeze(s).storage).unresolved == []
  {
  }

  /**
    A reference resolved while live is found again after freezing, provided
    it is one of the keys the entity exposes; the database is no longer asked.
   */
  lemma ResolvedSurvivesFreeze<T>(s: FreezedStorage<T>, kind: UnresolvedReferenceKind, id: ModelReference.ReferenceId, db: Database<T>, db': Database<T>)
    requires Valid(s) && s.live && db(kind, id).Some?
    requires id == ModelReference.Uid(db(kind, id).value.uid) && kind != FlowRef
    ensures var after := Freeze(FreezedLookup(s, kind, id, db).storage).storage;
      FreezedLookup(after, kind, id, db').value == db(kind, id)
  {
  }

  /**
    Flows expose no uid reference in this version, so a flow resolved by uid
    while live is not registered under that uid: after freezing, the same
    lookup misses unless the uid was already in the table.
   */
  lemma FlowByUidLostAfterFreeze<T>(s: FreezedStorage<T>, n: int, db: Database<T>, db': Database<T>)
    requires Valid(s) && s.live && db(FlowRef, ModelReference.Uid(n)).Some?
    requires n !in s.flows.ids
    ensures var after := Freeze(FreezedLookup(s, FlowRef, ModelReference.Uid(n), db).storage).storage;
      FreezedLookup(after, FlowRef, ModelReference.Uid(n), db').value.None?
  {
    var v := db(FlowRef, ModelReference.Uid(n)).value;
    assert RefUidOf(FlowRef, v).None?;
  }

  // ----------------------------------------------------------- stage decoding

  datatype PgStageKind = PgDeny | PgPrompt | PgIdentification | PgUserLogin | PgUserLogout | PgUserWrite | PgPassword | PgConsent

  datatype PgConsentMode = PgAlways | PgOnce | PgUntil

  /** A row of `stages`. */
  datatype PgStage = PgStage(
    uid: int,
    slug: string,
    kind: PgStageKind,
    timeout: int,
    identificationPasswordStage: Option<int>,
    identificationStage: Option<int>,
    consentStage: Option<int>)

  /** A row of `consent_stages`. */
  datatype ConsentRow = ConsentRow(mode: PgConsentMode, until: Option<int>)

  /** The tables a stage row refers to, by uid. */
  datatype StageTables = StageTables(
    identificationFields: map<int, seq<ServerStage.UserField>>,
    consent: map<int, ConsentRow>)

  /**
    Decoding a stage row (`query_reference` for `Stage`). Identification
    needs its `identification_stages` row and consent its `consent_stages`
    row, else there is no stage. A password stage always gets the internal
    backend; a consent `until` without a value becomes 0. Prompt stages are
    `todo!()`.
   */
  function DecodeStage(row: PgStage, tables: StageTables): (r: Option<ServerStage.Stage>)
    requires row.kind != PgPrompt
    ensures r.Some? ==> r.value.uid == row.uid && r.value.slug == row.slug && r.value.timeout == row.timeout
    ensures row.kind == PgDeny ==> r.Some? && r.value.kind == ServerStage.Deny
    ensures row.kind == PgUserLogin ==> r.Some? && r.value.kind == ServerStage.UserLogin
    ensures row.kind == PgUserLogout ==> r.Some? && r.value.kind == ServerStage.UserLogout
    ensures row.kind == PgUserWrite ==> r.Some? && r.value.kind == ServerStage.UserWrite
    ensures row.kind == PgPassword ==> r.Some? && r.value.kind == ServerStage.Password([ServerStage.Internal])
    ensures row.kind == PgIdentification ==>
      && (r.Some? <==> row.identificationStage.Some? && row.identificationStage.value in tables.identificationFields)
      && (r.Some? ==>
            && r.value.kind.Identification?
            && r.value.kind.userFields == tables.identificationFields[row.identificationStage.value]
            && (r.value.kind.password.Some? <==> row.identificationPasswordStage.Some?)
            && (r.value.kind.password.Some? ==> r.value.kind.password.value == ModelReference.Uid(row.identificationPasswordStage.value)))
    ensures row.kind == PgConsent ==>
      && (r.Some? <==> row.consentStage.Some? && row.consentStage.value in tables.consent)
      && (r.Some? && tables.consent[row.consentStage.value].mode == PgAlways ==> r.value.kind == ServerStage.Consent(ServerStage.Always))
      && (r.Some? && tables.consent[row.consentStage.value].mode == PgOnce ==> r.value.kind == ServerStage.Consent(ServerStage.Once))
      && (r.Some? && tables.consent[row.consentStage.value].mode == PgUntil ==>
            r.value.kind == ServerStage.Consent(ServerStage.Until(tables.consent[row.consentStage.value].until.UnwrapOr(0))))
  {
    var kind: Option<ServerStage.StageKind> :=
      match row.kind
      case PgDeny => Some(ServerStage.Deny)
      case PgIdentification =>
        if row.identificationStage.Some? && row.identificationStage.value in tables.identificationFields then
          var password := if row.identificationPasswordStage.Some? then Some(ModelReference.Uid(row.identificationPasswordStage.value)) else None;
          Some(ServerStage.Identification(password, tables.identificationFields[row.identificationStage.value]))
        else None
      case PgUserLogin => Some(ServerStage.UserLogin)
      case PgUserLogout => Some(ServerStage.UserLogout)
      case PgUserWrite => Some(ServerStage.UserWrite)
      case PgPassword => Some(ServerStage.Password([ServerStage.Internal]))
      case PgConsent =>
        if row.consentStage.Some? && row.consentStage.value in tables.consent then
          var c := tables.consent[row.consentStage.value];
          var mode := match c.mode
            case PgAlways => ServerStage.Always
            case PgOnce => ServerStage.Once
            case PgUntil => ServerStage.Until(c.until.UnwrapOr(0));
          Some(ServerStage.Consent(mode))
        else None;
    if kind.Some? then Some(ServerStage.Stage(row.uid, row.slug, kind.value, row.timeout)) else None
  }

  // --------------------------------------------------------- binding ordering

  /** Rows of the three `flow_bindings` queries; the user and group queries select only non-null columns. */
  datatype PolicyBindingRow = PolicyBindingRow(policy: int, enabled: bool, negate: bool, ordering: int)
  datatype UserBindingRow = UserBindingRow(user: Uuid, enabled: bool, negate: bool, ordering: int)
  datatype GroupBindingRow = GroupBindingRow(group: Uuid, enabled: bool, negate: bool, ordering: int)

  function PolicyBindings(rows: seq<PolicyBindingRow>): (r: seq<ServerFlow.FlowBinding>)
    ensures |r| == |rows|
    ensures forall i :: 0 <= i < |rows| ==>
      r[i] == ServerFlow.FlowBinding(rows[i].enabled, rows[i].negate, rows[i].ordering, ServerFlow.Policy(ModelReference.Uid(rows[i].policy)))
  {
    seq(|rows|, i requires 0 <= i < |rows| =>
      ServerFlow.FlowBinding(rows[i].enabled, rows[i].negate, rows[i].ordering, ServerFlow.Policy(ModelReference.Uid(rows[i].policy))))
  }

  function UserBindings(rows: seq<UserBindingRow>): (r: seq<ServerFlow.FlowBinding>)
    ensures |r| == |rows|
    ensures forall i :: 0 <= i < |rows| ==>
      r[i] == ServerFlow.FlowBinding(rows[i].enabled, rows[i].negate, rows[i].ordering, ServerFlow.User(rows[i].user))
  {
    seq(|rows|, i requires 0 <= i < |rows| =>
      ServerFlow.FlowBinding(rows[i].enabled, rows[i].negate, rows[i].ordering, ServerFlow.User(rows[i].user)))
  }

  function GroupBindings(rows: seq<GroupBindingRow>): (r: seq<ServerFlow.FlowBinding>)
    ensures |r| == |rows|
    ensures forall i :: 0 <= i < |rows| ==>
      r[i] == ServerFlow.FlowBinding(rows[i].enabled, rows[i].negate, rows[i].ordering, ServerFlow.Group(rows[i].group))
  {
    seq(|rows|, i requires 0 <= i < |rows| =>
      ServerFlow.FlowBinding(rows[i].enabled, rows[i].negate, rows[i].ordering, ServerFlow.Group(rows[i].group)))
  }

  function Order(b: ServerFlow.FlowBinding): int { b.order }

  /**
    `load_bindings_flow` / `load_bindings_entry`: a failed query gives no
    bindings; otherwise policy, user and group bindings, in that order,
    stably sorted by `order`.
   */
  function LoadBindings(policies: Option<seq<PolicyBindingRow>>, users: Option<seq<UserBindingRow>>, groups: Option<seq<GroupBindingRow>>): (r: Option<seq<ServerFlow.FlowBinding>>)
    ensures r.Some? <==> policies.Some? && users.Some? && groups.Some?
    ensures r.Some? ==>
      var all := PolicyBindings(policies.value) + UserBindings(users.value) + GroupBindings(groups.value);
      && StableSort.SortedBy(r.value, Order)
      && multiset(r.value) == multiset(all)
      && forall k :: StableSort.WithKey(r.value, Order, k) == StableSort.WithKey(all, Order, k)
  {
    if policies.None? || users.None? || groups.None? then None
    else
      var all := PolicyBindings(policies.value) + UserBindings(users.value) + GroupBindings(groups.value);
      StableSort.SortByKeyIsStableSort(all, Order);
      Some(StableSort.SortByKey(all, Order))
  }
}

=== FILE: id_gen.dfy ===
/**
  Opaque identifiers (server/src/utils/id_gen.rs): a 64-bit timestamp and
  128 random bytes, laid out as 136 bytes with the timestamp big-endian in
  front, and written as unpadded base64url text.
 */
module IdGen {
  import opened Wrappers
  import Base64Url

  type Byte = Base64Url.Byte

  const TimestampLength: nat := 8
  const RandomDataLength: nat := 128
  const IdLength: nat := TimestampLength + RandomDataLength
  const U64Modulus: nat := 0x1_0000_0000_0000_0000

  datatype Id = Id(timestamp: nat, data: seq<Byte>)

  /** A value of the Rust type: a `u64` timestamp and exactly 128 bytes. */
  predicate Valid(id: Id)
  {
    id.timestamp < U64Modulus && |id.data| == RandomDataLength
  }

  function Pow256(n: nat): (r: nat)
    ensures r > 0
  {
    if n == 0 then 1 else 256 * Pow256(n - 1)
  }

  /** The `n` bytes of `t` in big-endian order (`to_be_bytes` for `n = 8`). */
  function ToBeBytes(t: nat, n: nat): (r: seq<Byte>)
    requires t < Pow256(n)
    ensures |r| == n
  {
    if n == 0 then [] else ToBeBytes(t / 256, n - 1) + [t % 256]
  }

  /** `from_be_bytes`: the number whose big-endian bytes are `b`. */
  function FromBeBytes(b: seq<Byte>): (t: nat)
    ensures t < Pow256(|b|)
  {
    if |b| == 0 then 0 else FromBeBytes(b[..|b| - 1]) * 256 + b[|b| - 1]
  }

  lemma {:induction false} BeRoundTrip(t: nat, n: nat)
    requires t < Pow256(n)
    ensures FromBeBytes(ToBeBytes(t, n)) == t
  {
    if n > 0 {
      var b := ToBeBytes(t, n);
      BeRoundTrip(t / 256, n - 1);
      assert b[..n - 1] == ToBeBytes(t / 256, n - 1);
    }
  }

  lemma {:induction false} BeRoundTripBytes(b: seq<Byte>)
    ensures ToBeBytes(FromBeBytes(b), |b|) == b
  {
    if |b| > 0 {
      var front := b[..|b| - 1];
      var last := b[|b| - 1];
      var t := FromBeBytes(front);
      BeRoundTripBytes(front);
      assert (t * 256 + last) / 256 == t && (t * 256 + last) % 256 == last by {
        DivMod256(t * 256 + last, t, last);
      }
      assert ToBeBytes(FromBeBytes(b), |b|) == ToBeBytes(t, |b| - 1) + [last];
      assert b == front + [last];
    }
  }

  lemma DivMod256(x: int, q: int, r: int)
    requires 0 <= r < 256 && x == q * 256 + r
    ensures x / 256 == q && x % 256 == r
  {
  }

  /** `as_bytes`: the big-endian timestamp, then the data. */
  function AsBytes(id: Id): (b: seq<Byte>)
    requires Valid(id)
    ensures |b| == IdLength
    ensures b[TimestampLength..] == id.data
  {
    assert Pow256(8) == U64Modulus;
    ToBeBytes(id.timestamp, TimestampLength) + id.data
  }

  /** `from_bytes_unchecked`; its debug assertion demands exactly 136 bytes. */
  function FromBytesUnchecked(b: seq<Byte>): (id: Id)
    requires |b| == IdLength
    ensures Valid(id)
    ensures id.data == b[TimestampLength..]
  {
    assert Pow256(8) == U64Modulus;
    Id(FromBeBytes(b[..TimestampLength]), b[TimestampLength..IdLength])
  }

  lemma BytesRoundTrip(id: Id)
    requires Valid(id)
    ensures FromBytesUnchecked(AsBytes(id)) == id
  {
    assert Pow256(8) == U64Modulus;
    var b := AsBytes(id);
    assert b[..TimestampLength] == ToBeBytes(id.timestamp, TimestampLength);
    BeRoundTrip(id.timestamp, TimestampLength);
  }

  lemma BytesRoundTripFromBytes(b: seq<Byte>)
    requires |b| == IdLength
    ensures AsBytes(FromBytesUnchecked(b)) == b
  {
    assert Pow256(8) == U64Modulus;
    BeRoundTripBytes(b[..TimestampLength]);
    assert b == b[..TimestampLength] + b[TimestampLength..];
  }

  datatype IdFromBytesError = InvalidLength(length: nat)

  /** `from_bytes`: any length other than 136 is rejected with that length. */
  function FromBytes(b: seq<Byte>): (r: Result<Id, IdFromBytesError>)
    ensures |b| != IdLength ==> r == Err(InvalidLength(|b|))
    ensures |b| == IdLength ==> r == Ok(FromBytesUnchecked(b))
  {
    if |b| != IdLength then Err(InvalidLength(|b|)) else Ok(FromBytesUnchecked(b))
  }

  /** `as_string`: the unpadded base64url text of `as_bytes`. */
  function AsString(id: Id): (s: string)
    requires Valid(id)
    ensures |s| == 182
  {
    Base64Url.Encode(AsBytes(id))
  }

  /** `from_str`: decode, then read the bytes without a length check, which must therefore be 136. */
  function FromStr(s: string): (r: Result<Id, Base64Url.DecodeError>)
    requires Base64Url.Decode(s).Ok? ==> |Base64Url.Decode(s).value| == IdLength
    ensures r.Err? <==> Base64Url.Decode(s).Err?
    ensures r.Ok? ==> Valid(r.value) && AsBytes(r.value) == Base64Url.Decode(s).value
  {
    match Base64Url.Decode(s)
    case Err(e) => Err(e)
    case Ok(b) =>
      BytesRoundTripFromBytes(b);
      Ok(FromBytesUnchecked(b))
  }

  /** Text round trip: reading back the text of an id gives the id. */
  lemma StringRoundTrip(id: Id)
    requires Valid(id)
    ensures Base64Url.Decode(AsString(id)) == Ok(AsBytes(id))
    ensures FromStr(AsString(id)) == Ok(id)
  {
    Base64Url.DecodeEncode(AsBytes(id));
    BytesRoundTrip(id);
  }

  /** Lexicographic order on byte strings of equal length. */
  predicate LexLess(a: seq<Byte>, b: seq<Byte>)
    requires |a| == |b|
  {
    |a| > 0 && (a[0] < b[0] || (a[0] == b[0] && LexLess(a[1..], b[1..])))
  }

  /** The derived `Ord` of `Id`: timestamp first, then the data bytes. */
  predicate Less(a: Id, b: Id)
    requires Valid(a) && Valid(b)
  {
    a.timestamp < b.timestamp || (a.timestamp == b.timestamp && LexLess(a.data, b.data))
  }

  lemma {:induction false} BeOrder(t: nat, u: nat, n: nat)
    requires t < Pow256(n) && u < Pow256(n)
    ensures t < u <==> LexLess(ToBeBytes(t, n), ToBeBytes(u, n))
  {
    if n > 0 {
      BeOrder(t / 256, u / 256, n - 1);
      LexAppend(ToBeBytes(t / 256, n - 1), [t % 256], ToBeBytes(u / 256, n - 1), [u % 256]);
      if ToBeBytes(t / 256, n - 1) == ToBeBytes(u / 256, n - 1) {
        BeRoundTrip(t / 256, n - 1);
        BeRoundTrip(u / 256, n - 1);
      }
      assert LexLess([t % 256], [u % 256]) <==> t % 256 < u % 256;
    }
  }

  lemma {:induction false} LexAppend(a1: seq<Byte>, b1: seq<Byte>, a2: seq<Byte>, b2: seq<Byte>)
    requires |a1| == |a2| && |b1| == |b2|
    ensures LexLess(a1 + b1, a2 + b2) <==> LexLess(a1, a2) || (a1 == a2 && LexLess(b1, b2))
  {
    if |a1| > 0 {
      assert (a1 + b1)[1..] == a1[1..] + b1;
      assert (a2 + b2)[1..] == a2[1..] + b2;
      LexAppend(a1[1..], b1, a2[1..], b2);
      if a1[0] == a2[0] && a1[1..] == a2[1..] {
        assert a1 == [a1[0]] + a1[1..] && a2 == [a2[0]] + a2[1..];
      }
    } else {
      assert a1 + b1 == b1 && a2 + b2 == b2;
    }
  }

  /** Because the timestamp is big-endian, ids order exactly as their byte layouts do. */
  lemma OrderMatchesBytes(a: Id, b: Id)
    requires Valid(a) && Valid(b)
    ensures Less(a, b) <==> LexLess(AsBytes(a), AsBytes(b))
  {
    assert Pow256(8) == U64Modulus;
    BeOrder(a.timestamp, b.timestamp, TimestampLength);
    LexAppend(ToBeBytes(a.timestamp, TimestampLength), a.data, ToBeBytes(b.timestamp, TimestampLength), b.data);
    if ToBeBytes(a.timestamp, TimestampLength) == ToBeBytes(b.timestamp, TimestampLength) {
      BeRoundTrip(a.timestamp, TimestampLength);
      BeRoundTrip(b.timestamp, TimestampLength);
    }
  }
}

=== FILE: interface_flow.dfy ===
/**
  The flow entry point of the web interface (server/src/interface/flow.rs):
  `/:flow_designation` redirects to the interface page of the flow the
  request's tenant configures for that designation.
 */
module InterfaceFlow {
  import opened Wrappers
  import ModelReference
  import ModelFlow
  import ModelTenant

  const Found := 302
  const NotFound := 404

  /** `base_uri`: the build-time `INTERFACE_BASE_URI`, or the empty string. */
  function BaseUri(env: Option<string>): (r: string)
    ensures env.Some? ==> r == env.value
    ensures env.None? ==> r == ""
  {
    if env.Some? then env.value else ""
  }

  /** The interface location of a flow, with the request's raw query appended when there is one. */
  function Location(base: string, slug: string, query: Option<string>): (r: string)
    ensures |r| >= |base| + 6 + |slug| && r[..|base| + 6 + |slug|] == base + "/flow/" + slug
    ensures query.None? ==> |r| == |base| + 6 + |slug|
    ensures query.Some? ==>
      && |r| == |base| + 7 + |slug| + |query.value|
      && r[|base| + 6 + |slug|] == '?'
      && r[|base| + 7 + |slug|..] == query.value
  {
    match query
    case Some(q) => base + "/flow/" + slug + "?" + q
    case None => base + "/flow/" + slug
  }

  /** The location determines the query: different raw queries never share a location. */
  lemma LocationDeterminesQuery(base: string, slug: string, q1: Option<string>, q2: Option<string>)
    requires Location(base, slug, q1) == Location(base, slug, q2)
    ensures q1 == q2
  {
  }

  datatype Response = Response(status: int, location: Option<string>)

  /** What the storage knows of a flow reference: the flow's slug, if it resolves. */
  type FlowLookup = ModelReference.ReferenceId -> Option<string>

  /** The redirect for a configured flow: 302 to its location when it resolves, 404 otherwise. */
  function RedirectTo(flow: Option<ModelReference.ReferenceId>, lookup: FlowLookup, base: string, query: Option<string>): (r: Response)
    ensures r.status == Found || r.status == NotFound
    ensures r.status == Found <==> flow.Some? && lookup(flow.value).Some?
    ensures r.status == Found ==> r.location == Some(Location(base, lookup(flow.value).value, query))
    ensures r.status == NotFound ==> r.location.None?
  {
    match flow
    case Some(f) =>
      (match lookup(f)
       case Some(slug) => Response(Found, Some(Location(base, slug, query)))
       case None => Response(NotFound, None))
    case None => Response(NotFound, None)
  }

  /**
    `tenant_flow_redirect` as written: it asks the tenant's `get_flow`, whose
    recovery arm returns the enrollment flow, so a recovery request is sent
    to the enrollment flow.
   */
  function TenantFlowRedirectAsWritten(tenant: ModelTenant.Tenant, d: ModelFlow.FlowDesignation, lookup: FlowLookup, base: string, query: Option<string>): (r: Response)
    ensures d != ModelFlow.Recovery ==> r == TenantFlowRedirect(tenant, d, lookup, base, query)
    ensures d == ModelFlow.Recovery ==> r == RedirectTo(tenant.enrollmentFlow, lookup, base, query)
  {
    RedirectTo(ModelTenant.GetFlowAsWritten(tenant, d), lookup, base, query)
  }

  /**
    `tenant_flow_redirect` with the corrected `get_flow`: 302 to the flow's
    location when the tenant has a flow for the designation and it
    resolves, 404 otherwise.
   */
  function TenantFlowRedirect(tenant: ModelTenant.Tenant, d: ModelFlow.FlowDesignation, lookup: FlowLookup, base: string, query: Option<string>): (r: Response)
    ensures r.status == Found || r.status == NotFound
    ensures r.status == Found <==> ModelTenant.GetFlow(tenant, d).Some? && lookup(ModelTenant.GetFlow(tenant, d).value).Some?
    ensures r.status == Found ==> r.location == Some(Location(base, lookup(ModelTenant.GetFlow(tenant, d).value).value, query))
    ensures r.status == NotFound ==> r.location.None?
  {
    RedirectTo(ModelTenant.GetFlow(tenant, d), lookup, base, query)
  }

  /**
    As written, a tenant with an enrollment flow and no recovery flow
    redirects `/recovery` to the enrollment flow's page, where the corrected
    lookup answers 404.
   */
  lemma RecoveryRedirectsToEnrollmentAsWritten(tenant: ModelTenant.Tenant, f: ModelReference.ReferenceId, slug: string, lookup: FlowLookup, base: string, query: Option<string>)
    requires tenant.recoveryFlow.None? && tenant.enrollmentFlow == Some(f) && lookup(f) == Some(slug)
    ensures TenantFlowRedirectAsWritten(tenant, ModelFlow.Recovery, lookup, base, query) == Response(Found, Some(Location(base, slug, query)))
    ensures TenantFlowRedirect(tenant, ModelFlow.Recovery, lookup, base, query) == Response(NotFound, None)
  {
  }

  /** With the corrected lookup, `/recovery` leads to the tenant's own recovery flow whenever it resolves. */
  lemma RecoveryRedirectsToRecoveryFlow(tenant: ModelTenant.Tenant, f: ModelReference.ReferenceId, slug: string, lookup: FlowLookup, base: string, query: Option<string>)
    requires lookup(f) == Some(slug)
    ensures TenantFlowRedirect(ModelTenant.SetFlow(tenant, ModelFlow.Recovery, Some(f)), ModelFlow.Recovery, lookup, base, query)
      == Response(Found, Some(Location(base, slug, query)))
  {
    ModelTenant.GetFlowSetFlow(tenant, ModelFlow.Recovery, ModelFlow.Recovery, Some(f));
  }

  datatype TenantRejection = HostRejected | TenantNotFound

  /**
    Resolving the request's tenant: the tenant whose host is the request's
    Host, else the default tenant, else not found. A request without a
    usable Host is rejected first.
   */
  function ResolveTenant(host: Option<string>, byHost: string -> Option<ModelTenant.Tenant>, default: Option<ModelTenant.Tenant>): (r: Result<ModelTenant.Tenant, TenantRejection>)
    ensures host.None? ==> r == Err(HostRejected)
    ensures host.Some? && byHost(host.value).Some? ==> r == Ok(byHost(host.value).value)
    ensures host.Some? && byHost(host.value).None? && default.Some? ==> r == Ok(default.value)
    ensures r == Err(TenantNotFound) <==> host.Some? && byHost(host.value).None? && default.None?
  {
    match host
    case None => Err(HostRejected)
    case Some(h) =>
      if byHost(h).Some? then Ok(byHost(h).value)
      else if default.Some? then Ok(default.value)
      else Err(TenantNotFound)
  }

  /** The rejection's status: a not-found tenant is 404. */
  function RejectionStatus(r: TenantRejection, hostStatus: int): (s: int)
    ensures r == TenantNotFound ==> s == NotFound
    ensures r == HostRejected ==> s == hostStatus
  {
    match r
    case HostRejected => hostStatus
    case TenantNotFound => NotFound
  }
}

=== FILE: json.dfy ===
/**
  The JSON value a submitted form is parsed into (`serde_json::Value`).
  Numbers are kept as integers: no modelled decision looks at their value.
 */
module Json {
  import opened Wrappers

  datatype Value =
    | Null
    | Bool(b: bool)
    | Number(n: int)
    | String(s: string)
    | Array(items: seq<Value>)
    | Object(fields: map<string, Value>)

  /** `Value::get(key)`: the member of an object; every other value has none. */
  function Get(v: Value, key: string): (r: Option<Value>)
    ensures r.Some? <==> v.Object? && key in v.fields
    ensures r.Some? ==> r.value == v.fields[key]
  {
    if v.Object? && key in v.fields then Some(v.fields[key]) else None
  }
}

=== FILE: model_data.dfy ===
/**
  What the flow executor sends to the client (model/src/data.rs): the component
  to render, the pending user and the error of the last submission.
 */
module ModelData {
  import opened Wrappers
  import opened UuidType
  import ModelStage
  import ModelError

  datatype PasswordComponentData = PasswordComponentData(recoveryUrl: string)

  datatype Source = Source(name: string, iconUrl: string)

  datatype Sources = Sources(sources: seq<Source>, showSourceLabels: bool)

  datatype FlowComponent =
    | AccessDenied(message: string)
    | Identification(userFields: seq<ModelStage.UserField>, sources: Sources, password: Option<PasswordComponentData>)
    | Password(data: PasswordComponentData)
    | Redirect(to: string)
    | Error(message: string)

  /** The user identified so far in a flow; `authenticated` once a password stage accepted them. */
  datatype PendingUser = PendingUser(uid: Uuid, name: string, avatarUrl: Option<string>, authenticated: bool, isAdmin: bool)

  datatype FlowInfo = FlowInfo(title: string)

  datatype FlowData = FlowData(
    flow: FlowInfo,
    component: FlowComponent,
    pendingUser: Option<PendingUser>,
    fieldError: Option<ModelError.SubmissionError>)
}

=== FILE: model_error.dfy ===
/**
  Submission errors of the flow executor (model/src/error.rs): `FieldType`, the
  JSON kind of a submitted form value, and the errors a stage submission can
  produce. `FieldError` carries a field name and a `FieldErrorKind`, in the
  shape the executor's handlers construct it.
 */
module ModelError {
  import Json

  datatype FieldType = Null | Boolean | String | Number | Object | Array

  /** `From<&Value> for FieldType`: one field type per JSON kind. */
  function FieldTypeOf(v: Json.Value): (t: FieldType)
    ensures t == Null <==> v.Null?
    ensures t == Boolean <==> v.Bool?
    ensures t == Number <==> v.Number?
    ensures t == String <==> v.String?
    ensures t == Array <==> v.Array?
    ensures t == Object <==> v.Object?
  {
    match v
    case Null => Null
    case Bool(_) => Boolean
    case Number(_) => Number
    case String(_) => String
    case Array(_) => Array
    case Object(_) => Object
  }

  /** Two JSON values are of the same kind: same constructor, any payload. */
  predicate SameKind(a: Json.Value, b: Json.Value)
  {
    (a.Null? && b.Null?) || (a.Bool? && b.Bool?) || (a.Number? && b.Number?)
    || (a.String? && b.String?) || (a.Array? && b.Array?) || (a.Object? && b.Object?)
  }

  /** The classification separates exactly the JSON kinds: equal field types iff equal kinds. */
  lemma FieldTypeSeparatesKinds(a: Json.Value, b: Json.Value)
    ensures FieldTypeOf(a) == FieldTypeOf(b) <==> SameKind(a, b)
  {
  }

  datatype FieldErrorKind =
    | Missing
    | Invalid(message: string)
    | InvalidType(expected: FieldType, got: FieldType)

  datatype FieldError = FieldError(field: string, kind: FieldErrorKind)

  datatype SubmissionError =
    | MissingField(fieldName: string)
    | InvalidFieldType(fieldName: string, expected: FieldType, got: FieldType)
    | NoPendingUser
    | Field(error: FieldError)
    | Unauthenticated
}

=== FILE: model_flow.dfy ===
/** Flows, their entries and bindings, crate version (model/src/flow.rs). */
module ModelFlow {
  import opened UuidType
  import ModelReference

  datatype AuthenticationRequirement = Superuser | Required | NoRequirement | Ignored

  datatype FlowDesignation =
    | Invalidation
    | Authentication
    | Authorization
    | Enrollment
    | Recovery
    | Unenrollment
    | Configuration

  datatype FlowBindingKind = Group(group: Uuid) | User(user: Uuid) | Policy(policy: ModelReference.ReferenceId)

  datatype FlowBinding = FlowBinding(enabled: bool, negate: bool, order: int, kind: FlowBindingKind)

  /** An entry of a flow: the stage to run at this position. */
  datatype FlowEntry = FlowEntry(ordering: int, bindings: seq<FlowBinding>, stage: ModelReference.ReferenceId)

  datatype Flow = Flow(
    uid: int,
    slug: string,
    title: string,
    designation: FlowDesignation,
    authentication: AuthenticationRequirement,
    bindings: seq<FlowBinding>,
    entries: seq<FlowEntry>)
}

=== FILE: model_policy.dfy ===
/** Policies, crate version (model/src/policy.rs): full and partial policies and the policy result. */
module ModelPolicy {

  datatype PolicyKind = PasswordExpiry(maxAge: int) | PasswordStrength | Expression(source: string)

  /** The payload-free policy kind stored in the `policy_kind` column. */
  datatype PolicyKindSimple = SimplePasswordExpiry | SimplePasswordStrength | SimpleExpression

  datatype Policy = Policy(uid: int, slug: string, kind: PolicyKind)

  datatype PartialPolicy = PartialPolicy(uid: int, slug: string, kind: PolicyKindSimple)

  datatype PolicyResult = NotApplicable | Value(b: bool)

  /** `From<&PolicyKind> for PolicyKindSimple`: the variant, without its payload. */
  function Simplify(k: PolicyKind): (r: PolicyKindSimple)
    ensures r == SimplePasswordExpiry <==> k.PasswordExpiry?
    ensures r == SimplePasswordStrength <==> k.PasswordStrength?
    ensures r == SimpleExpression <==> k.Expression?
  {
    match k
    case PasswordExpiry(_) => SimplePasswordExpiry
    case PasswordStrength => SimplePasswordStrength
    case Expression(_) => SimpleExpression
  }

  /** The payload is dropped: kinds of the same variant simplify alike. */
  lemma SimplifyIgnoresPayload(a: PolicyKind, b: PolicyKind)
    ensures Simplify(a) == Simplify(b) <==>
      (a.PasswordExpiry? && b.PasswordExpiry?) || (a.PasswordStrength? && b.PasswordStrength?)
      || (a.Expression? && b.Expression?)
  {
  }

  /** `From<&Policy> for PartialPolicy`. */
  function ToPartial(p: Policy): (r: PartialPolicy)
    ensures r.uid == p.uid && r.slug == p.slug
    ensures r.kind == Simplify(p.kind)
  {
    PartialPolicy(p.uid, p.slug, Simplify(p.kind))
  }

  /** `From<bool> for PolicyResult`. */
  function FromBool(b: bool): PolicyResult
  {
    Value(b)
  }

  /** A boolean always gives an applicable result, and distinct booleans give distinct results. */
  lemma FromBoolIsApplicableAndInjective(a: bool, b: bool)
    ensures FromBool(a) != NotApplicable
    ensures FromBool(a) == FromBool(b) <==> a == b
  {
  }
}

=== FILE: model_reference.dfy ===
/**
  Typed references to stored entities (model/src/reference.rs). A reference
  carries only its id. The server's own copy of these types
  (server/src/model/reference.rs) is the same but for `ref_uid()`, which is
  in `ServerReference`.
 */
module ModelReference {
  import opened Wrappers

  datatype ReferenceId = Slug(slug: string) | Uid(uid: int)

  datatype ReferenceKind = ByUid | BySlug

  /**
    `Reference<Target>`. The target type is a phantom parameter that holds no
    data, so it is left out here: equality is equality of ids, and the target
    is passed as a `Target` value where the code depends on it.
   */
  datatype Reference = Reference(id: ReferenceId)

  /** The entity types that implement `Referencable`. */
  datatype Target = StageTarget | PromptTarget | PolicyTarget | FlowTarget

  function NewUid(n: int): (r: Reference)
    ensures r.id.Uid? && r.id.uid == n
  {
    Reference(Uid(n))
  }

  function NewSlug(s: string): (r: Reference)
    ensures r.id.Slug? && r.id.slug == s
  {
    Reference(Slug(s))
  }

  /** `kind()`: which index a reference is looked up in. */
  function Kind(r: Reference): (k: ReferenceKind)
    ensures k == ByUid <==> r.id.Uid?
    ensures k == BySlug <==> r.id.Slug?
  {
    match r.id
    case Slug(_) => BySlug
    case Uid(_) => ByUid
  }

  /** `ref_uid()`: every entity of this crate exposes its uid. */
  function RefUid(target: Target, uid: int): (r: Option<Reference>)
    ensures r.Some? && r.value.id == Uid(uid)
  {
    Some(NewUid(uid))
  }

  /** `ref_slug()`: every entity but a prompt exposes its slug. */
  function RefSlug(target: Target, slug: string): (r: Option<Reference>)
    ensures r.Some? <==> target != PromptTarget
    ensures r.Some? ==> r.value.id == Slug(slug)
  {
    if target == PromptTarget then None else Some(NewSlug(slug))
  }

  /** The constructors and `kind()` agree, and equality is equality of ids. */
  lemma ConstructorsAndKind(n: int, s: string, a: Reference, b: Reference)
    ensures Kind(NewUid(n)) == ByUid && Kind(NewSlug(s)) == BySlug
    ensures a == b <==> a.id == b.id
  {
  }
}

=== FILE: model_stage.dfy ===
/**
  Stages of a flow, crate version (model/src/stage.rs): what each stage kind
  carries and whether the executor must stop at it for user input.
 */
module ModelStage {
  import opened Wrappers
  import ModelReference

  datatype PasswordBackend = Internal | Ldap

  datatype UserField = Email | Name | Uuid

  datatype PromptBinding = PromptBinding(order: int, prompt: ModelReference.ReferenceId)

  datatype ConsentMode = Always | Once | Until(duration: int)

  datatype StageKind =
    | Deny
    | Prompt(bindings: seq<PromptBinding>)
    | Identification(password: Option<ModelReference.ReferenceId>, userFields: seq<UserField>)
    | UserLogin
    | UserLogout
    | UserWrite
    | Password(backends: seq<PasswordBackend>)
    | Consent(mode: ConsentMode)

  datatype Stage = Stage(uid: int, slug: string, kind: StageKind, timeout: int)

  /**
    `StageKind::requires_input`: only the three server-side stages (login,
    logout, write) are passed through without a user submission.
   */
  function RequiresInput(k: StageKind): (r: bool)
    ensures !r <==> k.UserLogin? || k.UserLogout? || k.UserWrite?
  {
    match k
    case Deny => true
    case Prompt(_) => true
    case Identification(_, _) => true
    case UserLogin | UserLogout | UserWrite => false
    case Password(_) => true
    case Consent(_) => true
  }
}

=== FILE: model_tenant.dfy ===
/**
  Tenants (model/src/tenant.rs): per-host settings naming the flow to run
  for each flow designation.
 */
module ModelTenant {
  import opened Wrappers
  import ModelReference
  import ModelFlow

  type FlowRef = ModelReference.ReferenceId

  datatype Tenant = Tenant(
    uid: int,
    host: string,
    isDefault: bool,
    title: string,
    logo: string,
    favicon: string,
    invalidationFlow: Option<FlowRef>,
    authenticationFlow: Option<FlowRef>,
    authorizationFlow: Option<FlowRef>,
    enrollmentFlow: Option<FlowRef>,
    recoveryFlow: Option<FlowRef>,
    unenrollmentFlow: Option<FlowRef>,
    configurationFlow: Option<FlowRef>)

  /** The tenant with the flow for designation `d` replaced by `f`. */
  function SetFlow(t: Tenant, d: ModelFlow.FlowDesignation, f: Option<FlowRef>): Tenant
  {
    match d
    case Invalidation => t.(invalidationFlow := f)
    case Authentication => t.(authenticationFlow := f)
    case Authorization => t.(authorizationFlow := f)
    case Enrollment => t.(enrollmentFlow := f)
    case Recovery => t.(recoveryFlow := f)
    case Unenrollment => t.(unenrollmentFlow := f)
    case Configuration => t.(configurationFlow := f)
  }

  /** `get_flow` as written: the recovery designation reads the enrollment flow. */
  function GetFlowAsWritten(t: Tenant, d: ModelFlow.FlowDesignation): (r: Option<FlowRef>)
    ensures d == ModelFlow.Recovery ==> r == t.enrollmentFlow
    ensures d != ModelFlow.Recovery ==> r == GetFlow(t, d)
  {
    match d
    case Invalidation => t.invalidationFlow
    case Authentication => t.authenticationFlow
    case Authorization => t.authorizationFlow
    case Enrollment => t.enrollmentFlow
    case Recovery => t.enrollmentFlow
    case Unenrollment => t.unenrollmentFlow
    case Configuration => t.configurationFlow
  }

  /** `get_flow`, each designation reading the flow field of the same name. */
  function GetFlow(t: Tenant, d: ModelFlow.FlowDesignation): (r: Option<FlowRef>)
    ensures d == ModelFlow.Recovery ==> r == t.recoveryFlow
    ensures d == ModelFlow.Enrollment ==> r == t.enrollmentFlow
  {
    match d
    case Invalidation => t.invalidationFlow
    case Authentication => t.authenticationFlow
    case Authorization => t.authorizationFlow
    case Enrollment => t.enrollmentFlow
    case Recovery => t.recoveryFlow
    case Unenrollment => t.unenrollmentFlow
    case Configuration => t.configurationFlow
  }

  /** Each designation has a field of its own: setting it is seen by `get_flow` for that designation and for no other. */
  lemma GetFlowSetFlow(t: Tenant, d: ModelFlow.FlowDesignation, e: ModelFlow.FlowDesignation, f: Option<FlowRef>)
    ensures GetFlow(SetFlow(t, d, f), d) == f
    ensures e != d ==> GetFlow(SetFlow(t, d, f), e) == GetFlow(t, e)
  {
  }

  /** As written, the configured recovery flow is never returned: a tenant with only a recovery flow has none for recovery. */
  lemma RecoveryFlowUnreachableAsWritten(t: Tenant, f: FlowRef)
    requires t.enrollmentFlow.None?
    ensures GetFlowAsWritten(SetFlow(t, ModelFlow.Recovery, Some(f)), ModelFlow.Recovery).None?
    ensures GetFlow(SetFlow(t, ModelFlow.Recovery, Some(f)), ModelFlow.Recovery) == Some(f)
  {
  }

  /** A row of the tenants table; flows are nullable uids. */
  datatype PgTenant = PgTenant(
    uid: int,
    host: string,
    isDefault: bool,
    title: string,
    logo: string,
    favicon: string,
    invalidationFlow: Option<int>,
    authenticationFlow: Option<int>,
    authorizationFlow: Option<int>,
    enrollmentFlow: Option<int>,
    recoveryFlow: Option<int>,
    unenrollmentFlow: Option<int>,
    configurationFlow: Option<int>)

  function UidRef(o: Option<int>): (r: Option<FlowRef>)
    ensures r.Some? <==> o.Some?
    ensures r.Some? ==> r.value == ModelReference.Uid(o.value)
  {
    if o.Some? then Some(ModelReference.Uid(o.value)) else None
  }

  /** The flow column of a row for a designation, named as in `get_flow`. */
  function PgFlow(p: PgTenant, d: ModelFlow.FlowDesignation): Option<int>
  {
    match d
    case Invalidation => p.invalidationFlow
    case Authentication => p.authenticationFlow
    case Authorization => p.authorizationFlow
    case Enrollment => p.enrollmentFlow
    case Recovery => p.recoveryFlow
    case Unenrollment => p.unenrollmentFlow
    case Configuration => p.configurationFlow
  }

  /** `From<PgTenant>`: scalars copied, each flow column turned into a uid reference. */
  function FromPg(p: PgTenant): (t: Tenant)
    ensures t.uid == p.uid && t.host == p.host && t.isDefault == p.isDefault
    ensures t.title == p.title && t.logo == p.logo && t.favicon == p.favicon
    ensures forall d :: GetFlow(t, d) == UidRef(PgFlow(p, d))
  {
    Tenant(p.uid, p.host, p.isDefault, p.title, p.logo, p.favicon,
      UidRef(p.invalidationFlow), UidRef(p.authenticationFlow), UidRef(p.authorizationFlow),
      UidRef(p.enrollmentFlow), UidRef(p.recoveryFlow), UidRef(p.unenrollmentFlow), UidRef(p.configurationFlow))
  }
}

=== FILE: password.dfy ===
/**
  The password helpers of server/src/utils/password.rs.

  Hashing and verification are argon2 and are not modelled; their results
  are inputs. What remains is `handle_result`, which turns argon's
  "wrong password" error into an absent value so that callers can tell a
  failed check from a broken hash.
 */
module Password {
  import opened Wrappers

  /**
    The argon2 password-hash error: `Password` is the verification failure;
    every other variant (a malformed hash, bad parameters, ...) is carried
    by name only.
   */
  datatype ArgonError = Password | Other(name: string)

  /** `handle_result`. */
  function HandleResult<T>(result: Result<T, ArgonError>): (r: Result<Option<T>, ArgonError>)
    ensures result.Ok? ==> r == Ok(Some(result.value))
    ensures result == Err(Password) ==> r == Ok(None)
    ensures result.Err? && result.error != Password ==> r == Err(result.error)
  {
    match result
    case Ok(v) => Ok(Some(v))
    case Err(Password) => Ok(None)
    case Err(e) => Err(e)
  }

  /**
    Only a broken hash is an error; a verified password is `Some` and a
    wrong one `None`, and a present value is the one that came in.
   */
  lemma HandleResultClassifies<T>(result: Result<T, ArgonError>)
    ensures HandleResult(result).Err? <==> result.Err? && result.error != Password
    ensures HandleResult(result).Ok? ==> (HandleResult(result).value.Some? <==> result.Ok?)
    ensures HandleResult(result).Ok? && result.Ok? ==> HandleResult(result).value.value == result.value
  {
  }
}

=== FILE: routes_applications.dfy ===
/**
  The application routes of server/src/routes/applications.rs: who may see,
  change, delete and create an application, and how affected-row counts
  become responses.

  The `applications` table is a map from application id to its row; the
  table of application groups and of groups open to developers are sets of
  group names. The outcome of the session's role checks is an input. The
  only database failure modelled is an insert that hits a uniqueness
  constraint.
 */
module RoutesApplications {
  import opened Wrappers
  import opened UuidType
  import opened AuthInfo
  import opened ServerError

  /** The `application_kind` column: a web server or a single-page application. */
  datatype ApplicationKind = WebServer | Spa

  datatype ApplicationRow = ApplicationRow(
    name: string,
    applicationGroup: string,
    owner: Uuid,
    kind: ApplicationKind,
    system: bool,
    clientId: string,
    redirectUri: seq<string>)

  /** `AppInfo`: the owner and whether the application belongs to the system. */
  datatype AppInfo = AppInfo(owner: Uuid, system: bool)

  /** The caller may manage the application: it is theirs, or it is a system application and they are an admin. */
  predicate MayManage(app: AppInfo, session: SessionInfo) {
    session.user == app.owner || (app.system && HasRole(session, Admin))
  }

  /** `AppInfo::check`. */
  function Check(app: AppInfo, session: SessionInfo): (r: Result<(), ErrorKind>)
    ensures r.Ok? <==> MayManage(app, session)
    ensures r.Err? ==> r.error == ForbiddenKind()
  {
    if session.user == app.owner then Ok(())
    else if app.system && HasRole(session, Admin) then Ok(())
    else Err(ForbiddenKind())
  }

  /** An admin who does not own an ordinary application may not manage it. */
  lemma AdminNeedsOwnershipOfOrdinaryApps(app: AppInfo, session: SessionInfo)
    requires !app.system && session.user != app.owner
    ensures Check(app, session) == Err(ForbiddenKind())
  {
  }

  /** `AppInfo::from_row`. */
  function InfoOf(row: ApplicationRow): (r: AppInfo)
    ensures r.owner == row.owner && r.system == row.system
  {
    AppInfo(row.owner, row.system)
  }

  /** `TryFrom<Option<Row>> for AppInfo`: a missing row is not found. */
  function TryFromRow(row: Option<ApplicationRow>): (r: Result<AppInfo, ErrorKind>)
    ensures row.None? ==> r == Err(NotFoundKind())
    ensures row.Some? ==> r == Ok(InfoOf(row.value))
  {
    match row
    case None => Err(NotFoundKind())
    case Some(rw) => Ok(InfoOf(rw))
  }

  /** `AppInfo::check_by_id`. */
  function CheckById(apps: map<Uuid, ApplicationRow>, session: SessionInfo, id: Uuid): (r: Result<(), ErrorKind>)
    ensures id !in apps ==> r == Err(NotFoundKind())
    ensures id in apps ==> (r.Ok? <==> MayManage(InfoOf(apps[id]), session))
    ensures id in apps && r.Err? ==> r.error == ForbiddenKind()
  {
    var row := if id in apps then Some(apps[id]) else None;
    match TryFromRow(row)
    case Err(e) => Err(e)
    case Ok(info) => Check(info, session)
  }

  /** The affected-row rule of delete and replace: none is not found, more than one is an internal error. */
  function SingleRow(rows: nat): (r: Result<(), ErrorKind>)
    ensures rows == 1 <==> r.Ok?
    ensures rows == 0 ==> r == Err(Status(NotFound))
    ensures rows > 1 ==> r == Err(Status(InternalServerError))
  {
    if rows == 0 then Err(Status(NotFound))
    else if rows > 1 then Err(Status(InternalServerError))
    else Ok(())
  }

  /** The number of rows a statement keyed by `id` touches. */
  function RowsFor(apps: map<Uuid, ApplicationRow>, id: Uuid): (r: nat)
    ensures r == 1 <==> id in apps
    ensures r <= 1
  {
    if id in apps then 1 else 0
  }

  /** `delete`: developer check, then ownership, then the delete by id. */
  function Delete(apps: map<Uuid, ApplicationRow>, session: SessionInfo, developerCheck: Result<(), ErrorKind>, id: Uuid): (r: (map<Uuid, ApplicationRow>, Result<(), ErrorKind>))
    ensures r.1.Ok? <==> developerCheck.Ok? && id in apps && MayManage(InfoOf(apps[id]), session)
    ensures r.1.Ok? ==> r.0 == apps - {id}
    ensures r.1.Err? ==> r.0 == apps
    ensures developerCheck.Err? ==> r.1 == developerCheck
  {
    if developerCheck.Err? then (apps, developerCheck)
    else match CheckById(apps, session, id)
      case Err(e) => (apps, Err(e))
      case Ok(_) =>
        var rows := RowsFor(apps, id);
        (if rows == 1 then apps - {id} else apps, SingleRow(rows))
  }

  datatype ReplacePayload = ReplacePayload(name: string, redirectUri: seq<string>)

  /** `replace`: admin check, then ownership, then the update of name and redirect URIs. */
  function Replace(apps: map<Uuid, ApplicationRow>, session: SessionInfo, adminCheck: Result<(), ErrorKind>, id: Uuid, payload: ReplacePayload): (r: (map<Uuid, ApplicationRow>, Result<ApplicationRow, ErrorKind>))
    ensures r.1.Ok? <==> adminCheck.Ok? && id in apps && MayManage(InfoOf(apps[id]), session)
    ensures r.1.Ok? ==>
      && r.0 == apps[id := apps[id].(name := payload.name, redirectUri := payload.redirectUri)]
      && r.1.value == r.0[id]
    ensures r.1.Err? ==> r.0 == apps
  {
    if adminCheck.Err? then (apps, Err(adminCheck.error))
    else match CheckById(apps, session, id)
      case Err(e) => (apps, Err(e))
      case Ok(_) =>
        var rows := RowsFor(apps, id);
        match SingleRow(rows)
        case Err(e) => (apps, Err(e))
        case Ok(_) =>
          var apps' := apps[id := apps[id].(name := payload.name, redirectUri := payload.redirectUri)];
          (apps', Ok(apps'[id]))
  }

  /** `get`: the applications the caller owns, and the system applications when they are an admin. */
  function List(apps: map<Uuid, ApplicationRow>, session: SessionInfo, developerCheck: Result<(), ErrorKind>): (r: Result<map<Uuid, ApplicationRow>, ErrorKind>)
    ensures developerCheck.Err? ==> r == Err(developerCheck.error)
    ensures developerCheck.Ok? ==> r.Ok?
    ensures r.Ok? ==> forall id :: id in r.value ==> id in apps && r.value[id] == apps[id]
  {
    if developerCheck.Err? then Err(developerCheck.error)
    else Ok(map id | id in apps && (apps[id].owner == session.user || (apps[id].system && HasRole(session, Admin))) :: apps[id])
  }

  /** The listing shows exactly the applications the caller may manage. */
  lemma ListedIffManageable(apps: map<Uuid, ApplicationRow>, session: SessionInfo, id: Uuid)
    requires id in apps
    ensures List(apps, session, Ok(())).Ok?
    ensures id in List(apps, session, Ok(())).value <==> Check(InfoOf(apps[id]), session).Ok?
  {
  }

  datatype CreatePayload = CreatePayload(name: string, applicationGroup: string, kind: ApplicationKind, redirectUri: seq<string>, system: bool)

  /**
    `create`: a system application needs the admin check, any other the
    developer check; the group must exist among all groups for an admin and
    among the developer-allowed groups otherwise. The new row's id and
    client id come from the database; `conflict` says the insert hit a
    uniqueness constraint, so that `query_one` finds no returned row.
   */
  function Create(apps: map<Uuid, ApplicationRow>, session: SessionInfo, adminCheck: Result<(), ErrorKind>, developerCheck: Result<(), ErrorKind>, groups: set<string>, developerGroups: set<string>, payload: CreatePayload, id: Uuid, clientId: string, conflict: bool): (r: (map<Uuid, ApplicationRow>, Result<ApplicationRow, ErrorKind>))
    requires id !in apps
    ensures payload.system && adminCheck.Err? ==> r == (apps, Err(adminCheck.error))
    ensures !payload.system && developerCheck.Err? ==> r == (apps, Err(developerCheck.error))
    ensures r.1.Ok? ==>
      && (if payload.system then adminCheck.Ok? else developerCheck.Ok?)
      && payload.applicationGroup in (if HasRole(session, Admin) then groups else developerGroups)
      && !conflict
      && r.1.value.owner == session.user
      && r.1.value.system == payload.system
      && r.0 == apps[id := r.1.value]
    ensures ((if payload.system then adminCheck.Ok? else developerCheck.Ok?)
             && payload.applicationGroup !in (if HasRole(session, Admin) then groups else developerGroups)) ==>
        r.1 == Err(Api(ApiErrorData(BadRequest, "Unknown application_group '" + payload.applicationGroup + "'")))
    ensures r.1.Err? ==> r.0 == apps
    // past the checks, the insert stores and returns the payload's row unless it conflicts
    ensures (if payload.system then adminCheck.Ok? else developerCheck.Ok?)
            && payload.applicationGroup in (if HasRole(session, Admin) then groups else developerGroups) ==>
      && (conflict ==> r == (apps, Err(PostgresError)))
      && (!conflict ==>
            var row := ApplicationRow(payload.name, payload.applicationGroup, session.user, payload.kind, payload.system, clientId, payload.redirectUri);
            r == (apps[id := row], Ok(row)))
  {
    var check := if payload.system then adminCheck else developerCheck;
    if check.Err? then (apps, Err(check.error))
    else
      var known := if HasRole(session, Admin) then groups else developerGroups;
      if payload.applicationGroup !in known then
        (apps, Err(Api(ApiErrorData(BadRequest, "Unknown application_group '" + payload.applicationGroup + "'"))))
      else if conflict then (apps, Err(PostgresError))
      else
        var row := ApplicationRow(payload.name, payload.applicationGroup, session.user, payload.kind, payload.system, clientId, payload.redirectUri);
        (apps[id := row], Ok(row))
  }

  /** The creator of an application may manage it afterwards. */
  lemma CreatorMayManage(apps: map<Uuid, ApplicationRow>, session: SessionInfo, adminCheck: Result<(), ErrorKind>, developerCheck: Result<(), ErrorKind>, groups: set<string>, developerGroups: set<string>, payload: CreatePayload, id: Uuid, clientId: string, conflict: bool)
    requires id !in apps
    ensures var r := Create(apps, session, adminCheck, developerCheck, groups, developerGroups, payload, id, clientId, conflict);
      r.1.Ok? ==> CheckById(r.0, session, id).Ok?
  {
  }
}

=== FILE: routes_auth.dfy ===
/**
  The login, registration and logout handlers of server/src/routes/auth.rs.

  The `users` and `sessions` tables are a map from user name to the user's
  uid and stored hash, and the sequence of session rows. Password hashing
  and verification are argon2 and are inputs; the 255-character session
  token is drawn at random and is an input too. Database failures are not
  modelled.
 */
module RoutesAuth {
  import opened Wrappers
  import opened UuidType
  import opened Password
  import opened ServerError
  import Csrf

  const TokenLength: nat := 255

  /** A session token: 255 characters drawn from the ASCII letters and digits. */
  predicate IsSessionToken(t: string) {
    |t| == TokenLength && Csrf.AllAlnum(t)
  }

  datatype UserRow = UserRow(uid: Uuid, password: Option<string>)

  /** A `sessions` row; the address column is always written as null. */
  datatype SessionRow = SessionRow(userId: Uuid, token: string, address: Option<string>)

  datatype Db = Db(users: map<string, UserRow>, sessions: seq<SessionRow>)

  /** `failed`: the credentials error every rejected login answers with. */
  function Failed(): (r: ErrorKind)
    ensures !r.Oauth? && Response(r) == ResponseError(Unauthorized, Some("Invalid credentials"))
  {
    Auth(InvalidCredentials)
  }

  datatype Login = Login(db: Db, result: Result<string, ErrorKind>)

  /**
    `handle_login`: looks the user up by name, verifies the password and,
    before looking at the verification's verdict, inserts a session row with
    the fresh token. Only a broken stored hash fails before the insert.
   */
  function HandleLogin(db: Db, user: string, password: string, verify: (string, string) -> Result<(), ArgonError>, token: string): (r: Login)
    requires IsSessionToken(token)
    // an unknown name or a user without a password is refused and nothing is written
    ensures user !in db.users || db.users[user].password.None? ==> r == Login(db, Err(Failed()))
    ensures user in db.users && db.users[user].password.Some? ==>
      var row := db.users[user];
      var verdict := verify(row.password.value, password);
      && (verdict.Err? && verdict.error != ArgonError.Password ==> r == Login(db, Err(Argon(verdict.error))))
      && (verdict.Ok? || verdict.error == ArgonError.Password ==>
            r.db == db.(sessions := db.sessions + [SessionRow(row.uid, token, None)]))
    // success exactly on a verified password, and it returns the token that was stored
    ensures r.result.Ok? <==>
      user in db.users && db.users[user].password.Some? && verify(db.users[user].password.value, password).Ok?
    ensures r.result.Ok? ==> r.result.value == token && IsSessionToken(r.result.value)
    ensures r.result.Err? ==> r.result.error == Failed() || r.result.error.Argon?
    // a wrong password is reported as bad credentials, never as an argon failure
    ensures user in db.users && db.users[user].password.Some? && verify(db.users[user].password.value, password) == Err(ArgonError.Password) ==>
      r.result == Err(Failed())
  {
    if user !in db.users then Login(db, Err(Failed()))
    else
      var row := db.users[user];
      match row.password
      case None => Login(db, Err(Failed()))
      case Some(hash) =>
        match HandleResult(verify(hash, password))
        case Err(e) => Login(db, Err(Argon(e)))
        case Ok(passed) =>
          var db' := db.(sessions := db.sessions + [SessionRow(row.uid, token, None)]);
          if passed.Some? then Login(db', Ok(token)) else Login(db', Err(Failed()))
  }

  /**
    A wrong password for an existing user still leaves a new session row
    behind, although the client only receives 401 and never learns the token.
   */
  lemma WrongPasswordStillInsertsSession(db: Db, user: string, password: string, verify: (string, string) -> Result<(), ArgonError>, token: string)
    requires IsSessionToken(token)
    requires user in db.users && db.users[user].password.Some?
    requires verify(db.users[user].password.value, password) == Err(ArgonError.Password)
    ensures var r := HandleLogin(db, user, password, verify, token);
      && r.result == Err(Failed())
      && IntoResponse(FromKind(r.result.error)).status == Unauthorized
      && |r.db.sessions| == |db.sessions| + 1
      && r.db.sessions[|db.sessions|].token == token
  {
  }

  /** A successful login's token finds its user's session row. */
  lemma LoginTokenFindsSession(db: Db, user: string, password: string, verify: (string, string) -> Result<(), ArgonError>, token: string)
    requires IsSessionToken(token)
    ensures var r := HandleLogin(db, user, password, verify, token);
      r.result.Ok? ==>
        exists i | 0 <= i < |r.db.sessions| :: r.db.sessions[i].token == r.result.value && r.db.sessions[i].userId == db.users[user].uid
  {
    var r := HandleLogin(db, user, password, verify, token);
    if r.result.Ok? {
      assert r.db.sessions[|db.sessions|].token == token;
    }
  }

  /** The SameSite attribute; `NoSameSite` is the library's `SameSite::None`, renamed to keep clear of `Option`. */
  datatype SameSite = Strict | Lax | NoSameSite

  datatype Cookie = Cookie(name: string, value: string, httpOnly: bool, path: string, secure: bool, sameSite: SameSite)

  /** `make_cookies`: the session cookie sent after a browser login. */
  function MakeCookie(name: string, token: string): (r: Cookie)
    ensures r.name == name && r.value == token
    ensures r.httpOnly && r.path == "/" && !r.secure && r.sameSite == NoSameSite
  {
    Cookie(name, token, true, "/", false, NoSameSite)
  }

  /** `browser_login`: the login's token goes into the session cookie instead of the body. */
  function BrowserLogin(db: Db, user: string, password: string, verify: (string, string) -> Result<(), ArgonError>, token: string, cookieName: string): (r: (Db, Result<Cookie, ErrorKind>))
    requires IsSessionToken(token)
    ensures r.0 == HandleLogin(db, user, password, verify, token).db
    ensures r.1.Ok? <==> HandleLogin(db, user, password, verify, token).result.Ok?
    ensures r.1.Ok? ==> r.1.value.value == token && r.1.value.httpOnly
    ensures r.1.Err? ==> r.1.error == HandleLogin(db, user, password, verify, token).result.error
  {
    var login := HandleLogin(db, user, password, verify, token);
    match login.result
    case Ok(t) => (login.db, Ok(MakeCookie(cookieName, t)))
    case Err(e) => (login.db, Err(e))
  }

  /**
    `register`: hashes the password, then inserts the user unless the name
    is taken; an existing name is silently accepted and left unchanged.
   */
  function Register(db: Db, user: string, hashed: Result<string, ArgonError>, uid: Uuid): (r: (Db, Result<(), ErrorKind>))
    ensures hashed.Err? ==> r == (db, Err(Argon(hashed.error)))
    ensures hashed.Ok? ==> r.1 == Ok(())
    ensures hashed.Ok? && user in db.users ==> r.0 == db
    ensures hashed.Ok? && user !in db.users ==>
      && r.0.sessions == db.sessions
      && r.0.users == db.users[user := UserRow(uid, Some(hashed.value))]
  {
    match hashed
    case Err(e) => (db, Err(Argon(e)))
    case Ok(hash) =>
      if user in db.users then (db, Ok(()))
      else (db.(users := db.users[user := UserRow(uid, Some(hash))]), Ok(()))
  }

  /** Registering then logging in with the same password succeeds for a new name. */
  lemma RegisterThenLogin(db: Db, user: string, hash: string, uid: Uuid, password: string, verify: (string, string) -> Result<(), ArgonError>, token: string)
    requires user !in db.users && IsSessionToken(token)
    requires verify(hash, password).Ok?
    ensures var db' := Register(db, user, Ok(hash), uid).0;
      HandleLogin(db', user, password, verify, token).result == Ok(token)
  {
  }

  /** `delete from sessions where token = $1`. */
  function DeleteSessions(sessions: seq<SessionRow>, token: string): (r: seq<SessionRow>)
    ensures forall s :: s in r <==> s in sessions && s.token != token
    ensures |r| <= |sessions|
  {
    if |sessions| == 0 then []
    else if sessions[0].token == token then DeleteSessions(sessions[1..], token)
    else [sessions[0]] + DeleteSessions(sessions[1..], token)
  }

  /** `logout`: the reply, and whether it removes the session cookie. */
  datatype Logout = Logout(db: Db, removesCookie: bool)

  function HandleLogout(db: Db, cookie: Option<string>): (r: Logout)
    ensures cookie.None? ==> r == Logout(db, false)
    ensures cookie.Some? ==>
      && r.removesCookie
      && r.db.users == db.users
      && (forall s :: s in r.db.sessions <==> s in db.sessions && s.token != cookie.value)
  {
    match cookie
    case None => Logout(db, false)
    case Some(token) => Logout(db.(sessions := DeleteSessions(db.sessions, token)), true)
  }

  /** After logging out with a token, logging in again is needed: no session row carries it. */
  lemma LogoutForgetsToken(db: Db, token: string)
    ensures forall i | 0 <= i < |HandleLogout(db, Some(token)).db.sessions| :: HandleLogout(db, Some(token)).db.sessions[i].token != token
  {
    var sessions := HandleLogout(db, Some(token)).db.sessions;
    forall i | 0 <= i < |sessions| ensures sessions[i].token != token {
      assert sessions[i] in sessions;
    }
  }
}

=== FILE: routes_oauth.dfy ===
/**
  The OAuth authorisation check of server/src/routes/oauth.rs: the query
  parameters (response type and space-separated scopes, sections 3.1.1 and
  3.3 of RFC 6749) and the client id and secret validation.

  The `applications` table is a map from client id to the stored client
  secret. The handler's remaining steps after the secret check are
  unfinished (`todo!()`) and are not part of this model.
 */
module RoutesOauth {
  import opened Wrappers
  import ServerError

  /** `ResponseType`, deserialised from lower-case names only. */
  datatype ResponseType = Code | Token

  function ParseResponseType(s: string): (r: Option<ResponseType>)
    ensures r == Some(Code) <==> s == "code"
    ensures r == Some(Token) <==> s == "token"
    ensures r.None? <==> s != "code" && s != "token"
  {
    if s == "code" then Some(Code) else if s == "token" then Some(Token) else None
  }

  /** The name a response type is serialised under. */
  function ResponseTypeName(t: ResponseType): (r: string)
  {
    match t
    case Code => "code"
    case Token => "token"
  }

  /** Serialising and parsing a response type are inverse. */
  lemma ResponseTypeRoundTrip(t: ResponseType)
    ensures ParseResponseType(ResponseTypeName(t)) == Some(t)
  {
  }

  const Space: char := ' '

  /** Splitting at every separator, as `str::split` does: n separators give n + 1 pieces, possibly empty. */
  function SplitOn(s: string, sep: char): (r: seq<string>)
    ensures |r| >= 1
    ensures forall i | 0 <= i < |r| :: sep !in r[i]
  {
    if |s| == 0 then [""]
    else
      var rest := SplitOn(s[1..], sep);
      if s[0] == sep then [""] + rest
      else [[s[0]] + rest[0]] + rest[1..]
  }

  /** Joining pieces with the separator between neighbours. */
  function JoinWith(parts: seq<string>, sep: char): (r: string)
    requires |parts| >= 1
  {
    if |parts| == 1 then parts[0] else parts[0] + [sep] + JoinWith(parts[1..], sep)
  }

  /** Splitting loses nothing: joining the pieces gives the text back. */
  lemma {:induction false} JoinSplit(s: string, sep: char)
    ensures JoinWith(SplitOn(s, sep), sep) == s
    decreases |s|
  {
    if |s| > 0 {
      var rest := SplitOn(s[1..], sep);
      JoinSplit(s[1..], sep);
      if s[0] == sep {
        assert SplitOn(s, sep) == [""] + rest;
        assert ([""] + rest)[1..] == rest;
        assert s == [] + [sep] + s[1..];
      } else {
        var r := SplitOn(s, sep);
        assert r == [[s[0]] + rest[0]] + rest[1..];
        if |rest| == 1 {
          assert s == [s[0]] + s[1..];
        } else {
          assert r[1..] == rest[1..];
          assert JoinWith(rest, sep) == rest[0] + [sep] + JoinWith(rest[1..], sep);
          assert s == [s[0]] + s[1..];
        }
      }
    }
  }

  /** Pieces free of the separator come back from splitting their join. */
  lemma {:induction false} SplitJoin(parts: seq<string>, sep: char)
    requires |parts| >= 1
    requires forall i | 0 <= i < |parts| :: sep !in parts[i]
    ensures SplitOn(JoinWith(parts, sep), sep) == parts
    decreases |parts|, |parts[0]|
  {
    if |parts[0]| > 0 {
      var p := parts[0];
      var tail := [p[1..]] + parts[1..];
      assert sep !in p[1..];
      forall i | 0 <= i < |tail| ensures sep !in tail[i] {
        if i > 0 { assert tail[i] == parts[i]; }
      }
      SplitJoin(tail, sep);
      var j := JoinWith(parts, sep);
      var jt := JoinWith(tail, sep);
      if |parts| == 1 {
        assert j == p && jt == p[1..];
      } else {
        assert tail[1..] == parts[1..];
        assert jt == p[1..] + [sep] + JoinWith(parts[1..], sep);
        assert j == p + [sep] + JoinWith(parts[1..], sep);
      }
      assert j == [p[0]] + jt;
      assert j[0] == p[0] && j[1..] == jt;
      assert p[0] != sep by { assert p[0] in p; }
      assert SplitOn(j, sep) == [[p[0]] + tail[0]] + tail[1..];
      assert [p[0]] + p[1..] == p;
    } else if |parts| > 1 {
      SplitJoin(parts[1..], sep);
      var j := JoinWith(parts, sep);
      assert j == [sep] + JoinWith(parts[1..], sep);
      assert j[0] == sep && j[1..] == JoinWith(parts[1..], sep);
      assert parts == [""] + parts[1..];
    }
  }

  /**
    The `scopes` parameter: the empty text is no scope, any other text is
    split at every space, so doubled spaces give empty scopes.
   */
  function ParseScopes(s: string): (r: seq<string>)
    ensures s == "" ==> r == []
    ensures s != "" ==> |r| >= 1 && JoinWith(r, Space) == s
    ensures forall i | 0 <= i < |r| :: Space !in r[i]
  {
    if s == "" then [] else JoinSplit(s, Space); SplitOn(s, Space)
  }

  /** Scope lists written space-separated parse back to themselves. */
  lemma ScopesRoundTrip(scopes: seq<string>)
    requires |scopes| >= 1 && JoinWith(scopes, Space) != ""
    requires forall i | 0 <= i < |scopes| :: Space !in scopes[i]
    ensures ParseScopes(JoinWith(scopes, Space)) == scopes
  {
    SplitJoin(scopes, Space);
  }

  /** `OAuthParameters`. */
  datatype OAuthParameters = OAuthParameters(
    clientId: string,
    clientSecret: Option<string>,
    responseType: ResponseType,
    redirectUri: string,
    scopes: seq<string>)

  /** The stored application a client id names; only its secret matters to the authorization. */
  datatype Application = Application(clientSecret: Option<string>, applicationGroup: string)

  /**
    The client validation of `authorize_check`: the client id must name an
    application, and an application with a secret requires exactly that
    secret; one without a secret accepts any parameter.
   */
  function AuthorizeClient(apps: map<string, Application>, p: OAuthParameters): (r: Result<Application, ServerError.OAuthError>)
    ensures p.clientId !in apps ==> r == Err(ServerError.UnknownApplication)
    ensures p.clientId in apps ==>
      && (r.Ok? <==> apps[p.clientId].clientSecret.None? || p.clientSecret == apps[p.clientId].clientSecret)
      && (r.Ok? ==> r.value == apps[p.clientId])
      && (r.Err? ==> r.error == ServerError.InvalidClientSecret)
  {
    if p.clientId !in apps then Err(ServerError.UnknownApplication)
    else
      var app := apps[p.clientId];
      match app.clientSecret
      case None => Ok(app)
      case Some(secret) =>
        if p.clientSecret.None? || p.clientSecret.value != secret then Err(ServerError.InvalidClientSecret)
        else Ok(app)
  }
}

=== FILE: routes_user.dfy ===
/**
  The user administration routes of server/src/routes/user.rs: pagination
  of the listing, the guard that keeps at least one active administrator,
  and how affected-row counts become responses.

  The `users` table is a map from user id to its row; the listing reads the
  table as a sequence in the database's scan order. The outcome of the
  session's admin check and the password hash are inputs. The only database
  failure modelled is a missing row under `query_one` in `me`.
 */
module RoutesUser {
  import opened Wrappers
  import opened UuidType
  import opened AuthInfo
  import opened Password
  import opened ServerError

  type U8 = x: int | 0 <= x < 0x100
  type U16 = x: int | 0 <= x < 0x1_0000

  const I64Min: int := -0x8000_0000_0000_0000
  const I64Max: int := 0x7fff_ffff_ffff_ffff
  const Conflict: nat := 409

  const DefaultPage: U8 := 1
  const DefaultPerPage: U16 := 25

  /** `Pagination`. */
  datatype Pagination = Pagination(page: U8, perPage: U16)

  /** Deserialising the query: each missing parameter takes its default. */
  function PaginationFrom(page: Option<U8>, perPage: Option<U16>): (r: Pagination)
    ensures r.page == (if page.Some? then page.value else 1)
    ensures r.perPage == (if perPage.Some? then perPage.value else 25)
  {
    Pagination(page.UnwrapOr(DefaultPage), perPage.UnwrapOr(DefaultPerPage))
  }

  /** `u8::saturating_sub`. */
  function SaturatingSubU8(a: U8, b: U8): (r: U8)
    ensures r == (if a >= b then a - b else 0)
  {
    if a >= b then a - b else 0
  }

  /** `i64::saturating_mul`. */
  function SaturatingMulI64(a: int, b: int): (r: int)
    ensures I64Min <= a * b <= I64Max ==> r == a * b
    ensures I64Min <= r <= I64Max
  {
    var p := a * b;
    if p > I64Max then I64Max else if p < I64Min then I64Min else p
  }

  /** `Pagination::limit`. */
  function Limit(p: Pagination, max: U16): (r: int)
    ensures r <= p.perPage && r <= max
    ensures r == p.perPage || r == max
    ensures 0 <= r < 0x1_0000
  {
    if p.perPage <= max then p.perPage else max
  }

  lemma OffsetFits(limit: int, factor: int)
    requires 0 <= limit < 0x1_0000 && 0 <= factor < 0x100
    ensures 0 <= limit * factor < 0x1_0000 * 0x100 <= I64Max
  {
    assert limit * factor <= limit * 0xff <= 0xffff * 0xff;
  }

  /** `Pagination::offset`: the saturating product never saturates, since it is below 2^24. */
  function Offset(p: Pagination, max: U16): (r: int)
    ensures r == Limit(p, max) * (if p.page == 0 then 0 else p.page - 1)
    ensures r >= 0
  {
    var limit := Limit(p, max);
    var factor := SaturatingSubU8(p.page, 1);
    OffsetFits(limit, factor);
    SaturatingMulI64(limit, factor)
  }

  /** Page 0 is page 1. */
  lemma PageZeroIsPageOne(p: Pagination, max: U16)
    requires p.page == 0
    ensures Offset(p, max) == Offset(p.(page := 1), max) == 0
  {
  }

  /** Each page starts where the previous one ends. */
  lemma PagesTile(p: Pagination, max: U16)
    requires 1 <= p.page < 0xff
    ensures Offset(p.(page := p.page + 1), max) == Offset(p, max) + Limit(p, max)
  {
    var l := Limit(p, max);
    assert l * p.page == l * (p.page - 1) + l;
  }

  function Min(a: int, b: int): int { if a < b then a else b }

  /** `select * from users limit $1 offset $2` over the table in scan order. */
  function Page<T>(rows: seq<T>, p: Pagination, max: U16): (r: seq<T>)
    ensures |r| <= Limit(p, max)
    ensures Offset(p, max) <= |rows| ==> r == rows[Offset(p, max)..Min(Offset(p, max) + Limit(p, max), |rows|)]
    ensures Offset(p, max) >= |rows| ==> r == []
  {
    var start := Min(Offset(p, max), |rows|);
    rows[start..Min(Offset(p, max) + Limit(p, max), |rows|)]
  }

  /** Consecutive pages are adjacent slices of the table: nothing is skipped or repeated. */
  lemma ConsecutivePages<T>(rows: seq<T>, p: Pagination, max: U16)
    requires 1 <= p.page < 0xff
    ensures var next := p.(page := p.page + 1);
      var start := Min(Offset(p, max), |rows|);
      Page(rows, p, max) + Page(rows, next, max) == rows[start..Min(Offset(p, max) + 2 * Limit(p, max), |rows|)]
  {
    PagesTile(p, max);
  }

  datatype UserRow = UserRow(
    name: string,
    email: Option<string>,
    active: bool,
    roles: seq<UserRole>,
    customer: bool,
    requirePasswordReset: bool,
    password: Option<string>)

  predicate ActiveAdmin(u: UserRow) {
    u.active && Admin in u.roles
  }

  /** `is_last_admin`: no other user is an active admin (whether or not `id` itself is one). */
  predicate IsLastAdmin(users: map<Uuid, UserRow>, id: Uuid) {
    !exists other | other in users && other != id :: ActiveAdmin(users[other])
  }

  predicate HasActiveAdmin(users: map<Uuid, UserRow>) {
    exists id | id in users :: ActiveAdmin(users[id])
  }

  /** The affected-row rule of create, delete and replace: one is success, none a conflict, more an internal error. */
  function AffectedRows(rows: nat): (r: Result<(), ErrorKind>)
    ensures rows == 1 <==> r.Ok?
    ensures rows == 0 ==> r == Err(Status(Conflict))
    ensures rows > 1 ==> r == Err(InternalKind())
  {
    if rows == 1 then Ok(()) else if rows == 0 then Err(Status(Conflict)) else Err(InternalKind())
  }

  /** `delete`: refused for the last active admin. */
  function Delete(users: map<Uuid, UserRow>, adminCheck: Result<(), ErrorKind>, id: Uuid): (r: (map<Uuid, UserRow>, Result<(), ErrorKind>))
    ensures adminCheck.Err? ==> r == (users, adminCheck)
    ensures adminCheck.Ok? && IsLastAdmin(users, id) ==> r == (users, Err(ForbiddenKind()))
    ensures adminCheck.Ok? && !IsLastAdmin(users, id) ==>
      && (id in users ==> r == (users - {id}, Ok(())))
      && (id !in users ==> r == (users, Err(Status(Conflict))))
  {
    if adminCheck.Err? then (users, adminCheck)
    else if IsLastAdmin(users, id) then (users, Err(ForbiddenKind()))
    else
      var rows := if id in users then 1 else 0;
      (if rows == 1 then users - {id} else users, AffectedRows(rows))
  }

  datatype ReplacePayload = ReplacePayload(
    name: string,
    email: Option<string>,
    active: bool,
    roles: seq<UserRole>,
    customer: bool,
    requirePasswordReset: bool)

  /** The row after `update users set ...`: every payload field, the password kept. */
  function Updated(u: UserRow, p: ReplacePayload): (r: UserRow)
    ensures r.password == u.password
    ensures r.name == p.name && r.email == p.email && r.active == p.active && r.roles == p.roles
    ensures r.customer == p.customer && r.requirePasswordReset == p.requirePasswordReset
  {
    UserRow(p.name, p.email, p.active, p.roles, p.customer, p.requirePasswordReset, u.password)
  }

  /** `replace`: a change that drops the target's admin standing is refused if it is the last active admin. */
  function Replace(users: map<Uuid, UserRow>, adminCheck: Result<(), ErrorKind>, id: Uuid, payload: ReplacePayload): (r: (map<Uuid, UserRow>, Result<(), ErrorKind>))
    ensures adminCheck.Err? ==> r == (users, adminCheck)
    ensures adminCheck.Ok? && (!payload.active || Admin !in payload.roles) && IsLastAdmin(users, id) ==>
      r == (users, Err(ForbiddenKind()))
    ensures r.1.Ok? <==>
      adminCheck.Ok? && id in users && !((!payload.active || Admin !in payload.roles) && IsLastAdmin(users, id))
    ensures r.1.Ok? ==> r.0 == users[id := Updated(users[id], payload)]
    ensures r.1.Err? ==> r.0 == users
  {
    if adminCheck.Err? then (users, adminCheck)
    else if (!payload.active || Admin !in payload.roles) && IsLastAdmin(users, id) then (users, Err(ForbiddenKind()))
    else
      var rows := if id in users then 1 else 0;
      (if rows == 1 then users[id := Updated(users[id], payload)] else users, AffectedRows(rows))
  }

  /** A successful delete always leaves an active admin behind. */
  lemma DeleteKeepsAnAdmin(users: map<Uuid, UserRow>, adminCheck: Result<(), ErrorKind>, id: Uuid)
    ensures var r := Delete(users, adminCheck, id);
      r.1.Ok? ==> HasActiveAdmin(r.0)
  {
    var r := Delete(users, adminCheck, id);
    if r.1.Ok? {
      var other :| other in users && other != id && ActiveAdmin(users[other]);
      assert other in r.0 && r.0[other] == users[other];
    }
  }

  /** A successful replace always leaves an active admin behind. */
  lemma ReplaceKeepsAnAdmin(users: map<Uuid, UserRow>, adminCheck: Result<(), ErrorKind>, id: Uuid, payload: ReplacePayload)
    ensures var r := Replace(users, adminCheck, id, payload);
      r.1.Ok? ==> HasActiveAdmin(r.0)
  {
    var r := Replace(users, adminCheck, id, payload);
    if r.1.Ok? {
      if payload.active && Admin in payload.roles {
        assert ActiveAdmin(r.0[id]);
      } else {
        var other :| other in users && other != id && ActiveAdmin(users[other]);
        assert other in r.0 && r.0[other] == users[other];
      }
    }
  }

  datatype CreatePayload = CreatePayload(name: string, password: string, roles: seq<UserRole>)

  predicate NameTaken(users: map<Uuid, UserRow>, name: string) {
    exists id | id in users :: users[id].name == name
  }

  /**
    `create`: admin check, then the hash, then an insert that does nothing
    when the name is taken. The new row must reset its password and is not
    a customer; its id and the columns the insert leaves to their defaults
    (`email`, `active`) are inputs.
   */
  function Create(users: map<Uuid, UserRow>, adminCheck: Result<(), ErrorKind>, payload: CreatePayload, hashed: Result<string, ArgonError>, id: Uuid, email: Option<string>, active: bool): (r: (map<Uuid, UserRow>, Result<(), ErrorKind>))
    requires id !in users
    ensures adminCheck.Err? ==> r == (users, adminCheck)
    ensures adminCheck.Ok? && hashed.Err? ==> r == (users, Err(Argon(hashed.error)))
    ensures adminCheck.Ok? && hashed.Ok? && NameTaken(users, payload.name) ==> r == (users, Err(Status(Conflict)))
    ensures r.1.Ok? <==> adminCheck.Ok? && hashed.Ok? && !NameTaken(users, payload.name)
    ensures r.1.Ok? ==>
      r.0 == users[id := UserRow(payload.name, email, active, payload.roles, false, true, Some(hashed.value))]
  {
    if adminCheck.Err? then (users, adminCheck)
    else match hashed
      case Err(e) => (users, Err(Argon(e)))
      case Ok(hash) =>
        var rows := if NameTaken(users, payload.name) then 0 else 1;
        (if rows == 1 then users[id := UserRow(payload.name, email, active, payload.roles, false, true, Some(hash))] else users, AffectedRows(rows))
  }

  /** `user`: one user's row for an admin; an unknown id is not found. */
  function GetUser(users: map<Uuid, UserRow>, adminCheck: Result<(), ErrorKind>, id: Uuid): (r: Result<UserRow, ErrorKind>)
    ensures adminCheck.Err? ==> r == Err(adminCheck.error)
    ensures adminCheck.Ok? && id !in users ==> r == Err(NotFoundKind())
    ensures r.Ok? <==> adminCheck.Ok? && id in users
    ensures r.Ok? ==> r.value == users[id]
  {
    if adminCheck.Err? then Err(adminCheck.error)
    else if id in users then Ok(users[id]) else Err(NotFoundKind())
  }

  /** `list`: one page of the table for an admin. */
  function List(rows: seq<UserRow>, adminCheck: Result<(), ErrorKind>, p: Pagination, max: U16): (r: Result<seq<UserRow>, ErrorKind>)
    ensures adminCheck.Err? <==> r.Err?
    ensures r.Err? ==> r.error == adminCheck.error
    ensures r.Ok? ==> |r.value| <= Limit(p, max)
    ensures r.Ok? ==> forall u :: u in r.value ==> u in rows
    // the rows are the requested page of the table, so consecutive requests tile it
    ensures r.Ok? ==> r.value == Page(rows, p, max)
  {
    if adminCheck.Err? then Err(adminCheck.error) else Ok(Page(rows, p, max))
  }

  /** What `me` returns about the caller. */
  datatype EncodedUser = EncodedUser(name: string, roles: seq<UserRole>, requirePasswordReset: bool)

  /**
    `me`: the signed-in user's name, roles and reset flag. The lookup uses
    `query_one`, so a session whose user row is gone is a database error.
   */
  function Me(users: map<Uuid, UserRow>, user: Uuid): (r: Result<EncodedUser, ErrorKind>)
    ensures r.Ok? <==> user in users
    ensures r.Err? ==> r.error == PostgresError
    ensures r.Ok? ==>
      && r.value.name == users[user].name
      && r.value.roles == users[user].roles
      && r.value.requirePasswordReset == users[user].requirePasswordReset
  {
    if user in users then
      var u := users[user];
      Ok(EncodedUser(u.name, u.roles, u.requirePasswordReset))
    else Err(PostgresError)
  }
}

=== FILE: server_flow.dfy ===
/** Flow bindings and entries, server version (server/src/model/flow.rs). */
module ServerFlow {
  import opened UuidType
  import ModelReference

  datatype FlowBindingKind = Group(group: Uuid) | User(user: Uuid) | Policy(policy: ModelReference.ReferenceId)

  datatype FlowBinding = FlowBinding(enabled: bool, negate: bool, order: int, kind: FlowBindingKind)

  datatype FlowEntry = FlowEntry(ordering: int, bindings: seq<FlowBinding>, stage: ModelReference.ReferenceId)
}

=== FILE: server_policy.dfy ===
/**
  Policies, server version (server/src/model/policy.rs), and the one policy the
  executor can evaluate: password expiry.
 */
module ServerPolicy {
  import ExecutorContext

  datatype PolicyKind = PasswordExpiry(maxAge: int) | PasswordStrength | Expression

  datatype Policy = Policy(uid: int, slug: string, kind: PolicyKind)

  datatype PolicyResult = NotApplicable | Value(b: bool)

  /** `From<bool> for PolicyResult`. */
  function FromBool(b: bool): PolicyResult
  {
    Value(b)
  }

  /** A boolean always gives an applicable result, and distinct booleans give distinct results. */
  lemma FromBoolIsApplicableAndInjective(a: bool, b: bool)
    ensures FromBool(a) != NotApplicable
    ensures FromBool(a) == FromBool(b) <==> a == b
  {
  }

  /** The password of the context's user is older than `maxAge` seconds, strictly. */
  predicate PasswordExpired(ctx: ExecutorContext.ExecutionContext, maxAge: int)
    requires ctx.user.Some?
  {
    ctx.startTime - ctx.user.value.passwordChangeDate > maxAge * ExecutorContext.NanosPerSecond
  }

  /**
    `PolicyKind::validate`. Only password expiry is implemented (the other
    kinds are `todo!()`): not applicable without a user, otherwise whether the
    password has expired.
   */
  function Validate(k: PolicyKind, ctx: ExecutorContext.ExecutionContext): (r: PolicyResult)
    requires k.PasswordExpiry?
    ensures r.NotApplicable? <==> ctx.user.None?
    ensures r.Value? ==> r.b == PasswordExpired(ctx, k.maxAge)
  {
    match ctx.user
    case None => NotApplicable
    case Some(user) => FromBool(ctx.startTime - user.passwordChangeDate > k.maxAge * ExecutorContext.NanosPerSecond)
  }

  /**
    Expiry is monotone in `max_age`: a password still valid under one limit is
    valid under every larger one, and a password exactly `max_age` old is valid.
   */
  lemma ValidateMonotone(ctx: ExecutorContext.ExecutionContext, m: int, m': int)
    requires m <= m'
    ensures Validate(PasswordExpiry(m), ctx) == Value(false) ==> Validate(PasswordExpiry(m'), ctx) == Value(false)
    ensures ctx.user.Some? && ctx.startTime - ctx.user.value.passwordChangeDate == m * ExecutorContext.NanosPerSecond ==>
      Validate(PasswordExpiry(m), ctx) == Value(false)
  {
  }
}

=== FILE: server_reference.dfy ===
/**
  Typed references, server version (server/src/model/reference.rs). The
  types, the constructors, `kind()` and `ref_slug()` are those of
  `ModelReference`; only `ref_uid()` differs, because the server's flows have
  no uid reference.
 */
module ServerReference {
  import opened Wrappers
  import ModelReference

  /** `ref_uid()`: every entity but a flow exposes its uid; a flow is only known by slug. */
  function RefUid(target: ModelReference.Target, uid: int): (r: Option<ModelReference.Reference>)
    ensures r.Some? <==> target != ModelReference.FlowTarget
    ensures r.Some? ==> r.value.id == ModelReference.Uid(uid)
  {
    if target == ModelReference.FlowTarget then None else Some(ModelReference.NewUid(uid))
  }

  /** The two versions agree on every target but a flow. */
  lemma RefUidAgreesExceptFlows(target: ModelReference.Target, uid: int)
    ensures target != ModelReference.FlowTarget <==> RefUid(target, uid) == ModelReference.RefUid(target, uid)
  {
  }
}

=== FILE: server_stage.dfy ===
/**
  Stages of a flow, server version (server/src/model/stage.rs): what each stage kind
  carries and whether the executor must stop at it for user input.
 */
module ServerStage {
  import opened Wrappers
  import ModelReference

  datatype PasswordBackend = Internal | Ldap

  datatype UserField = Email | Name | Uuid

  datatype PromptBinding = PromptBinding(order: int, prompt: ModelReference.ReferenceId)

  datatype ConsentMode = Always | Once | Until(duration: int)

  datatype StageKind =
    | Deny
    | Prompt(bindings: seq<PromptBinding>)
    | Identification(password: Option<ModelReference.ReferenceId>, userFields: seq<UserField>)
    | UserLogin
    | UserLogout
    | UserWrite
    | Password(backends: seq<PasswordBackend>)
    | Consent(mode: ConsentMode)

  datatype Stage = Stage(uid: int, slug: string, kind: StageKind, timeout: int)

  /**
    `StageKind::requires_input`: only the three server-side stages (login,
    logout, write) are passed through without a user submission.
   */
  function RequiresInput(k: StageKind): (r: bool)
    ensures !r <==> k.UserLogin? || k.UserLogout? || k.UserWrite?
  {
    match k
    case Deny => true
    case Prompt(_) => true
    case Identification(_, _) => true
    case UserLogin | UserLogout | UserWrite => false
    case Password(_) => true
    case Consent(_) => true
  }
}

=== FILE: sql_tx.dfy ===
/**
  The per-request database transaction of server/src/api/sql_tx.rs.

  A `Slot` is a shared cell that holds at most one value; `lease` takes the
  value out and hands it to a `Lease`, which remembers the slot weakly.
  Dropping a lease that still holds its value puts the value back if the
  slot is still alive; `steal` takes the value for good. The middleware
  creates one slot per request for a lazily begun transaction, lets the
  handler extract it (at most one extractor at a time), and after a 2xx
  response commits the transaction if it came back into its slot.

  Locks are modelled sequentially: every `try_lock` succeeds. The slots
  alive at one moment are a map from slot ids to cells; a slot that has been
  consumed by `into_inner` is absent from the map, which is what makes a
  weak reference to it fail to upgrade. The pool's `begin`, the commit and
  the handler's response are inputs.
 */
module SqlTx {
  import opened Wrappers

  type SlotId = nat

  /** The live slots; a cell is `None` while its value is leased out or after it was taken. */
  datatype Slots<T> = Slots(cells: map<SlotId, Option<T>>, next: SlotId)
  {
    predicate Valid() {
      forall id | id in cells :: id < next
    }
  }

  /** No slot has been created yet. */
  function NoSlots<T>(): Slots<T>
  {
    Slots(map[], 0)
  }

  /** The state of a lease: it holds the value and a weak reference to its slot, or it has been stolen or dropped. */
  datatype Inner<T> = Value(value: T, slot: SlotId) | Stolen | Dropped

  /** `Slot::new`: a fresh slot holding `v`. */
  function NewSlot<T>(s: Slots<T>, v: T): (r: (Slots<T>, SlotId))
    requires s.Valid()
    ensures r.1 !in s.cells
    ensures r.0.cells == s.cells[r.1 := Some(v)]
    ensures r.0.Valid()
  {
    (Slots(s.cells[s.next := Some(v)], s.next + 1), s.next)
  }

  /** `Slot::lease`: takes the value out of a filled slot; an empty slot gives no lease and stays as it is. */
  function Lease<T>(s: Slots<T>, id: SlotId): (r: (Slots<T>, Option<Inner<T>>))
    requires id in s.cells
    ensures r.1.Some? <==> s.cells[id].Some?
    ensures r.1.Some? ==>
      && r.1.value == Value(s.cells[id].value, id)
      && r.0 == s.(cells := s.cells[id := None])
    ensures r.1.None? ==> r.0 == s
  {
    match s.cells[id]
    case Some(v) => (s.(cells := s.cells[id := None]), Some(Value(v, id)))
    case None => (s, None)
  }

  /** `Slot::new_leased`: a fresh slot whose value is immediately leased out, so the slot is left empty. */
  function NewLeased<T>(s: Slots<T>, v: T): (r: (Slots<T>, Inner<T>))
    requires s.Valid()
    ensures r.0.Valid()
    ensures r.1.Value? && r.1.value == v
    ensures r.1.slot !in s.cells
    ensures r.0.cells == s.cells[r.1.slot := None]
  {
    var (s1, id) := NewSlot(s, v);
    var (s2, l) := Lease(s1, id);
    (s2, l.value)
  }

  /** `Slot::into_inner`: consumes the slot and yields what it held at that moment. */
  function IntoInner<T>(s: Slots<T>, id: SlotId): (r: (Slots<T>, Option<T>))
    requires id in s.cells
    ensures r.1 == s.cells[id]
    ensures id !in r.0.cells
    ensures forall k | k in s.cells && k != id :: k in r.0.cells && r.0.cells[k] == s.cells[k]
    ensures forall k | k in r.0.cells :: k in s.cells
  {
    (s.(cells := s.cells - {id}), s.cells[id])
  }

  /**
    `Drop for Lease`: a lease that still holds its value writes it back into
    its slot when the slot is alive; in every case the lease ends up dropped.
   */
  function DropLease<T>(s: Slots<T>, l: Inner<T>): (r: (Slots<T>, Inner<T>))
    ensures r.1 == Dropped
    ensures l.Value? && l.slot in s.cells ==> r.0 == s.(cells := s.cells[l.slot := Some(l.value)])
    ensures !(l.Value? && l.slot in s.cells) ==> r.0 == s
  {
    match l
    case Value(v, id) => (if id in s.cells then s.(cells := s.cells[id := Some(v)]) else s, Dropped)
    case _ => (s, Dropped)
  }

  /** `Deref`/`DerefMut`: only a lease that still holds its value can be used; the others panic. */
  function Deref<T>(l: Inner<T>): (r: T)
    requires l.Value?
  {
    l.value
  }

  /** `steal`: takes the value for good; stealing twice or after a drop panics. */
  function Steal<T>(l: Inner<T>): (r: (Inner<T>, T))
    requires l.Value?
    ensures r.0 == Stolen
    ensures r.1 == l.value
  {
    (Stolen, l.value)
  }

  /** Leasing and then dropping the lease leaves the slots exactly as they were. */
  lemma LeaseThenDropRestores<T>(s: Slots<T>, id: SlotId)
    requires id in s.cells && s.cells[id].Some?
    ensures var (s1, l) := Lease(s, id);
      && l.Some?
      && DropLease(s1, l.value).0 == s
  {
    var (s1, l) := Lease(s, id);
    assert s1.cells[id := Some(l.value.value)] == s.cells;
  }

  /** While a lease is out, its slot gives no second lease. */
  lemma LeaseIsExclusive<T>(s: Slots<T>, id: SlotId)
    requires id in s.cells && s.cells[id].Some?
    ensures var (s1, l) := Lease(s, id);
      && l.Some?
      && Lease(s1, id).1.None?
  {
  }

  /** A stolen lease writes nothing back, so its slot stays empty and `into_inner` finds nothing. */
  lemma StolenLeaseWritesNothing<T>(s: Slots<T>, id: SlotId)
    requires id in s.cells && s.cells[id].Some?
    ensures var (s1, l) := Lease(s, id);
      && l.Some?
      && var s2 := DropLease(s1, Steal(l.value).0).0;
      && s2 == s1
      && IntoInner(s2, id).1.None?
  {
  }

  /** A lease whose slot has been consumed loses its value when dropped. */
  lemma DropAfterIntoInnerLosesValue<T>(s: Slots<T>, id: SlotId, v: T)
    requires id in s.cells
    ensures var s1 := IntoInner(s, id).0;
      DropLease(s1, Value(v, id)).0 == s1
  {
  }

  /** `TxError`: every variant answers 500. */
  datatype TxError<E> = OverlappingExtractors | MissingExtension | Database(error: E)

  const InternalServerError: nat := 500

  function TxErrorStatus<E>(e: TxError<E>): (r: nat)
    ensures r == InternalServerError
  {
    InternalServerError
  }

  /** The outer lease of `LazyTx`: its value is the request's transaction slot, once begun. */
  type LazyTx = Inner<Option<SlotId>>

  /**
    `LazyTx::get_or_begin`: begins a transaction only when the request has
    none, then leases it out. The existing transaction's slot is empty while
    another extractor holds it or after it was stolen; that is reported as
    `OverlappingExtractors`.
   */
  function GetOrBegin<Tx, E>(lazy: LazyTx, txs: Slots<Tx>, begin: Result<Tx, E>): (r: (LazyTx, Slots<Tx>, Result<Inner<Tx>, TxError<E>>))
    requires lazy.Value? && txs.Valid()
    requires lazy.value.Some? ==> lazy.value.value in txs.cells
    ensures r.0.Value? && r.0.slot == lazy.slot && r.1.Valid()
    ensures r.0.value.Some? ==> r.0.value.value in r.1.cells
    // an existing transaction is reused and `begin` is not consulted
    ensures lazy.value.Some? ==>
      && r.0 == lazy
      && (r.2.Ok? <==> txs.cells[lazy.value.value].Some?)
      && (r.2.Err? ==> r.2.error == OverlappingExtractors && r.1 == txs)
    // without one, a failing `begin` changes nothing
    ensures lazy.value.None? && begin.Err? ==> r.2 == Err(Database(begin.error)) && r.0 == lazy && r.1 == txs
    // a successful `begin` is stored in a fresh slot and leased out at once
    ensures lazy.value.None? && begin.Ok? ==>
      && r.2.Ok?
      && r.2.value.Value?
      && r.2.value.value == begin.value
      && r.2.value.slot !in txs.cells
      && r.1.cells == txs.cells[r.2.value.slot := None]
    // a granted lease holds the request's transaction and leaves its slot empty
    ensures r.2.Ok? ==>
      && r.2.value.Value?
      && r.0.value == Some(r.2.value.slot)
      && r.1.cells[r.2.value.slot].None?
      && (forall k | k in txs.cells && k != r.2.value.slot :: k in r.1.cells && r.1.cells[k] == txs.cells[k])
  {
    match Deref(lazy)
    case Some(id) =>
      var (t, l) := Lease(txs, id);
      (lazy, t, if l.Some? then Ok(l.value) else Err(OverlappingExtractors))
    case None =>
      match begin
      case Err(e) => (lazy, txs, Err(Database(e)))
      case Ok(tx) =>
        var (t1, id) := NewSlot(txs, tx);
        var (t2, l) := Lease(t1, id);
        (lazy.(value := Some(id)), t2, Ok(l.value))
  }

  /** `FromRequestParts for Tx`: without the middleware's extension there is nothing to extract. */
  function FromRequestParts<Tx, E>(ext: Option<LazyTx>, txs: Slots<Tx>, begin: Result<Tx, E>): (r: (Option<LazyTx>, Slots<Tx>, Result<Inner<Tx>, TxError<E>>))
    requires txs.Valid()
    requires ext.Some? ==> ext.value.Value?
    requires ext.Some? && ext.value.value.Some? ==> ext.value.value.value in txs.cells
    ensures ext.None? ==> r == (None, txs, Err(MissingExtension))
    // with it, the error is never `MissingExtension` and a lease is the request's transaction
    ensures ext.Some? ==>
      && r.0.Some? && r.0.value.Value? && r.0.value.slot == ext.value.slot
      && r.2 != Err(MissingExtension)
      && (r.2.Ok? ==> r.2.value.Value? && r.0.value.value == Some(r.2.value.slot))
  {
    match ext
    case None => (None, txs, Err(MissingExtension))
    case Some(lazy) =>
      var (lz, t, res) := GetOrBegin(lazy, txs, begin);
      (Some(lz), t, res)
  }

  /** Once a transaction was stolen by `Tx::commit`, a later extraction is refused rather than beginning another. */
  lemma ExtractAfterStealOverlaps<Tx, E>(lazy: LazyTx, txs: Slots<Tx>, begin: Result<Tx, E>)
    requires lazy.Value? && txs.Valid()
    requires lazy.value.None? && begin.Ok?
    ensures var (lz, t, res) := GetOrBegin(lazy, txs, begin);
      && res.Ok?
      && var (_, _) := Steal(res.value);
      && var t' := DropLease(t, Stolen).0;
      && GetOrBegin(lz, t', begin).2 == Err(OverlappingExtractors)
  {
  }

  /**
    What the handler does with the request's transaction, in order: extract
    it (the pool's answer to `begin` is given), commit the held one through
    `Tx::commit`, or drop the held one.
   */
  datatype Step<Tx, E> = Extract(begin: Result<Tx, E>) | Commit | Release

  /** The transaction machinery of one request while the handler runs. */
  datatype Handler<Tx> = Handler(outer: Slots<Option<SlotId>>, lazy: LazyTx, txs: Slots<Tx>, held: seq<Inner<Tx>>)

  /**
    The invariant of a running handler: the outer slot is leased out to the
    extension; at most one `Tx` is held, and only while its slot is empty;
    every held `Tx` still holds its value.
   */
  predicate Inv<Tx>(h: Handler<Tx>) {
    && h.outer.Valid()
    && h.txs.Valid()
    && h.lazy.Value?
    && h.lazy.slot in h.outer.cells
    && h.outer.cells[h.lazy.slot].None?
    && |h.held| <= 1
    && (forall i | 0 <= i < |h.held| :: h.held[i].Value?)
    && (h.lazy.value.None? ==> h.held == [])
    && (h.lazy.value.Some? ==>
          && h.lazy.value.value in h.txs.cells
          && (|h.held| == 1 ==> h.held[0].slot == h.lazy.value.value && h.txs.cells[h.lazy.value.value].None?))
  }

  /** The request's transaction exists and has not been stolen: it sits in its slot or in the held `Tx`. */
  predicate Available<Tx>(h: Handler<Tx>)
    requires Inv(h)
  {
    h.lazy.value.Some? && (h.txs.cells[h.lazy.value.value].Some? || |h.held| == 1)
  }

  /** The state right after `Slot::new_leased(None)`, before the handler runs. */
  function Start<Tx>(): Handler<Tx>
  {
    var (outer, lazy) := NewLeased(NoSlots(), None);
    Handler(outer, lazy, NoSlots(), [])
  }

  /** The start state keeps the handler invariant and holds no transaction. */
  lemma StartIdle<Tx>()
    ensures Inv(Start<Tx>()) && !Available(Start<Tx>()) && Start<Tx>().lazy.value.None?
  {
  }

  /** A step can be taken: committing or dropping needs a `Tx` in hand. */
  predicate Enabled<Tx, E>(h: Handler<Tx>, s: Step<Tx, E>) {
    s.Extract? || |h.held| > 0
  }

  function TakeStep<Tx, E>(h: Handler<Tx>, s: Step<Tx, E>): (r: Handler<Tx>)
    requires Inv(h) && Enabled(h, s)
    ensures Inv(r)
    ensures r.outer == h.outer && r.lazy.slot == h.lazy.slot
    // the transaction is begun by the first successful `begin` and stays begun
    ensures r.lazy.value.None? <==> h.lazy.value.None? && !(s.Extract? && s.begin.Ok?)
    // only `Tx::commit` makes it unavailable, and only a `begin` makes it available
    ensures Available(r) <==> (Available(h) || (h.lazy.value.None? && s.Extract? && s.begin.Ok?)) && !s.Commit?
  {
    var last := |h.held| - 1;
    match s
    case Extract(begin) =>
      var (lz, t, res) := GetOrBegin(h.lazy, h.txs, begin);
      h.(lazy := lz, txs := t, held := if res.Ok? then h.held + [res.value] else h.held)
    case Commit =>
      var (stolen, _) := Steal(h.held[last]);
      h.(txs := DropLease(h.txs, stolen).0, held := h.held[..last])
    case Release =>
      h.(txs := DropLease(h.txs, h.held[last]).0, held := h.held[..last])
  }

  /** The handler's steps can all be taken in turn. */
  predicate Feasible<Tx, E>(h: Handler<Tx>, steps: seq<Step<Tx, E>>)
    requires Inv(h)
    decreases |steps|
  {
    |steps| == 0 || (Enabled(h, steps[0]) && Feasible(TakeStep(h, steps[0]), steps[1..]))
  }

  function Run<Tx, E>(h: Handler<Tx>, steps: seq<Step<Tx, E>>): (r: Handler<Tx>)
    requires Inv(h) && Feasible(h, steps)
    ensures Inv(r) && r.outer == h.outer && r.lazy.slot == h.lazy.slot
    decreases |steps|
  {
    if |steps| == 0 then h else Run(TakeStep(h, steps[0]), steps[1..])
  }

  predicate HasBegin<Tx, E>(steps: seq<Step<Tx, E>>) {
    exists i | 0 <= i < |steps| :: steps[i].Extract? && steps[i].begin.Ok?
  }

  predicate HasCommit<Tx, E>(steps: seq<Step<Tx, E>>) {
    exists i | 0 <= i < |steps| :: steps[i].Commit?
  }

  /**
    After the handler, the request's transaction is still available exactly
    when it was available before or some `begin` succeeded on a request that
    had none, and the handler never called `Tx::commit`.
   */
  lemma {:induction false} RunAvailable<Tx, E>(h: Handler<Tx>, steps: seq<Step<Tx, E>>)
    requires Inv(h) && Feasible(h, steps)
    ensures Available(Run(h, steps)) <==>
      (Available(h) || (h.lazy.value.None? && HasBegin(steps))) && !HasCommit(steps)
    decreases |steps|
  {
    if |steps| > 0 {
      var s := steps[0];
      var h1 := TakeStep(h, s);
      RunAvailable(h1, steps[1..]);
      assert HasBegin(steps) <==> (s.Extract? && s.begin.Ok?) || HasBegin(steps[1..]) by {
        if HasBegin(steps[1..]) {
          var i :| 0 <= i < |steps[1..]| && steps[1..][i].Extract? && steps[1..][i].begin.Ok?;
          assert steps[i + 1] == steps[1..][i];
        }
        if HasBegin(steps) && !(s.Extract? && s.begin.Ok?) {
          var i :| 0 <= i < |steps| && steps[i].Extract? && steps[i].begin.Ok?;
          assert i > 0 && steps[1..][i - 1] == steps[i];
        }
      }
      assert HasCommit(steps) <==> s.Commit? || HasCommit(steps[1..]) by {
        if HasCommit(steps[1..]) {
          var i :| 0 <= i < |steps[1..]| && steps[1..][i].Commit?;
          assert steps[i + 1] == steps[1..][i];
        }
        if HasCommit(steps) && !s.Commit? {
          var i :| 0 <= i < |steps| && steps[i].Commit?;
          assert i > 0 && steps[1..][i - 1] == steps[i];
        }
      }
    }
  }

  /**
    The end of the handler: the held `Tx`, if any, is dropped and writes the
    transaction back; the extension's lease is dropped and writes the
    transaction slot back into the request's outer slot.
   */
  function Finish<Tx>(h: Handler<Tx>): (r: (Slots<Option<SlotId>>, Slots<Tx>))
    requires Inv(h)
    ensures h.lazy.slot in r.0.cells && r.0.cells[h.lazy.slot] == Some(h.lazy.value)
    ensures h.lazy.value.Some? ==>
      && h.lazy.value.value in r.1.cells
      && (r.1.cells[h.lazy.value.value].Some? <==> Available(h))
  {
    var txs := if |h.held| == 1 then DropLease(h.txs, h.held[0]).0 else h.txs;
    (DropLease(h.outer, h.lazy).0, txs)
  }

  /** What the middleware answers, and the transaction it tried to commit, if any. */
  datatype Outcome<Tx> = Outcome(status: nat, committed: Option<Tx>)

  predicate IsSuccess(status: nat) {
    200 <= status < 300
  }

  /**
    `TxService::call`: runs the handler, then on a 2xx response takes the
    transaction out of its slot and commits it; a failing commit turns the
    response into 500. An error from the inner service is passed through.
   */
  function ServiceCall<Tx, E>(steps: seq<Step<Tx, E>>, response: Result<nat, E>, commit: Tx -> Result<(), E>): (r: Result<Outcome<Tx>, E>)
    requires Feasible(Start(), steps)
  {
    var h := Run(Start(), steps);
    var (outer, txs) := Finish(h);
    match response
    case Err(e) => Err(e)
    case Ok(status) =>
      if !IsSuccess(status) then Ok(Outcome(status, None))
      else
        var slot: Option<Option<SlotId>> := IntoInner(outer, h.lazy.slot).1;
        var tx: Option<Tx> := if slot.Some? && slot.value.Some? then IntoInner(txs, slot.value.value).1 else None;
        match tx
        case None => Ok(Outcome(status, None))
        case Some(t) => Ok(Outcome(if commit(t).Err? then InternalServerError else status, Some(t)))
  }

  /**
    The commit rule: after a 2xx response the middleware commits exactly
    when the handler began a transaction and did not commit it itself; a
    failing commit answers 500, and any other response is passed through.
   */
  lemma ServiceCommitRule<Tx, E>(steps: seq<Step<Tx, E>>, response: Result<nat, E>, commit: Tx -> Result<(), E>)
    requires Feasible(Start(), steps)
    ensures var r := ServiceCall(steps, response, commit);
      && (r.Ok? <==> response.Ok?)
      && (response.Err? ==> r.error == response.error)
      && (response.Ok? ==>
            && (r.value.committed.Some? <==> IsSuccess(response.value) && HasBegin(steps) && !HasCommit(steps))
            && r.value.status == (if r.value.committed.Some? && commit(r.value.committed.value).Err? then InternalServerError else response.value))
  {
    RunAvailable(Start<Tx>(), steps);
  }
}

=== FILE: stable_sort.dfy ===
/**
  Stable sort by an integer key: the behaviour of Rust's `slice::sort_by_key`,
  which the storage layer uses to order flow bindings and prompt bindings by
  their `order` field. Modelled as insertion sort where an element is placed
  after every element whose key is not greater than its own.
 */
module StableSort {

  ghost predicate SortedBy<T>(s: seq<T>, key: T -> int)
  {
    forall i, j :: 0 <= i < j < |s| ==> key(s[i]) <= key(s[j])
  }

  /** The subsequence of `s` whose key is `k`, in the order of `s`. */
  function WithKey<T>(s: seq<T>, key: T -> int, k: int): (r: seq<T>)
    ensures |r| <= |s|
  {
    if |s| == 0 then []
    else WithKey(s[..|s| - 1], key, k) + (if key(s[|s| - 1]) == k then [s[|s| - 1]] else [])
  }

  /** Inserts `x` into `s` just before the first element whose key is strictly greater. */
  function Insert<T>(s: seq<T>, x: T, key: T -> int): (r: seq<T>)
  {
    if |s| == 0 then [x]
    else if key(x) < key(s[0]) then [x] + s
    else [s[0]] + Insert(s[1..], x, key)
  }

  /** `sort_by_key`: each element in turn is inserted into the sorted prefix. */
  function SortByKey<T>(s: seq<T>, key: T -> int): (r: seq<T>)
  {
    if |s| == 0 then []
    else Insert(SortByKey(s[..|s| - 1], key), s[|s| - 1], key)
  }

  lemma WithKeyAppend<T>(a: seq<T>, b: seq<T>, key: T -> int, k: int)
    ensures WithKey(a + b, key, k) == WithKey(a, key, k) + WithKey(b, key, k)
    decreases |b|
  {
    if |b| == 0 {
      assert a + b == a;
    } else {
      assert (a + b)[..|a + b| - 1] == a + b[..|b| - 1];
      WithKeyAppend(a, b[..|b| - 1], key, k);
    }
  }

  lemma {:induction false} InsertPermutes<T>(s: seq<T>, x: T, key: T -> int)
    ensures multiset(Insert(s, x, key)) == multiset(s) + multiset{x}
    decreases |s|
  {
    if |s| == 0 {
    } else if key(x) < key(s[0]) {
    } else {
      InsertPermutes(s[1..], x, key);
      assert s == [s[0]] + s[1..];
    }
  }

  lemma {:induction false} InsertSorted<T>(s: seq<T>, x: T, key: T -> int)
    requires SortedBy(s, key)
    ensures SortedBy(Insert(s, x, key), key)
    decreases |s|
  {
    if |s| == 0 {
    } else if key(x) < key(s[0]) {
    } else {
      InsertSorted(s[1..], x, key);
      InsertPermutes(s[1..], x, key);
      var t := Insert(s[1..], x, key);
      forall j | 0 <= j < |t| ensures key(s[0]) <= key(t[j]) {
        assert t[j] in multiset(t);
        assert t[j] in multiset(s[1..]) + multiset{x};
        if t[j] in multiset(s[1..]) {
          var m :| 1 <= m < |s| && s[m] == t[j];
        }
      }
    }
  }

  /** The tail of a sorted sequence is sorted. */
  lemma SortedTail<T>(s: seq<T>, key: T -> int)
    requires |s| > 0 && SortedBy(s, key)
    ensures SortedBy(s[1..], key)
  {
    var tail := s[1..];
    forall i, j | 0 <= i < j < |tail| ensures key(tail[i]) <= key(tail[j]) {
      assert tail[i] == s[i + 1] && tail[j] == s[j + 1];
    }
  }

  /** One step of the insertion past the head: the head's contribution stays in front. */
  lemma InsertWithKeyStep<T>(s: seq<T>, x: T, key: T -> int, k: int)
    requires |s| > 0 && key(s[0]) <= key(x)
    requires WithKey(Insert(s[1..], x, key), key, k) == WithKey(s[1..], key, k) + (if key(x) == k then [x] else [])
    ensures WithKey(Insert(s, x, key), key, k) == WithKey(s, key, k) + (if key(x) == k then [x] else [])
  {
    var tail := s[1..];
    assert Insert(s, x, key) == [s[0]] + Insert(tail, x, key);
    WithKeyAppend([s[0]], Insert(tail, x, key), key, k);
    WithKeyAppend([s[0]], tail, key, k);
    assert s == [s[0]] + tail;
  }

  /** Inserting in front of a sorted sequence: `x` comes last among its key, since nothing else has it. */
  lemma InsertWithKeyFront<T>(s: seq<T>, x: T, key: T -> int, k: int)
    requires SortedBy(s, key)
    requires |s| > 0 && key(x) < key(s[0])
    ensures WithKey(Insert(s, x, key), key, k) == WithKey(s, key, k) + (if key(x) == k then [x] else [])
  {
    assert Insert(s, x, key) == [x] + s;
    WithKeyAppend([x], s, key, k);
    assert [x] == [] + [x];
    if key(x) == k {
      NoKeyBelow(s, key, k);
    }
  }

  /** Inserting `x` into a sorted sequence keeps, per key, the order and appends `x` last among its key. */
  lemma {:induction false} InsertWithKey<T>(s: seq<T>, x: T, key: T -> int, k: int)
    requires SortedBy(s, key)
    ensures WithKey(Insert(s, x, key), key, k) == WithKey(s, key, k) + (if key(x) == k then [x] else [])
    decreases |s|
  {
    if |s| == 0 {
      assert Insert(s, x, key) == [] + [x];
    } else if key(x) < key(s[0]) {
      InsertWithKeyFront(s, x, key, k);
    } else {
      SortedTail(s, key);
      InsertWithKey(s[1..], x, key, k);
      InsertWithKeyStep(s, x, key, k);
    }
  }

  /** In a sorted sequence whose head key exceeds `k`, nothing has key `k`. */
  lemma {:induction false} NoKeyBelow<T>(s: seq<T>, key: T -> int, k: int)
    requires SortedBy(s, key)
    requires |s| > 0 && k < key(s[0])
    ensures WithKey(s, key, k) == []
    decreases |s|
  {
    if |s| > 1 {
      NoKeyBelow(s[..|s| - 1], key, k);
    }
  }

  /**
    The characterisation of a stable sort: the result is sorted, is a
    permutation of the input, and lists the elements of each key in input order.
   */
  lemma {:induction false} SortByKeyIsStableSort<T>(s: seq<T>, key: T -> int)
    ensures SortedBy(SortByKey(s, key), key)
    ensures multiset(SortByKey(s, key)) == multiset(s)
    ensures forall k :: WithKey(SortByKey(s, key), key, k) == WithKey(s, key, k)
    decreases |s|
  {
    if |s| > 0 {
      var p := s[..|s| - 1];
      SortByKeyIsStableSort(p, key);
      InsertSorted(SortByKey(p, key), s[|s| - 1], key);
      InsertPermutes(SortByKey(p, key), s[|s| - 1], key);
      assert s == p + [s[|s| - 1]];
      forall k ensures WithKey(SortByKey(s, key), key, k) == WithKey(s, key, k) {
        InsertWithKey(SortByKey(p, key), s[|s| - 1], key, k);
      }
    }
  }
}

=== FILE: storage_cache.dfy ===
/**
  The per-key memoising cache and the storage helpers of
  storage/src/storage.rs.

  A `DataCache` keeps one slot per key. The first `get` of a key creates an
  empty slot; a filled slot answers every later `get` without a database
  round trip. A failure fills the slot with "absent", so the error is
  reported once and the key then reads as `Ok(None)` until invalidated.
  Eviction by the underlying cache library is not modelled.
 */
module StorageCache {
  import opened Wrappers

  /** A slot: not yet filled, or filled with the remembered answer. */
  datatype Slot<T> = Empty | Filled(value: Option<T>)

  datatype DataCache<I(==), T> = DataCache(slots: map<I, Slot<T>>)

  /** The environment of one `get`: whether the pool hands out a connection, and the getter's answer. */
  datatype Backend<!I, T, E> = Backend(poolError: Option<E>, getter: I -> Result<Option<T>, E>)

  datatype CacheGet<I(==), T, E> = CacheGet(cache: DataCache<I, T>, result: Result<Option<T>, E>)

  /** `DataCache::get`. */
  function Get<I(==,!new), T, E>(c: DataCache<I, T>, id: I, b: Backend<I, T, E>): (r: CacheGet<I, T, E>)
    ensures forall k :: k != id ==> (k in r.cache.slots <==> k in c.slots)
    ensures forall k :: k != id && k in c.slots ==> r.cache.slots[k] == c.slots[k]
    ensures id in r.cache.slots && r.cache.slots[id].Filled?
    // a filled slot answers without the pool or the getter
    ensures id in c.slots && c.slots[id].Filled? ==> r == CacheGet(c, Ok(c.slots[id].value))
    // otherwise: a pool failure is returned and remembered as absent
    ensures (id !in c.slots || c.slots[id].Empty?) && b.poolError.Some? ==>
      r.result == Err(b.poolError.value) && r.cache.slots[id] == Filled(None)
    // otherwise the getter's answer is returned; a value is remembered, an error as absent
    ensures (id !in c.slots || c.slots[id].Empty?) && b.poolError.None? ==>
      && r.result == b.getter(id)
      && r.cache.slots[id] == Filled(if r.result.Ok? then r.result.value else None)
  {
    if id in c.slots && c.slots[id].Filled? then CacheGet(c, Ok(c.slots[id].value))
    else if b.poolError.Some? then CacheGet(DataCache(c.slots[id := Filled(None)]), Err(b.poolError.value))
    else
      var result := b.getter(id);
      CacheGet(DataCache(c.slots[id := Filled(if result.Ok? then result.value else None)]), result)
  }

  /** `invalidate`: forgets the key's slot and nothing else. */
  function Invalidate<I(==,!new), T>(c: DataCache<I, T>, id: I): (r: DataCache<I, T>)
    ensures id !in r.slots
    ensures forall k :: k != id ==> (k in r.slots <==> k in c.slots)
    ensures forall k :: k != id && k in c.slots ==> r.slots[k] == c.slots[k]
  {
    DataCache(c.slots - {id})
  }

  /** A second `get` of a key answers from the slot, whatever the backend says now. */
  lemma SecondGetIsCached<I(!new), T, E>(c: DataCache<I, T>, id: I, b: Backend<I, T, E>, b': Backend<I, T, E>)
    ensures var first := Get(c, id, b);
      var second := Get(first.cache, id, b');
      && second.cache == first.cache
      && (first.result.Ok? ==> second.result == first.result)
      && (first.result.Err? ==> second.result == Ok(None))
  {
  }

  /** After `invalidate`, `get` consults the backend again. */
  lemma InvalidateThenGetAsksBackend<I(!new), T, E>(c: DataCache<I, T>, id: I, b: Backend<I, T, E>)
    requires b.poolError.None?
    ensures Get(Invalidate(c, id), id, b).result == b.getter(id)
  {
  }

  /** Shared ownership of a value; it does not change the value. */
  datatype Arc<T> = Arc(inner: T)

  /** `arced`: wraps a present value, keeping `Ok`/`Err` and `Some`/`None` as they were. */
  function Arced<T, E>(v: Result<Option<T>, E>): (r: Result<Option<Arc<T>>, E>)
    ensures r.Ok? <==> v.Ok?
    ensures r.Err? ==> r.error == v.error
    ensures r.Ok? ==> (r.value.Some? <==> v.value.Some?)
    ensures r.Ok? && r.value.Some? ==> r.value.value.inner == v.value.value
  {
    match v
    case Ok(Some(t)) => Ok(Some(Arc(t)))
    case Ok(None) => Ok(None)
    case Err(e) => Err(e)
  }

  function Unarc<T, E>(v: Result<Option<Arc<T>>, E>): Result<Option<T>, E>
  {
    match v
    case Ok(Some(a)) => Ok(Some(a.inner))
    case Ok(None) => Ok(None)
    case Err(e) => Err(e)
  }

  /** `arced` loses nothing: unwrapping gives back its input. */
  lemma ArcedRoundTrip<T, E>(v: Result<Option<T>, E>)
    ensures Unarc(Arced(v)) == v
  {
  }

  datatype EntityId = Flow(id: int) | Stage(id: int) | Policy(id: int) | Prompt(id: int) | Tenant(id: int)

  datatype Conflict = Conflict(id: int, parent: Option<int>, entity: EntityId)

  /** `conflicts_for`: every entity kind reports no conflicts. */
  function ConflictsFor(entry: EntityId): (r: seq<Conflict>)
    ensures forall c :: c !in r
  {
    match entry
    case Flow(_) => []
    case Stage(_) => []
    case Policy(_) => []
    case Prompt(_) => []
    case Tenant(_) => []
  }
}

=== FILE: storage_flow.dfy ===
/**
  Decoding flows in the storage crate (storage/src/flow.rs): the kind of a
  flow binding row, the ordering of a flow's bindings, and the ids a flow
  query selects.
 */
module StorageFlow {
  import opened Wrappers
  import opened UuidType
  import ModelReference
  import ModelFlow
  import StableSort

  /** A row of the flow-bindings query; the three target columns are nullable. */
  datatype BindingRow = BindingRow(
    userBinding: Option<Uuid>,
    groupBinding: Option<Uuid>,
    policy: Option<int>,
    enabled: bool,
    negate: bool,
    ordering: int)

  /**
    `binding_from_row`: a user target wins over a group target, which wins
    over a policy target. A row with none of them becomes a binding to the
    nil user (and a logged warning).
   */
  function BindingFromRow(row: BindingRow): (b: ModelFlow.FlowBinding)
    ensures b.enabled == row.enabled && b.negate == row.negate && b.order == row.ordering
    ensures row.userBinding.Some? ==> b.kind == ModelFlow.User(row.userBinding.value)
    ensures row.userBinding.None? && row.groupBinding.Some? ==> b.kind == ModelFlow.Group(row.groupBinding.value)
    ensures row.userBinding.None? && row.groupBinding.None? && row.policy.Some? ==>
      b.kind == ModelFlow.Policy(ModelReference.Uid(row.policy.value))
    ensures row.userBinding.None? && row.groupBinding.None? && row.policy.None? ==> b.kind == ModelFlow.User(Nil)
  {
    var kind :=
      if row.userBinding.Some? then ModelFlow.User(row.userBinding.value)
      else if row.groupBinding.Some? then ModelFlow.Group(row.groupBinding.value)
      else if row.policy.Some? then ModelFlow.Policy(ModelReference.Uid(row.policy.value))
      else ModelFlow.User(Nil);
    ModelFlow.FlowBinding(row.enabled, row.negate, row.ordering, kind)
  }

  /** The binding kind's target agrees with the row whenever the row names exactly one target. */
  lemma BindingKindFaithfulForSingleTarget(row: BindingRow)
    requires (if row.userBinding.Some? then 1 else 0) + (if row.groupBinding.Some? then 1 else 0) + (if row.policy.Some? then 1 else 0) == 1
    ensures BindingFromRow(row).kind.User? <==> row.userBinding.Some?
    ensures BindingFromRow(row).kind.Group? <==> row.groupBinding.Some?
    ensures BindingFromRow(row).kind.Policy? <==> row.policy.Some?
  {
  }

  function BindingOrder(b: ModelFlow.FlowBinding): int { b.order }

  function DecodeRows(rows: seq<BindingRow>): (r: seq<ModelFlow.FlowBinding>)
    ensures |r| == |rows|
    ensures forall i :: 0 <= i < |rows| ==> r[i] == BindingFromRow(rows[i])
  {
    seq(|rows|, i requires 0 <= i < |rows| => BindingFromRow(rows[i]))
  }

  /** `get_bindings`: the decoded rows, stably sorted by `order`. */
  function GetBindings(rows: seq<BindingRow>): (r: seq<ModelFlow.FlowBinding>)
    ensures StableSort.SortedBy(r, BindingOrder)
    ensures multiset(r) == multiset(DecodeRows(rows))
    ensures forall k :: StableSort.WithKey(r, BindingOrder, k) == StableSort.WithKey(DecodeRows(rows), BindingOrder, k)
  {
    var decoded := DecodeRows(rows);
    StableSort.SortByKeyIsStableSort(decoded, BindingOrder);
    StableSort.SortByKey(decoded, BindingOrder)
  }

  /** The queries a flow can be looked up by. */
  datatype FlowQuery = ByUid(uid: int) | BySlug(slug: string)

  /**
    `find_all_ids`: a uid query names its own id without asking the
    database; no query lists every flow id (`allIds`, the database's
    answer). A slug query is `todo!()`.
   */
  function FindAllIds<E>(query: Option<FlowQuery>, allIds: Result<seq<int>, E>): (r: Result<seq<int>, E>)
    requires query.Some? ==> query.value.ByUid?
    ensures query.Some? ==> r == Ok([query.value.uid])
    ensures query.None? ==> r == allIds
  {
    match query
    case Some(ByUid(n)) => Ok([n])
    case None => allIds
  }
}

=== FILE: storage_lib.dfy ===
/**
  The recording proxy and the replaying dummy storage (storage/src/lib.rs).

  A `ProxyStorage` forwards queries to a real storage and records every
  value it hands out: each query the value answers (`create_queries`) is
  mapped to the value's id, and the id to the value. `export_data` hands the
  two maps over exactly once; a `DummyStorage` built from them answers the
  recorded queries without a database. `Q` is the query type, `I` the id type.
 */
module StorageLib {
  import opened Wrappers

  /** The recorded maps; `None` once they have been exported. */
  datatype ProxyStorage<Q(==), I(==), D> = ProxyStorage(data: Option<map<I, D>>, query: Option<map<Q, I>>)

  datatype ExportedData<Q(==), I(==), D> = ExportedData(data: map<I, D>, query: map<Q, I>)

  /** The executor's `get_id` and the data's `create_queries`. */
  datatype Keys<Q, I, !D> = Keys(getId: D -> I, createQueries: D -> seq<Q>)

  function NewProxy<Q(==,!new), I(==), D>(): ProxyStorage<Q, I, D>
  {
    ProxyStorage(Some(map[]), Some(map[]))
  }

  lemma NewProxyEmpty<Q(!new), I, D>()
    ensures var p := NewProxy<Q, I, D>();
      Live(p) && Consistent(p) && p.data.value == map[] && p.query.value == map[]
  {
  }

  /** Both maps are still held (nothing has been exported). */
  predicate Live<Q(==,!new), I(==), D>(p: ProxyStorage<Q, I, D>)
  {
    p.data.Some? && p.query.Some?
  }

  /** Every recorded query leads to a recorded value. */
  predicate Consistent<Q(==,!new), I(==), D>(p: ProxyStorage<Q, I, D>)
  {
    Live(p) ==> forall q :: q in p.query.value ==> p.query.value[q] in p.data.value
  }

  /**
    `insert_data`: every query of `d` now leads to `d`'s id and the id to `d`;
    other queries and ids are untouched. Inserting after export panics.
   */
  function InsertData<Q(==,!new), I(==), D>(p: ProxyStorage<Q, I, D>, keys: Keys<Q, I, D>, d: D): (r: ProxyStorage<Q, I, D>)
    requires Live(p)
    ensures Live(r)
    ensures r.data.value == p.data.value[keys.getId(d) := d]
    ensures forall q :: q in keys.createQueries(d) ==> q in r.query.value && r.query.value[q] == keys.getId(d)
    ensures forall q :: q !in keys.createQueries(d) ==> (q in r.query.value <==> q in p.query.value)
    ensures forall q :: q !in keys.createQueries(d) && q in p.query.value ==> r.query.value[q] == p.query.value[q]
    ensures Consistent(p) ==> Consistent(r)
  {
    var id := keys.getId(d);
    var qs := keys.createQueries(d);
    var keysAfter := p.query.value.Keys + (set q | q in qs);
    var query := map q | q in keysAfter :: if q in qs then id else p.query.value[q];
    ProxyStorage(Some(p.data.value[id := d]), Some(query))
  }

  /** `export_data`: hands over both maps and leaves the proxy without them. */
  function ExportData<Q(==,!new), I(==), D>(p: ProxyStorage<Q, I, D>): (r: (ProxyStorage<Q, I, D>, ExportedData<Q, I, D>))
    requires Live(p)
    ensures !Live(r.0)
    ensures r.1.data == p.data.value && r.1.query == p.query.value
  {
    (ProxyStorage(None, None), ExportedData(p.data.value, p.query.value))
  }

  /**
    `find_one`: the backing storage's answer, recorded when it is a value.
    Recording needs the maps, so a success after export would panic.
   */
  function ProxyFindOne<Q(==,!new), I(==), D, E>(p: ProxyStorage<Q, I, D>, keys: Keys<Q, I, D>, backing: Q -> Result<D, E>, q: Q): (r: (ProxyStorage<Q, I, D>, Result<D, E>))
    requires backing(q).Ok? ==> Live(p)
    ensures r.1 == backing(q)
    ensures r.1.Ok? ==> r.0 == InsertData(p, keys, r.1.value)
    ensures r.1.Err? ==> r.0 == p
  {
    match backing(q)
    case Ok(d) => (InsertData(p, keys, d), Ok(d))
    case Err(e) => (p, Err(e))
  }

  /** `find_optional`: like `find_one`, recording only a present value. */
  function ProxyFindOptional<Q(==,!new), I(==), D, E>(p: ProxyStorage<Q, I, D>, keys: Keys<Q, I, D>, backing: Q -> Result<Option<D>, E>, q: Q): (r: (ProxyStorage<Q, I, D>, Result<Option<D>, E>))
    requires backing(q).Ok? && backing(q).value.Some? ==> Live(p)
    ensures r.1 == backing(q)
    ensures r.1.Ok? && r.1.value.Some? ==> r.0 == InsertData(p, keys, r.1.value.value)
    ensures r.1.Err? || r.1.value.None? ==> r.0 == p
  {
    match backing(q)
    case Ok(Some(d)) => (InsertData(p, keys, d), Ok(Some(d)))
    case Ok(None) => (p, Ok(None))
    case Err(e) => (p, Err(e))
  }

  /** `find_all` forwards and records nothing. */
  function ProxyFindAll<Q(==,!new), I(==), D, E>(p: ProxyStorage<Q, I, D>, backing: Option<Q> -> Result<seq<D>, E>, q: Option<Q>): (r: (ProxyStorage<Q, I, D>, Result<seq<D>, E>))
    ensures r.0 == p && r.1 == backing(q)
  {
    (p, backing(q))
  }

  /** `DummyStorage::find_one`: query to id to data; either miss panics. */
  function DummyFindOne<Q(==,!new), I(==), D>(ex: ExportedData<Q, I, D>, q: Q): (r: D)
    requires q in ex.query && ex.query[q] in ex.data
    ensures exists id :: id in ex.data && ex.query[q] == id && ex.data[id] == r
  {
    ex.data[ex.query[q]]
  }

  /** `DummyStorage::find_optional`: an unknown query panics, an id without data gives `None`. */
  function DummyFindOptional<Q(==,!new), I(==), D>(ex: ExportedData<Q, I, D>, q: Q): (r: Option<D>)
    requires q in ex.query
    ensures r.Some? <==> ex.query[q] in ex.data
    ensures r.Some? ==> r.value == ex.data[ex.query[q]]
  {
    if ex.query[q] in ex.data then Some(ex.data[ex.query[q]]) else None
  }

  /**
    Record then replay: a value the proxy handed out is answered by the
    dummy for every query it creates, provided nothing with the same id or
    an overlapping query was recorded afterwards.
   */
  lemma RecordThenReplay<Q(!new), I, D, E>(p: ProxyStorage<Q, I, D>, keys: Keys<Q, I, D>, backing: Q -> Result<D, E>, q: Q, q': Q)
    requires Live(p) && backing(q).Ok?
    requires q' in keys.createQueries(backing(q).value)
    ensures var ex := ExportData(ProxyFindOne(p, keys, backing, q).0).1;
      q' in ex.query && ex.query[q'] in ex.data && DummyFindOne(ex, q') == backing(q).value
  {
  }

  /** A consistent proxy exports data in which every recorded query can be replayed without panicking. */
  lemma ConsistentExportReplays<Q(!new), I, D>(p: ProxyStorage<Q, I, D>, q: Q)
    requires Live(p) && Consistent(p) && q in p.query.value
    ensures var ex := ExportData(p).1; q in ex.query && ex.query[q] in ex.data
  {
  }

  /** The five entity kinds `create_freezed` exports. */
  datatype DataKind = FlowData | StageData | PolicyData | PromptData | TenantData

  /**
    `create_freezed`: every proxy is removed from the manager and exported
    once into a dummy storage of the same kind. A missing proxy panics.
   */
  function CreateFreezed<Q(==,!new), I(==), D>(proxied: map<DataKind, ProxyStorage<Q, I, D>>): (r: map<DataKind, ExportedData<Q, I, D>>)
    requires forall k: DataKind :: k in proxied && Live(proxied[k])
    ensures forall k: DataKind :: k in r && r[k] == ExportData(proxied[k]).1
  {
    map k: DataKind | k in proxied :: ExportData(proxied[k]).1
  }
}

=== FILE: storage_stage.dfy ===
/**
  Decoding stage rows in the storage crate (storage/src/stage.rs).

  The row's `kind` column selects the stage kind; identification and consent
  stages read one more row from their own table, prompt stages read their
  prompt bindings. Reading a missing row is a storage error; reading a NULL
  into a non-optional column panics, so the non-null columns the code relies
  on are preconditions.
 */
module StorageStage {
  import opened Wrappers
  import ModelReference
  import ModelStage
  import StableSort

  datatype PgStageKind = PgDeny | PgPrompt | PgIdentification | PgUserLogin | PgUserLogout | PgUserWrite | PgPassword | PgConsent

  datatype PgConsentMode = PgAlways | PgOnce | PgUntil

  datatype StageRow = StageRow(
    uid: int,
    slug: string,
    kind: PgStageKind,
    timeout: int,
    identificationPasswordStage: Option<int>,
    identificationStage: Option<int>,
    consentStage: Option<int>)

  datatype ConsentRow = ConsentRow(mode: PgConsentMode, until: Option<int>)

  datatype PromptBindingRow = PromptBindingRow(ordering: int, prompt: int)

  /** The tables the decoder reads besides the stage row itself. */
  datatype Tables = Tables(
    identification: map<int, seq<ModelStage.UserField>>,
    consent: map<int, ConsentRow>,
    promptBindings: map<int, seq<PromptBindingRow>>)

  /** `query_one` on a missing row. */
  datatype StorageError = RowNotFound

  /** The columns a kind reads as non-null, and the `until` of an `Until` consent row. */
  predicate NonNullColumns(row: StageRow, t: Tables)
  {
    && (row.kind == PgIdentification ==> row.identificationStage.Some?)
    && (row.kind == PgConsent ==> row.consentStage.Some?)
    && (row.kind == PgConsent && row.consentStage.value in t.consent && t.consent[row.consentStage.value].mode == PgUntil ==>
          t.consent[row.consentStage.value].until.Some?)
  }

  /** `identification_stage`: the user fields of the referenced row, and a password reference iff the column is set. */
  function IdentificationStage(row: StageRow, t: Tables): (r: Result<ModelStage.StageKind, StorageError>)
    requires row.identificationStage.Some?
    ensures r.Ok? <==> row.identificationStage.value in t.identification
    ensures r.Ok? ==> r.value.Identification? && r.value.userFields == t.identification[row.identificationStage.value]
    ensures r.Ok? ==> (r.value.password.Some? <==> row.identificationPasswordStage.Some?)
    ensures r.Ok? && r.value.password.Some? ==> r.value.password.value == ModelReference.Uid(row.identificationPasswordStage.value)
  {
    var id := row.identificationStage.value;
    if id !in t.identification then Err(RowNotFound)
    else
      var password := if row.identificationPasswordStage.Some? then Some(ModelReference.Uid(row.identificationPasswordStage.value)) else None;
      Ok(ModelStage.Identification(password, t.identification[id]))
  }

  /** `password_stage`: the backend is not configurable, it is always the internal one. */
  function PasswordStage(): (r: ModelStage.StageKind)
    ensures r.Password? && r.backends == [ModelStage.Internal]
  {
    ModelStage.Password([ModelStage.Internal])
  }

  /** `consent_stage`: the mode of the referenced row, `Until` carrying its `until` column. */
  function ConsentStage(row: StageRow, t: Tables): (r: Result<ModelStage.StageKind, StorageError>)
    requires row.consentStage.Some?
    requires row.consentStage.value in t.consent && t.consent[row.consentStage.value].mode == PgUntil ==>
      t.consent[row.consentStage.value].until.Some?
    ensures r.Ok? <==> row.consentStage.value in t.consent
    ensures r.Ok? ==> r.value.Consent?
    ensures r.Ok? ==>
      var c := t.consent[row.consentStage.value];
      && (c.mode == PgAlways <==> r.value.mode.Always?)
      && (c.mode == PgOnce <==> r.value.mode.Once?)
      && (c.mode == PgUntil <==> r.value.mode.Until?)
      && (r.value.mode.Until? ==> r.value.mode.duration == c.until.value)
  {
    var id := row.consentStage.value;
    if id !in t.consent then Err(RowNotFound)
    else
      var c := t.consent[id];
      var mode := match c.mode
        case PgAlways => ModelStage.Always
        case PgOnce => ModelStage.Once
        case PgUntil => ModelStage.Until(c.until.value);
      Ok(ModelStage.Consent(mode))
  }

  function BindingOfRow(r: PromptBindingRow): ModelStage.PromptBinding
  {
    ModelStage.PromptBinding(r.ordering, ModelReference.Uid(r.prompt))
  }

  function PromptOrder(b: ModelStage.PromptBinding): int { b.order }

  function PromptBindingsOf(rows: seq<PromptBindingRow>): (r: seq<ModelStage.PromptBinding>)
    ensures |r| == |rows|
    ensures forall i :: 0 <= i < |rows| ==> r[i] == BindingOfRow(rows[i])
  {
    seq(|rows|, i requires 0 <= i < |rows| => BindingOfRow(rows[i]))
  }

  /** `prompt_stage`: the stage's prompt bindings, stably sorted by `order`. */
  function PromptStage(uid: int, t: Tables): (r: ModelStage.StageKind)
    ensures r.Prompt?
    ensures var rows := if uid in t.promptBindings then t.promptBindings[uid] else [];
      && StableSort.SortedBy(r.bindings, PromptOrder)
      && multiset(r.bindings) == multiset(PromptBindingsOf(rows))
      && forall k :: StableSort.WithKey(r.bindings, PromptOrder, k) == StableSort.WithKey(PromptBindingsOf(rows), PromptOrder, k)
  {
    var rows := if uid in t.promptBindings then t.promptBindings[uid] else [];
    var decoded := PromptBindingsOf(rows);
    StableSort.SortByKeyIsStableSort(decoded, PromptOrder);
    ModelStage.Prompt(StableSort.SortByKey(decoded, PromptOrder))
  }

  /** The kind a stage row decodes to; `logoutAs` is what a `user_logout` row becomes. */
  function DecodeKind(row: StageRow, t: Tables, logoutAs: ModelStage.StageKind): Result<ModelStage.StageKind, StorageError>
    requires NonNullColumns(row, t)
  {
    match row.kind
    case PgDeny => Ok(ModelStage.Deny)
    case PgPrompt => Ok(PromptStage(row.uid, t))
    case PgIdentification => IdentificationStage(row, t)
    case PgUserLogin => Ok(ModelStage.UserLogin)
    case PgUserLogout => Ok(logoutAs)
    case PgUserWrite => Ok(ModelStage.UserWrite)
    case PgPassword => Ok(PasswordStage())
    case PgConsent => ConsentStage(row, t)
  }

  function WithRow(row: StageRow, kind: Result<ModelStage.StageKind, StorageError>): Result<ModelStage.Stage, StorageError>
  {
    if kind.Ok? then Ok(ModelStage.Stage(row.uid, row.slug, kind.value, row.timeout)) else Err(kind.error)
  }

  /** `from_row` as written: a `user_logout` row decodes to `UserWrite`. */
  function FromRowAsWritten(row: StageRow, t: Tables): (r: Result<ModelStage.Stage, StorageError>)
    requires NonNullColumns(row, t)
    ensures r.Ok? ==> r.value.uid == row.uid && r.value.slug == row.slug && r.value.timeout == row.timeout
    ensures row.kind == PgUserLogout ==> r == Ok(ModelStage.Stage(row.uid, row.slug, ModelStage.UserWrite, row.timeout))
  {
    WithRow(row, DecodeKind(row, t, ModelStage.UserWrite))
  }

  /** `from_row` with the `user_logout` row decoding to `UserLogout`. */
  function FromRow(row: StageRow, t: Tables): (r: Result<ModelStage.Stage, StorageError>)
    requires NonNullColumns(row, t)
    ensures r.Ok? ==> r.value.uid == row.uid && r.value.slug == row.slug && r.value.timeout == row.timeout
    ensures row.kind == PgDeny ==> r == Ok(ModelStage.Stage(row.uid, row.slug, ModelStage.Deny, row.timeout))
    ensures row.kind == PgUserLogin ==> r == Ok(ModelStage.Stage(row.uid, row.slug, ModelStage.UserLogin, row.timeout))
    ensures row.kind == PgUserWrite ==> r == Ok(ModelStage.Stage(row.uid, row.slug, ModelStage.UserWrite, row.timeout))
    ensures row.kind == PgPassword ==> r == Ok(ModelStage.Stage(row.uid, row.slug, ModelStage.Password([ModelStage.Internal]), row.timeout))
    ensures row.kind == PgPrompt ==> r.Ok? && r.value.kind.Prompt?
  {
    WithRow(row, DecodeKind(row, t, ModelStage.UserLogout))
  }

  /** The `kind` column a stage kind is stored under. */
  function ColumnOf(k: ModelStage.StageKind): PgStageKind
  {
    match k
    case Deny => PgDeny
    case Prompt(_) => PgPrompt
    case Identification(_, _) => PgIdentification
    case UserLogin => PgUserLogin
    case UserLogout => PgUserLogout
    case UserWrite => PgUserWrite
    case Password(_) => PgPassword
    case Consent(_) => PgConsent
  }

  /** The corrected decoder keeps the row's kind: a decoded stage is stored back under the same column value. */
  lemma FromRowKeepsKind(row: StageRow, t: Tables)
    requires NonNullColumns(row, t)
    ensures FromRow(row, t).Ok? ==> ColumnOf(FromRow(row, t).value.kind) == row.kind
  {
  }

  /** As written, a logout stage comes back as a write stage: the stored kind is lost. */
  lemma LogoutDecodesAsWrite(t: Tables)
    ensures var row := StageRow(1, "logout", PgUserLogout, 0, None, None, None);
      && FromRowAsWritten(row, t).Ok?
      && ColumnOf(FromRowAsWritten(row, t).value.kind) != row.kind
      && FromRowAsWritten(row, t).value.kind == ModelStage.UserWrite
  {
  }
}

=== FILE: uri.dfy ===
/**
  The request URI exposed to policy expressions (policy-engine/src/uri.rs):
  a scheme restricted to HTTP and HTTPS, and the URI's parts, with the port
  falling back to the scheme's default.

  Parsing a URI is the HTTP library's work; its result is the input
  `ParsedUri`.
 */
module Uri {
  import opened Wrappers

  type U16 = x: int | 0 <= x < 0x1_0000

  /** The HTTP library's scheme; `OtherScheme` is any scheme besides the two it names. */
  datatype HttpScheme = HTTP | HTTPS | OtherScheme(name: string)

  /** The schemes a policy can see. */
  datatype Scheme = Http | Https

  datatype UriError = MissingScheme | UnsupportedScheme

  /** `TryFrom<&Scheme> for Scheme`. */
  function SchemeFrom(s: HttpScheme): (r: Result<Scheme, UriError>)
    ensures r.Ok? <==> !s.OtherScheme?
    ensures r.Err? ==> r.error == UnsupportedScheme
    ensures r.Ok? ==> (r.value == Https <==> s == HTTPS)
  {
    match s
    case HTTP => Ok(Http)
    case HTTPS => Ok(Https)
    case OtherScheme(_) => Err(UnsupportedScheme)
  }

  /** The back direction: every policy scheme comes from exactly one library scheme. */
  function ToHttpScheme(s: Scheme): HttpScheme {
    match s
    case Http => HTTP
    case Https => HTTPS
  }

  lemma SchemeRoundTrip(s: Scheme, h: HttpScheme)
    ensures SchemeFrom(ToHttpScheme(s)) == Ok(s)
    ensures SchemeFrom(h).Ok? ==> ToHttpScheme(SchemeFrom(h).value) == h
  {
  }

  /** What the HTTP library reports about a parsed URI. */
  datatype ParsedUri = ParsedUri(text: string, port: Option<U16>, path: string, query: Option<string>)

  /** `RhaiUri`. */
  datatype RhaiUri = RhaiUri(uri: string, scheme: Scheme, host: string, port: Option<U16>, path: string, query: Option<string>)

  /**
    `RhaiUri::create`: never fails; the scheme and host are the caller's,
    not the URI's, and the rest is copied from the parsed URI.
   */
  function Create(scheme: Scheme, host: string, uri: ParsedUri): (r: Result<RhaiUri, UriError>)
    ensures r.Ok?
    ensures r.value.scheme == scheme && r.value.host == host
    ensures r.value.uri == uri.text && r.value.port == uri.port
    ensures r.value.path == uri.path && r.value.query == uri.query
  {
    Ok(RhaiUri(uri.text, scheme, host, uri.port, uri.path, uri.query))
  }

  /** The default ports of http and https (sections 4.2.1 and 4.2.2 of RFC 9110). */
  function DefaultPort(s: Scheme): (r: U16)
    ensures s == Http ==> r == 80
    ensures s == Https ==> r == 443
  {
    match s
    case Https => 443
    case Http => 80
  }

  /** The `port` getter: the explicit port, else the scheme's default. */
  function GetPort(u: RhaiUri): (r: U16)
    ensures u.port.Some? ==> r == u.port.value
    ensures u.port.None? ==> r == DefaultPort(u.scheme)
  {
    match u.port
    case Some(p) => p
    case None => DefaultPort(u.scheme)
  }

  /** The port a policy sees for a created URI: an explicit port wins, and otherwise the scheme the caller passed decides. */
  lemma CreatedPort(scheme: Scheme, host: string, uri: ParsedUri)
    ensures var p := GetPort(Create(scheme, host, uri).value);
      && (uri.port.Some? ==> p == uri.port.value)
      && (uri.port.None? && scheme == Http ==> p == 80)
      && (uri.port.None? && scheme == Https ==> p == 443)
  {
  }

  predicate IsHttp(s: Scheme) { s == Http }

  predicate IsHttps(s: Scheme) { s == Https }

  /** `is_http` and `is_https`: every scheme is exactly one of the two. */
  lemma ExactlyOneScheme(s: Scheme)
    ensures IsHttp(s) != IsHttps(s)
  {
  }
}

=== FILE: user_service.dfy ===
/**
  Looking users up for the identification stage (server/src/service/user.rs).
  The `users` table is a sequence of rows; a query that fetches one optional
  row returns the first matching row. UUID parsing is a parameter.
 */
module UserService {
  import opened Wrappers
  import opened UuidType

  datatype UserRow = UserRow(uid: Uuid, name: string, email: Option<string>, password: Option<string>, administrator: bool)

  /** `PartialUser` (model/src/user.rs). */
  datatype PartialUser = PartialUser(uid: Uuid, name: string, avatarUrl: Option<string>, isAdmin: bool)

  /** The user a row describes, as every lookup builds it. */
  function PartialUserOf(row: UserRow): PartialUser
  {
    PartialUser(row.uid, row.name, None, row.administrator)
  }

  /** The first row satisfying `p`, as `fetch_optional` returns it. */
  function FirstMatch(rows: seq<UserRow>, p: UserRow -> bool): (r: Option<UserRow>)
    ensures r.None? <==> forall i :: 0 <= i < |rows| ==> !p(rows[i])
    ensures r.Some? ==>
      exists i :: 0 <= i < |rows| && rows[i] == r.value && p(rows[i]) && (forall j :: 0 <= j < i ==> !p(rows[j]))
  {
    if |rows| == 0 then None
    else if p(rows[0]) then Some(rows[0])
    else
      var r := FirstMatch(rows[1..], p);
      assert forall i :: 1 <= i < |rows| ==> rows[i] == rows[1..][i - 1];
      r
  }

  function ByName(text: string): UserRow -> bool { (row: UserRow) => row.name == text }
  function ByEmail(text: string): UserRow -> bool { (row: UserRow) => row.email == Some(text) }
  function ByUid(uid: Uuid): UserRow -> bool { (row: UserRow) => row.uid == uid }

  predicate Hit(users: seq<UserRow>, p: UserRow -> bool)
  {
    exists i :: 0 <= i < |users| && p(users[i])
  }

  /** Some enabled identifier of some user matches `text`. */
  predicate AnyHit(users: seq<UserRow>, text: string, useName: bool, useEmail: bool, useUuid: bool, parseUuid: string -> Option<Uuid>)
  {
    || (useName && Hit(users, ByName(text)))
    || (useEmail && Hit(users, ByEmail(text)))
    || (useUuid && parseUuid(text).Some? && Hit(users, ByUid(parseUuid(text).value)))
  }

  /**
    `lookup_user`: by name, then by email, then by UUID, each only when
    enabled; the first hit wins. Text that is not a UUID ends the search
    once name and email have missed.
   */
  function LookupUser(users: seq<UserRow>, text: string, useName: bool, useEmail: bool, useUuid: bool, parseUuid: string -> Option<Uuid>): (r: Option<PartialUser>)
    ensures r.None? <==> !AnyHit(users, text, useName, useEmail, useUuid, parseUuid)
    ensures r.Some? ==> r.value.avatarUrl.None? && exists i :: 0 <= i < |users| && r.value == PartialUserOf(users[i])
    ensures useName && Hit(users, ByName(text)) ==> r == Some(PartialUserOf(FirstMatch(users, ByName(text)).value))
    // an email hit is the answer only when the name missed
    ensures !(useName && Hit(users, ByName(text))) && useEmail && Hit(users, ByEmail(text)) ==>
      r == Some(PartialUserOf(FirstMatch(users, ByEmail(text)).value))
    // the uuid is tried last, and only for text that parses as one
    ensures !(useName && Hit(users, ByName(text))) && !(useEmail && Hit(users, ByEmail(text))) ==>
      && (useUuid && parseUuid(text).Some? && Hit(users, ByUid(parseUuid(text).value)) ==>
            r == Some(PartialUserOf(FirstMatch(users, ByUid(parseUuid(text).value)).value)))
      && (!useUuid || parseUuid(text).None? ==> r.None?)
    ensures r.Some? && r.value.name != text ==> !(useName && Hit(users, ByName(text)))
  {
    var byName := if useName then FirstMatch(users, ByName(text)) else None;
    if byName.Some? then Some(PartialUserOf(byName.value))
    else
      var byEmail := if useEmail then FirstMatch(users, ByEmail(text)) else None;
      if byEmail.Some? then Some(PartialUserOf(byEmail.value))
      else if useUuid then
        match parseUuid(text)
        case None => None
        case Some(uuid) =>
          var byUid := FirstMatch(users, ByUid(uuid));
          if byUid.Some? then Some(PartialUserOf(byUid.value)) else None
      else None
  }

  /** The queries `lookup_user` may run, in the order it runs them: those enabled, and the uuid one only for text that parses. */
  function Queries(text: string, useName: bool, useEmail: bool, useUuid: bool, parseUuid: string -> Option<Uuid>): seq<UserRow -> bool>
  {
    (if useName then [ByName(text)] else [])
    + (if useEmail then [ByEmail(text)] else [])
    + (if useUuid && parseUuid(text).Some? then [ByUid(parseUuid(text).value)] else [])
  }

  /** The user of the first row found by the first query that finds any. */
  function FirstHit(users: seq<UserRow>, qs: seq<UserRow -> bool>): Option<PartialUser>
    decreases |qs|
  {
    if |qs| == 0 then None
    else if FirstMatch(users, qs[0]).Some? then Some(PartialUserOf(FirstMatch(users, qs[0]).value))
    else FirstHit(users, qs[1..])
  }

  /** `lookup_user` is the first hit over its enabled queries taken in order: name, email, uuid. */
  lemma LookupUserIsFirstHit(users: seq<UserRow>, text: string, useName: bool, useEmail: bool, useUuid: bool, parseUuid: string -> Option<Uuid>)
    ensures LookupUser(users, text, useName, useEmail, useUuid, parseUuid) == FirstHit(users, Queries(text, useName, useEmail, useUuid, parseUuid))
  {
    var n := if useName then [ByName(text)] else [];
    var m := if useEmail then [ByEmail(text)] else [];
    var u := if useUuid && parseUuid(text).Some? then [ByUid(parseUuid(text).value)] else [];
    FirstHitAppend(users, n, m + u);
    FirstHitAppend(users, m, u);
    assert Queries(text, useName, useEmail, useUuid, parseUuid) == n + (m + u);
  }

  /** Searching a concatenation searches the front first. */
  lemma {:induction false} FirstHitAppend(users: seq<UserRow>, a: seq<UserRow -> bool>, b: seq<UserRow -> bool>)
    ensures FirstHit(users, a + b) == if FirstHit(users, a).Some? then FirstHit(users, a) else FirstHit(users, b)
    decreases |a|
  {
    if |a| > 0 {
      assert (a + b)[1..] == a[1..] + b;
      FirstHitAppend(users, a[1..], b);
    } else {
      assert a + b == b;
    }
  }

  /** When no user is named by the text, a user whose email it is wins over any uuid match. */
  lemma EmailBeatsUuid(users: seq<UserRow>, text: string, useUuid: bool, parseUuid: string -> Option<Uuid>, i: nat)
    requires i < |users| && users[i].email == Some(text)
    requires forall j :: 0 <= j < |users| ==> users[j].name != text
    ensures LookupUser(users, text, true, true, useUuid, parseUuid).Some?
    ensures LookupUser(users, text, true, true, useUuid, parseUuid).value == PartialUserOf(FirstMatch(users, ByEmail(text)).value)
  {
    assert ByEmail(text)(users[i]);
  }

  /** A name match wins over another user whose email equals the text. */
  lemma NameBeatsEmail(users: seq<UserRow>, text: string, useEmail: bool, useUuid: bool, parseUuid: string -> Option<Uuid>, i: nat)
    requires i < |users| && users[i].name == text
    ensures LookupUser(users, text, true, useEmail, useUuid, parseUuid).Some?
    ensures LookupUser(users, text, true, useEmail, useUuid, parseUuid).value.name == text
  {
    assert ByName(text)(users[i]);
  }

  /** `lookup_user_uid`: the user with that uid, if there is one. */
  function LookupUserUid(users: seq<UserRow>, uid: Uuid): (r: Option<PartialUser>)
    ensures r.Some? <==> exists i :: 0 <= i < |users| && users[i].uid == uid
    ensures r.Some? ==> r.value.uid == uid && r.value.avatarUrl.None?
  {
    var row := FirstMatch(users, ByUid(uid));
    if row.Some? then Some(PartialUserOf(row.value)) else None
  }
}

=== FILE: uuid.dfy ===
/** UUIDs are opaque identifiers to the model; only equality and the nil UUID matter. */
module UuidType {
  type Uuid = nat

  /** `Uuid::nil()`. */
  const Nil: Uuid := 0
}

=== FILE: wrappers.dfy ===
/**
  Option and Result, the two wrappers the modelled Rust code returns
  everywhere (`Option<T>` and `Result<T, E>`).
 */
module Wrappers {

  datatype Option<+T> = None | Some(value: T)
  {
    /** The held value, or `default` when there is none. */
    function UnwrapOr(default: T): T
    {
      match this
      case Some(v) => v
      case None => default
    }
  }

  datatype Result<+T, +E> = Ok(value: T) | Err(error: E)
}
